=== FILE: README.md ===
# Proxy Geo Enhancer — a Dafny model of the subscription converter

Proxy Geo Enhancer takes proxy subscriptions and does four things with them:
- it reads each one as a Clash YAML document, a sing-box JSON document, or a base64 list of `vmess://` and `trojan://` share links;
- it tests every node by running a proxy core (Clash Meta or sing-box) through it;
- it asks a geolocation service which country the node exits in, and prefixes the node's name with that country code;
- it writes the renamed nodes back out as a Clash document, a sing-box document, or a base64 v2rayN link list.

A helper downloads the two core binaries from their latest GitHub releases.

This project models that core as pure functions over immutable data:
- a JSON-like `Value` tree and `Node` maps;
- the link parsers and the subscription reader;
- the per-node test as an event trace over an input "world";
- the core-selection decision;
- the three output renderers;
- the core-binary download logic.

The Python library behaviour the code relies on is modelled explicitly:
- `base64.b64decode`'s non-validating decoder and `b64encode`;
- strict and `errors='replace'` UTF-8;
- `urllib.parse` splitting, `quote` and `unquote`, and `urlencode` and `parse_qs`;
- `int()` and `str()` on integers;
- the `str` methods.

The library behaviour is that of CPython 3.12. Two places depend on the version: `urlsplit` accepts a port only when it is ASCII digits (older releases used `int(port, 10)`, which also took `+80` or `8_0`), and `b64decode` uses the non-strict `a2b_base64`.

JSON and YAML text, container `repr`, and the two `urlsplit` host checks are abstract. They are fields of a `Runtime` record passed as a parameter.

Modules (one per file):
- `Wrappers`: `Option` and `Result`.
- `PyStr`, `Utf8`, `Base64`, `Numerals`, `Url`, `Percent`: Python library behaviour.
- `Values`: Python values and exceptions.
- `Links`: share-link parsers.
- `Subscription`: fetching and reading a subscription.
- `IpCheck`: the geolocation result.
- `ProxyManager`: starting and stopping a core.
- `Probe`: testing one node.
- `Outputs`: the three renderers.
- `RoundTrip`: reading regenerated links back.
- `Pipeline`: `process_subscriptions`.
- `Provision`: `github_api.py`.

Where the code has a defect, the model keeps the code as written and a corrected version side by side (see Findings). The rest of the model uses the corrected version.

## Model

| member | source | states |
|---|---|---|
| Links.VmessPayload | backend/app/core/sub_converter.py:17-21 | a payload is only produced for a link that starts with `vmess://` |
| Links.VmessNode | backend/app/core/sub_converter.py:23-37 | the node is built exactly when `int()` accepts both the port and the alterId, otherwise the parser's `except` turns it into `None` |
| Links.VmessNodeShape | backend/app/core/sub_converter.py:23-37 | a parsed vmess node has exactly the eleven keys, type `vmess`, and keeps the link it came from |
| Links.VmessNodeTransport | backend/app/core/sub_converter.py:27-32 | port and alterId are integers; `ws-opts` is present (non-null) if and only if the network is `ws` |
| Links.VmessNodeTls | backend/app/core/sub_converter.py:33-34 | `tls` is a boolean and the SNI is null whenever TLS is off |
| Links.VmessNodeDefaults | backend/app/core/sub_converter.py:24-30 | a missing `ps`, `aid` or `scy` gives the name `Unnamed VMess`, alterId 0 and cipher `auto` |
| Links.VmessNodeFields | backend/app/core/sub_converter.py:23-37 | every field of a parsed vmess node is read from the payload key it corresponds to (`ps`, `add`, `id`, `port`, `aid`, `scy`, `net`), with the stated defaults, and the node keeps its link |
| Links.ParseVmess | backend/app/core/sub_converter.py:16-40 | the parser returns a node if and only if the link has the prefix, the payload decodes as base64, UTF-8 and a JSON object, and port and alterId convert; the node then has the vmess shape, transport, TLS and default properties |
| Links.TrojanRemarks | backend/app/core/sub_converter.py:52 | a non-empty fragment becomes the name, percent-decoded; with no fragment the name is `server:port`, with `None` for a missing host |
| Links.TrojanSni | backend/app/core/sub_converter.py:54-65 | a non-empty first `sni` query value is the SNI; with no `sni` parameter the SNI is the host name (null when there is none) |
| Links.TrojanNode | backend/app/core/sub_converter.py:49-69 | the node has exactly the eight trojan keys: the remarks as name, type `trojan`, the host name as server and the user name as password (null when absent), the integer port, the SNI, `skip-cert-verify` true exactly when the first `allowInsecure` value is `1`, and the link itself |
| Links.TrojanRecordShape | backend/app/core/sub_converter.py:59-69 | a trojan node has exactly the eight trojan keys |
| Links.TrojanRecordFields | backend/app/core/sub_converter.py:59-69 | every field of the trojan node is the parsed part it is built from, and absent parts become null |
| Links.ParseTrojan | backend/app/core/sub_converter.py:42-72 | the parser returns a node if and only if the link has the prefix, it splits as a URL and it has a port that is a number in 0..65535 (a missing port makes `int(None)` raise); the node has the trojan keys, a string name, a boolean certificate flag and an in-range port |
| Subscription.Classify | backend/app/core/sub_converter.py:86-106 | the Clash test wins over the sing-box test, and a body passing neither is read as a link list (all three directions as if-and-only-if) |
| Subscription.DictPrefix | backend/app/core/sub_converter.py:90-93 | the loop collects the leading dictionaries and stops at the first item that is not one |
| Subscription.TagDicts | backend/app/core/sub_converter.py:90-93 | each collected Clash proxy is the item with `_source_format` set to `clash_dict` |
| Subscription.ClashNodes | backend/app/core/sub_converter.py:88-94 | a mapping whose `proxies` is a list gives its leading dictionaries, in order, each with the Clash tag added; any other document gives no nodes |
| Subscription.KeepOutbounds | backend/app/core/sub_converter.py:101-103 | exactly the outbounds of the five proxy types before the first non-dictionary are kept, each tagged `singbox_dict` |
| Subscription.KeepOutboundsAppend | backend/app/core/sub_converter.py:101-103 | the loop handles the outbounds one by one: after a run of dictionaries, the kept outbounds of the whole list are those of the run, in order, followed by those of the rest |
| Subscription.KeepOutboundsOne | backend/app/core/sub_converter.py:101-103 | a single outbound is kept, tagged `singbox_dict`, exactly when it is a dictionary of one of the five types |
| Subscription.SingboxNodes | backend/app/core/sub_converter.py:98-104 | a JSON object whose `outbounds` is a list gives exactly the kept, tagged outbounds; any other document gives no nodes |
| Subscription.ParseLine | backend/app/core/sub_converter.py:111-118 | a line yields a node only when its stripped text starts with a known scheme, and the node records that stripped text as its original link |
| Subscription.ParseLines | backend/app/core/sub_converter.py:110-119 | at most one node per line, each carrying the link it came from |
| Subscription.ParseLinesAppend | backend/app/core/sub_converter.py:110-118 | the lines are read one after another: the nodes of two runs of lines are those of the first run followed by those of the second |
| Subscription.ParseLinesOne | backend/app/core/sub_converter.py:111-118 | one line gives its parsed node when it has a known scheme and parses, and nothing otherwise |
| Subscription.ParseLinesKeepsAll | backend/app/core/sub_converter.py:110-119 | when every line parses, the nodes are exactly the parsed lines, in line order |
| Subscription.FetchNodes | backend/app/core/sub_converter.py:77-143 | a failed request gives no nodes; otherwise the nodes are exactly those of the Clash reader, the sing-box reader or the link-list reader, chosen by the format the body was classified as, and carry that format's marks |
| Subscription.PlainLinksFallBack | backend/app/core/sub_converter.py:106-132 | a body that is itself a vmess or trojan link list fails the base64 and UTF-8 step and is read line by line as it stands |
| Subscription.LinkListNodes | backend/app/core/sub_converter.py:106-132 | the decoded text is read line by line when base64 and UTF-8 decoding both succeed, and the raw body otherwise; every node keeps its original link as a string |
| Subscription.EncodeLinkList | backend/app/core/sub_converter.py:459 | the v2rayN body consists of base64 characters only |
| Subscription.EncodedIsLinkList | backend/app/core/sub_converter.py:86-106 | base64 text passes neither format test, so a v2rayN body is read back as a link list |
| Subscription.LinkListRoundTrip | backend/app/core/sub_converter.py:108-118 | reading a v2rayN body made of clean links yields exactly the nodes of those links parsed one by one |
| IpCheck.CountryCode | backend/app/core/ip_checker.py:11-33 | a reported code is upper-cased; a timeout gives `TO`, another request error `ER`, anything else `XX`; the result is never empty and has no lower-case letters |
| ProxyManager.Dirname | backend/app/core/proxy_manager.py:35 | the directory is a prefix of the path, empty without a slash, and has no trailing slash unless it is all slashes |
| ProxyManager.Command | backend/app/core/proxy_manager.py:29-39 | only `clash` and `singbox` get a command; it starts with the core and ends with the config; Clash gets `-d dir -f` and sing-box gets `run -c` |
| ProxyManager.RunProxyCore | backend/app/core/proxy_manager.py:15-54 | a missing core, then a missing config, raise `FileNotFoundError` in that order; the process starts if and only if both exist, the kind is known and the spawn succeeds |
| ProxyManager.StopProxyCore | backend/app/core/proxy_manager.py:56-74 | a running process ends exited after terminate and a wait of up to 5 s; a kill happens if and only if it was running and did not stop in time; anything else is left alone |
| ProxyManager.StopIdempotent | backend/app/core/proxy_manager.py:71-72 | stopping an already-stopped process does nothing |
| ProxyManager.KillAfterTerminate | backend/app/core/proxy_manager.py:61-67 | every kill comes after a terminate |
| Probe.KindName | backend/app/core/sub_converter.py:157 | both core kinds name a command `run_proxy_core` can build |
| Probe.UsedPorts | backend/app/core/sub_converter.py:179-184 | a Clash test configuration listens on the base port and the two after it; a sing-box one on the base port alone |
| Probe.ClashProbeConfigAsWritten | backend/app/core/sub_converter.py:171-194 | the Clash test configuration raises `KeyError('name')` if and only if the node has no name, and otherwise is the corrected configuration with the node's name |
| Probe.ClashProbeConfigProxies | backend/app/core/sub_converter.py:185-192 | the proxy list is the node without the two helper keys, and the single `GLOBAL` select group holds the given name |
| Probe.ClashProbeConfigRouting | backend/app/core/sub_converter.py:179-193 | everything matches `GLOBAL` in global mode; HTTP, SOCKS and controller ports are port, port+1 and port+2 |
| Probe.ClashProbeConfigConsistent | backend/app/core/sub_converter.py:185-190 | for a named node the group's only member is the name of the only proxy |
| Probe.SingboxProbeConfig | backend/app/core/sub_converter.py:202-228 | the document has exactly `log`, `inbounds`, `outbounds` and `route`; the first of the two outbounds is the node without its helper keys, and its tag is the route's final outbound |
| Probe.SingboxProbeConfigRoute | backend/app/core/sub_converter.py:217-227 | the outbounds are the node tagged `proxy` and a direct one, and the route ends at `proxy` |
| Probe.SingboxProbeConfigInbound | backend/app/core/sub_converter.py:209-216 | one mixed inbound on 127.0.0.1 at the given port |
| Probe.ConfigFor | backend/app/core/sub_converter.py:167-230 | Clash gets the Clash test configuration for the given name and sing-box gets the sing-box one; both are mappings |
| Probe.Relabel | backend/app/core/sub_converter.py:279 | only the name changes; it becomes `[code] ` followed by `str()` of the name the node had on entry (or the fallback) |
| Probe.RunTest | backend/app/core/sub_converter.py:232-276 | a core that is still running after start-up gives the geolocation code, one that has exited gives `FL`, a missing executable `NC` and any other start error `TE`; the config is written first and removed last on every path; a process is stopped if and only if it was launched |
| Probe.TestNode | backend/app/core/sub_converter.py:146-280 | a missing core gives `ER-CORE` with no side effects; otherwise a running core gives the geolocation code, an exited one `FL`, a missing executable `NC` and another start error `TE`, the write, launch, stop and remove trace holds, and the node is relabelled with the resulting code |
| Probe.ExitedCoreNotSignalled | backend/app/core/sub_converter.py:244-267 | a core that exits during start-up gives `FL`, and stopping it sends no signal |
| Probe.SharedResources | backend/app/core/config.py:20-24 | the source's test resources use the fixed port 10808 |
| Probe.ProbeResourcesAsWritten | backend/app/core/sub_converter.py:157-159 | every test of a kind uses that kind's core path whatever its slot |
| Probe.SharedResourcesCollide | backend/app/core/sub_converter.py:178-184 | two tests of the same kind share their configuration file and overlap in ports |
| Probe.SlotResources | backend/app/core/config.py:20-24 | the test in slot k uses base port 10808 + 3k and the core of its kind |
| Probe.SlotsDisjoint | backend/app/core/sub_converter.py:179-184 | tests in different slots share no configuration path and no port |
| Outputs.Names | backend/app/core/sub_converter.py:369 | `node["name"]` for every node, or `KeyError('name')` if and only if some node lacks one |
| Outputs.Stripped | backend/app/core/sub_converter.py:367 | each node loses exactly its `_`-prefixed keys |
| Outputs.ClashProxies | backend/app/core/sub_converter.py:364-373 | the proxies are the nodes in input order with their `_`-prefixed keys removed, or exactly the `NO-NODES-VALID` direct placeholder when there are none |
| Outputs.ClashMembers | backend/app/core/sub_converter.py:369-377 | the group members are the node names as they are, or exactly `NO-NODES-VALID` when there are none |
| Outputs.ClashDocument | backend/app/core/sub_converter.py:347-377 | the document has exactly proxies, proxy-groups and rules; the proxies are the stripped nodes; the url-test group lists the members, and the select group lists the url-test group followed by the members; the two rules send google.com to the url-test group and everything else to the select group |
| Outputs.ClashGroupsConsistent | backend/app/core/sub_converter.py:364-377 | every proxy in the Clash output is named by the group member at its position |
| Outputs.ClashOutput | backend/app/core/sub_converter.py:345-379 | Clash output succeeds if and only if every node has a name, and dumps the document |
| Outputs.SingboxOutbounds | backend/app/core/sub_converter.py:393-405 | each stripped node is tagged with its name, followed by the DIRECT outbound |
| Outputs.SingboxDocument | backend/app/core/sub_converter.py:384-408 | the outbounds are the tagged nodes then DIRECT; the route has one rule sending traffic to the first name (none without nodes) and its chosen final outbound |
| Outputs.SingboxFinalExists | backend/app/core/sub_converter.py:402-408 | the route's final outbound is always the tag of some outbound |
| Outputs.SingboxOutput | backend/app/core/sub_converter.py:381-411 | sing-box output succeeds if and only if every node has a name |
| Outputs.WsFields | backend/app/core/sub_converter.py:430-431 | host and path are read only for `ws`; a `ws-opts` or `headers` that is not a mapping raises `AttributeError` |
| Outputs.VmessObject | backend/app/core/sub_converter.py:425-435 | the 13-key object exists if and only if name, server, port and uuid are present and the ws fields read |
| Outputs.DropFalsy | backend/app/core/sub_converter.py:437 | exactly the truthy entries are kept, unchanged |
| Outputs.VmessLink | backend/app/core/sub_converter.py:438 | a vmess link is produced if and only if the object is, and it starts with `vmess://` |
| Outputs.TrojanQuery | backend/app/core/sub_converter.py:442-446 | at most the `sni` and `allowInsecure` parameters |
| Outputs.TrojanLink | backend/app/core/sub_converter.py:441-451 | a trojan link is produced if and only if password, server, port and a string name are present; it starts with `trojan://` |
| Outputs.V2rayNEntry | backend/app/core/sub_converter.py:418-456 | no original link means no entry; a missing name raises `KeyError('name')` and a name that is not a string `AttributeError`; an untested node (name not starting with `[`) passes its original link through; a tested vmess or trojan node gets exactly the regenerated vmess or trojan link, or that generator's error; a tested node of another type gives no entry |
| Outputs.EntryLine | backend/app/core/sub_converter.py:418-456 | an entry contributes a line if and only if it is not omitted |
| Outputs.CollectLines | backend/app/core/sub_converter.py:415-456 | the loop completes if and only if no entry raises, and then appends the entries' lines in order; otherwise it stops with the first error |
| Outputs.V2rayNLines | backend/app/core/sub_converter.py:414-456 | the line list exists if and only if every node's entry does; it is then the entries' lines in node order, an omitted entry giving none; otherwise the error is that of the first failing node |
| Outputs.LineTexts | backend/app/core/sub_converter.py:459 | the join succeeds if and only if every line is a string |
| Outputs.V2rayNLinks | backend/app/core/sub_converter.py:414-459 | when every line is a string the links are the lines in order; an entry error propagates, and a line that is not a string gives `TypeError` |
| Outputs.V2rayNOutput | backend/app/core/sub_converter.py:413-459 | the body exists exactly when the links do, and is the base64 encoding of those links joined by newlines, so it is base64 text |
| Outputs.V2rayNReadBack | backend/app/core/sub_converter.py:413-459 | a v2rayN body whose links are clean reads back as exactly those links, parsed in order |
| Outputs.Render | backend/app/core/sub_converter.py:345-461 | the three formats dispatch to their renderers, and any other format gives the error text |
| RoundTrip.TrojanLinkParses | backend/app/core/sub_converter.py:440-452 | a regenerated trojan link is accepted by the trojan parser, which rebuilds the node from the link's own URL parts and the node's port |
| RoundTrip.TrojanRoundTrip | backend/app/core/sub_converter.py:440-452 | a regenerated trojan link parses back to the same name, password, server and port; the SNI comes back as the node's SNI, or the server when the node had none; the certificate flag comes back too |
| RoundTrip.VmessRoundTrip | backend/app/core/sub_converter.py:424-439 | a regenerated vmess link parses back to the same port, alterId and TLS switch, and to the same non-empty name, server, uuid and network |
| Pipeline.AllNodes | backend/app/core/sub_converter.py:284-288 | a node is collected if and only if some subscription produced it |
| Pipeline.AllNodesAppend | backend/app/core/sub_converter.py:285-288 | subscriptions are read in order: the nodes of two runs of subscriptions are those of the first followed by those of the second |
| Pipeline.AllNodesOne | backend/app/core/sub_converter.py:285-288 | one subscription contributes exactly its own nodes |
| Pipeline.TypeOf | backend/app/core/sub_converter.py:304 | the lowered type, or an error exactly when the type is not a string |
| Pipeline.NetworkAsWritten | backend/app/core/sub_converter.py:306 | lowering the network succeeds only for a string |
| Pipeline.Network | backend/app/core/sub_converter.py:306 | a null network reads as empty; a string network reads as written |
| Pipeline.VmessWithoutNetwork | backend/app/core/sub_converter.py:306 | a parsed vmess link without `net` makes the check as written raise, while the corrected check reads it as empty |
| Pipeline.ChooseCore | backend/app/core/sub_converter.py:311-320 | skip if and only if neither core is ready; sing-box for hysteria and QUIC nodes when it is ready; otherwise Clash when ready |
| Pipeline.Decide | backend/app/core/sub_converter.py:301-320 | the decision fails (`AttributeError`) if and only if the type or network cannot be lowered, and otherwise is the core choice |
| Pipeline.DecideAsWritten | backend/app/core/sub_converter.py:304-316 | as written, every node raises: `AttributeError` from lowering, otherwise `NameError('os')` |
| Pipeline.DecideAll | backend/app/core/sub_converter.py:301-334 | all decisions succeed if and only if each does, one per node in order |
| Pipeline.Settle | backend/app/core/sub_converter.py:320-334 | a skipped node becomes `[SKP-CORE] name`; a tested one is the outcome of its test with its slot's resources; only the name changes, it starts with `[` and ends with `str()` of the old name |
| Pipeline.TestAll | backend/app/core/sub_converter.py:336 | results come back in input order, one per node |
| Pipeline.Process | backend/app/core/sub_converter.py:283-461 | a failed decision makes the corrected run raise `AttributeError`; after a successful decision loop Clash and sing-box output always render, an unknown format gives the error text, and v2rayN output is what its renderer gives for the tested nodes |
| Pipeline.RenderNamed | backend/app/core/sub_converter.py:345-461 | once every node has a name, Clash and sing-box rendering succeed and an unknown format gives the error text |
| Pipeline.ClashRendersTested | backend/app/core/sub_converter.py:279-379 | a Clash run dumps the document of the tested nodes; with any nodes, the proxies are the collected nodes in order, each keeping its other non-internal fields and renamed to a name that starts with `[` and ends with `str()` of its original name when it had one, and the group members are exactly those names |
| Pipeline.DecideAllAsWritten | backend/app/core/sub_converter.py:301-316 | as written, the decision loop succeeds only on an empty node list |
| Pipeline.ProcessAsWritten | backend/app/core/sub_converter.py:283-316 | as written, any collected node makes the run raise the first node's error; with none it renders the empty output |
| Pipeline.ProcessAsWrittenRaises | backend/app/core/sub_converter.py:283-316 | as written, every run with a node raises `AttributeError` or `NameError('os')`; an empty run agrees with the corrected one |
| Pipeline.TestedNodesNotPassedThrough | backend/app/core/sub_converter.py:418-456 | after testing, no node takes the v2rayN pass-through branch |
| Pipeline.SettledTrojanReadsBack | backend/app/core/sub_converter.py:418-452 | after its test or skip, a trojan node whose password and server survive URL splitting gets a regenerated v2rayN link, and that link parses back to the new name and the node's password, server and port |
| Pipeline.NoCoresSkipsAll | backend/app/core/sub_converter.py:314-326 | with neither core present every node is only renamed `[SKP-CORE] name` |
| Provision.GhArch | backend/app/utils/github_api.py:101-104 | x86_64, aarch64 and armv7l map to amd64, arm64 and armv7; every other name maps to itself; no result is one of those three names, so mapping twice changes nothing |
| Provision.AssetName | backend/app/utils/github_api.py:110 | an asset's lowered name, or `AttributeError` when the asset is not a mapping or its name is not a string |
| Provision.FirstWanted | backend/app/utils/github_api.py:109-116 | the first wanted asset with every earlier one passed over; `None` if and only if all are passed over; an error only from a malformed asset reached first |
| Provision.ReleaseAssets | backend/app/utils/github_api.py:97 | the asset list, `[]` when absent; a release that is not a mapping raises `AttributeError`; only a list or a falsy value is accepted, and null, booleans and integers raise `TypeError` |
| Provision.SelectAsset | backend/app/utils/github_api.py:97-121 | the chosen asset is the first wanted one for the lowered, mapped machine and platform, and has a truthy URL |
| Provision.SelectAssetComplete | backend/app/utils/github_api.py:109-121 | with well-formed assets the selection never raises, and finds an asset if and only if the first wanted asset has a truthy URL |
| Provision.PathJoin | backend/app/utils/github_api.py:127 | the joined path ends with the name; an absolute name replaces the directory |
| Provision.KindOf | backend/app/utils/github_api.py:138-173 | `.tar.gz` before `.gz`, then `.zip`, else a plain binary, each as an if-and-only-if on the suffixes |
| Provision.DownloadFileAsWritten | backend/app/utils/github_api.py:25-64 | only a received string URL succeeds; a single `.gz` is decompressed; a `.zip` is extracted beside the destination; `.tar.gz` and binaries are stored raw |
| Provision.DownloadFile | backend/app/utils/github_api.py:25-64 | the corrected download never extracts beside the destination; it stores every received file and fails only for a corrupt single `.gz` |
| Provision.Install | backend/app/utils/github_api.py:136-196 | an archive extracted beside the destination leaves the temporary path missing (`FileNotFoundError`), except that opening an existing empty target that is itself the temporary path is an archive error; an intact stored archive holding the executable is installed; a stored single `.gz` or binary is always installed; any other failure is an archive error |
| Provision.TempPath | backend/app/utils/github_api.py:123-127 | the temporary path ends with the asset name |
| Provision.Provide | backend/app/utils/github_api.py:130-132 | a failed download returns `False`, otherwise the install decides |
| Provision.EnsureCoreAsWritten | backend/app/utils/github_api.py:74-196 | a ready binary gives `True` with no lookup; a failed lookup or no asset gives `False`; selection errors propagate |
| Provision.EnsureCore | backend/app/utils/github_api.py:74-196 | the corrected procedure keeps those outcomes and never raises `FileNotFoundError` |
| Provision.DownloadAgreesWithInstall | backend/app/utils/github_api.py:35-53 | the download decompresses exactly the assets the installer treats as single gzip files |
| Provision.EnsureCoreInstalls | backend/app/utils/github_api.py:136-196 | with the corrected download, an intact asset holding the executable is always installed, whatever its format |
| Provision.ZipAssetRaises | backend/app/utils/github_api.py:159-164 | as written, every intact `.zip` asset makes the install raise `FileNotFoundError` on the temporary path, unless that path is the existing empty target itself, which gives an archive error |
| Provision.ZipReleaseExample | backend/app/utils/github_api.py:159-164 | a concrete sing-box Windows zip release raises as written and installs when corrected |
| Base64.DecodeEncode | backend/app/core/sub_converter.py:438 | `b64decode(b64encode(b))` returns `b` |
| Base64.Decode | backend/app/core/sub_converter.py:109 | text that is not ASCII never decodes; a decoded result has at most three bytes for every four input characters |
| Base64.Encode | backend/app/core/sub_converter.py:459 | the encoding is 4⌈n/3⌉ characters of the base64 alphabet and padding |
| Base64.DecodeFirstByte | backend/app/core/sub_converter.py:109 | the first decoded byte comes from the first two alphabet characters |
| Utf8.DecodeEncode | backend/app/core/sub_converter.py:109 | strict UTF-8 decoding inverts encoding |
| Utf8.DecodeReplaceEncode | backend/app/core/sub_converter.py:52 | lenient decoding inverts encoding too |
| Utf8.LeadingContinuationFails | backend/app/core/sub_converter.py:109 | bytes that start with a continuation byte are not UTF-8 |
| Numerals.ParseShow | backend/app/core/sub_converter.py:427 | `int(str(i)) == i` for every integer |
| Values.Truthy | backend/app/core/sub_converter.py:437 | a value is falsy exactly when it is `None`, `False`, `0`, `""`, `[]` or `{}` |
| Values.Display | backend/app/core/sub_converter.py:279 | `str()` leaves a string as it is, writes an integer as numerals that `int()` reads back, and writes `None` and the booleans as `None`, `True` and `False` |
| Percent.UnquoteQuote | backend/app/core/sub_converter.py:451 | `unquote(quote(s)) == s` |
| Percent.ParseQslUrlEncode | backend/app/core/sub_converter.py:446 | parsing a urlencoded query with non-empty values gives back the pairs |
| Percent.FormDecodeQuotePlus | backend/app/core/sub_converter.py:446 | form-decoding a `quote_plus` result gives back the text |
| Percent.QuoteKeepsOut | backend/app/core/sub_converter.py:451 | a quoted name contains no `#`, `?`, `&`, `=`, tab or line breaks |
| Percent.UrlEncodeKeepsOut | backend/app/core/sub_converter.py:446 | a urlencoded query contains no `#`, `?`, tab or line breaks |
| Url.UrlSplit | backend/app/core/sub_converter.py:48 | a split netloc contains no `/`, `?` or `#` |
| Url.Username | backend/app/core/sub_converter.py:49 | a user name exists if and only if there is an `@`, and it contains no `:` |
| Url.Hostname | backend/app/core/sub_converter.py:50 | a host name exists if and only if the host part of the netloc is non-empty |
| Url.PortOf | backend/app/core/sub_converter.py:51 | an empty port text means no port; a number is at most 65535 |
| Url.SplitOfAssembled | backend/app/core/sub_converter.py:448-451 | a link assembled from a scheme, a clean netloc and a query or fragment splits back into those parts |
| PyStr.SplitLinesOfJoin | backend/app/core/sub_converter.py:110 | splitting newline-joined non-empty lines without line breaks gives them back |

## Left out

- JSON floats are not modelled; a `Value` has no float case. YAML keys that are not strings are left out too.
- JSON and YAML text, container `repr`, and the NFKC and bracketed-host checks of `urlsplit` are inputs through `Runtime`. Dictionary key order is not kept.
- `lower()` and `upper()` are modelled on ASCII letters only. `int()` accepts ASCII digits only.
- All network I/O is an input: the subscription fetch, the geolocation request through the local proxy (including the `proxies=` argument of `httpx`), and the GitHub release request and download.
- Process spawning, `asyncio.sleep`, `monitor_process_output`, the `Semaphore(5)` bound and concurrent scheduling are not modelled. Only result order (kept by `asyncio.gather`) and per-test resources are stated.
- File I/O is assumed to succeed: writing and removing the temporary configuration, `os.makedirs`, `chmod`, `shutil.move` of an existing file, `rmtree`.
- The filesystem is not modelled as changing between two checks of the same path.
- `find_executable_in_dir` and the archive contents are one boolean input, `Transfer.holdsExecutable`.
- A `.zip` extracted beside the destination is assumed not to create a file at the temporary path itself.
- The `get_clash_meta_binary` and `get_singbox_binary` wrappers are not modelled. They only pass constants to `ensure_core_binary`, which is modelled.
- Probe.TestNode: a country code equal to a failure code (a service reporting `nc`, `fl`, `te` or `er-core`) is indistinguishable from that failure. The contract states this as a disjunction rather than excluding it.
- Probe.RunTest: the error path of `stop_proxy_core` (its catch-all handler) is not a separate outcome. Stopping is modelled by `ProxyManager.StopProxyCore`.
- Probe.SlotResources: slots whose ports pass 65535 (beyond about 18 000 concurrent tests) are not excluded.
- RoundTrip.TrojanRoundTrip: stated only for nodes whose password and server survive URL splitting unchanged. That means ASCII, without the netloc delimiters, and a lower-case server. The SNI must be absent or a string.
- RoundTrip.VmessRoundTrip: assumes the JSON codec reads back the object it wrote. Empty fields are dropped from the link by design, so they are not promised back.
- Pipeline.SettledTrojanReadsBack: inherits the limits of `RoundTrip.TrojanRoundTrip` (a password and server that survive URL splitting unchanged, an absent or string SNI). The vmess counterpart is not stated for settled nodes, because the vmess round trip needs the JSON codec assumption.
- Pipeline.Settle: the core-presence check inside the test uses the same readiness flags as the decision; the filesystem does not change in between.
- Base64.Decode: models CPython's non-strict decoder. Non-alphabet characters are discarded and decoding stops at the end-of-data padding. Text that is not ASCII gives no result, as `b64decode` raises `ValueError` for it. The contract bounds the length of the result; its contents are stated by `Base64.DecodeEncode` and `Base64.DecodeFirstByte`.

## Findings

| source | as written | input that shows it | evidently intended | confidence | as-written member | corrected member |
|---|---|---|---|---|---|---|
| backend/app/core/sub_converter.py:312 | `os.path.exists` is called, but `os` is never imported (lines 1-11), so the decision for the first node raises `NameError` and `process_subscriptions` fails | any subscription yielding one node whose type and network are strings (lemma `Pipeline.ProcessAsWrittenRaises`); this error is the first the run meets, so it hides the two test defects below | check the two core binaries with `os.path`, as `test_and_rename_node` also tries to | not executed | Pipeline.ProcessAsWritten | Pipeline.Process |
| backend/app/core/sub_converter.py:306 | `node.get("network", "").lower()` raises `AttributeError` for a vmess node, whose `network` is `None` when the link has no `net` (line 31) | a vmess link whose JSON has no `net` field (lemma `Pipeline.VmessWithoutNetwork`) | treat a missing network as empty | not executed | Pipeline.NetworkAsWritten | Pipeline.Network |
| backend/app/core/sub_converter.py:190 | the Clash test group names its member `node["name"]`, a `KeyError` for a sing-box outbound, which has a `tag` and no `name` | a sing-box subscription whose outbound has no `name`, tested with Clash; it shows only once `import os` is added, since line 162 calls `os.path.exists` before this line and line 312 raises first | use `original_name`, already computed at line 152 | not executed | Probe.ClashProbeConfigAsWritten | Probe.ClashProbeConfig |
| backend/app/core/sub_converter.py:158 | every test of a kind writes the same configuration file and listens on the same port, while up to five tests run at once | two nodes tested with Clash concurrently (lemma `Probe.SharedResourcesCollide`); it shows only once `import os` is added, since line 312 raises before any test and line 162 before any configuration is written | a configuration path and port range per concurrent test | not executed | Probe.ProbeResourcesAsWritten | Probe.SlotResources |
| backend/app/utils/github_api.py:163 | for a `.zip` asset, `download_file` extracts the archive beside the destination and never writes it; `ensure_core_binary` then opens the destination as a zip and raises `FileNotFoundError` (an archive error instead when the asset's name is the target's own and an empty target exists) | a release whose wanted asset is a `.zip` (lemmas `Provision.ZipAssetRaises`, `Provision.ZipReleaseExample`) | `download_file` stores the archive so that the caller's extraction finds it | not executed | Provision.EnsureCoreAsWritten | Provision.EnsureCore |

=== FILE: base64.dfy ===
/** Base64 with the standard alphabet and `=` padding (section 4 of RFC 4648),
    encoded as `base64.b64encode` does and decoded as `base64.b64decode(s)` does
    without `validate`: CPython's non-strict `a2b_base64`, which skips characters
    outside the alphabet and stops at the first complete padding. */
module Base64 {
  import opened Wrappers
  import opened Utf8
  import PyStr

  /** The alphabet character for a six-bit value. */
  function SextetChar(x: nat): (c: char)
    requires x < 64
  {
    if x < 26 then ('A' as int + x) as char
    else if x < 52 then ('a' as int + x - 26) as char
    else if x < 62 then ('0' as int + x - 52) as char
    else if x == 62 then '+'
    else '/'
  }

  predicate InAlphabet(c: char) {
    'A' <= c <= 'Z' || 'a' <= c <= 'z' || '0' <= c <= '9' || c == '+' || c == '/'
  }

  /** The six-bit value of an alphabet character. */
  function SextetOf(c: char): (x: nat)
    requires InAlphabet(c)
    ensures x < 64 && SextetChar(x) == c
  {
    if 'A' <= c <= 'Z' then c as int - 'A' as int
    else if 'a' <= c <= 'z' then c as int - 'a' as int + 26
    else if '0' <= c <= '9' then c as int - '0' as int + 52
    else if c == '+' then 62
    else 63
  }

  lemma SextetRoundTrip(x: nat)
    requires x < 64
    ensures InAlphabet(SextetChar(x)) && SextetOf(SextetChar(x)) == x
  {
  }

  /** The four sextets of a group of three bytes: the top six bits of the first
      byte, then the low two of the first with the high four of the second, the low
      four of the second with the high two of the third, and the low six of the third. */
  function FirstSextet(b0: byte): (x: nat)
    ensures x < 64
  {
    b0 / 4
  }

  function SecondSextet(b0: byte, b1: byte): (x: nat)
    ensures x < 64
  {
    (b0 % 4) * 16 + b1 / 16
  }

  function ThirdSextet(b1: byte, b2: byte): (x: nat)
    ensures x < 64
  {
    (b1 % 16) * 4 + b2 / 64
  }

  function FourthSextet(b2: byte): (x: nat)
    ensures x < 64
  {
    b2 % 64
  }

  /** `base64.b64encode(b).decode()`; a short final group is padded with `=`. */
  function Encode(b: seq<byte>): (r: string)
    ensures |r| == 4 * ((|b| + 2) / 3)
    ensures forall k :: 0 <= k < |r| ==> InAlphabet(r[k]) || r[k] == '='
    decreases |b|
  {
    if |b| == 0 then ""
    else if |b| == 1 then
      [SextetChar(FirstSextet(b[0])), SextetChar(SecondSextet(b[0], 0)), '=', '=']
    else if |b| == 2 then
      [SextetChar(FirstSextet(b[0])), SextetChar(SecondSextet(b[0], b[1])), SextetChar(ThirdSextet(b[1], 0)), '=']
    else
      var rest := Encode(b[3..]);
      var group := [SextetChar(FirstSextet(b[0])), SextetChar(SecondSextet(b[0], b[1])),
                    SextetChar(ThirdSextet(b[1], b[2])), SextetChar(FourthSextet(b[2]))];
      assert forall k :: 0 <= k < |group| ==> InAlphabet(group[k]) by {
        SextetRoundTrip(FirstSextet(b[0]));
        SextetRoundTrip(SecondSextet(b[0], b[1]));
        SextetRoundTrip(ThirdSextet(b[1], b[2]));
        SextetRoundTrip(FourthSextet(b[2]));
      }
      group + rest
  }

  /** CPython's non-strict decoding loop. `quad` is the position inside the current
      group of four, `left` the bits carried to the next byte, `pads` the padding
      characters seen since the last data character, `acc` the bytes produced so far.
      A `=` ends decoding once the group it pads is complete; any other character
      outside the alphabet is skipped; input ending inside a group is an error. */
  function A2B(s: string, quad: nat, left: nat, pads: nat, acc: seq<byte>): Option<seq<byte>>
    requires quad < 4 && left < 64
    requires quad == 2 ==> left < 16
    requires quad == 3 ==> left < 4
    decreases |s|
  {
    if |s| == 0 then
      if quad == 0 then Some(acc) else None
    else if s[0] == '=' then
      if quad >= 2 && quad + pads + 1 >= 4 then Some(acc)
      else A2B(s[1..], quad, left, if quad >= 2 then pads + 1 else pads, acc)
    else if !InAlphabet(s[0]) then
      A2B(s[1..], quad, left, pads, acc)
    else
      var v := SextetOf(s[0]);
      if quad == 0 then A2B(s[1..], 1, v, 0, acc)
      else if quad == 1 then A2B(s[1..], 2, v % 16, 0, acc + [left * 4 + v / 16])
      else if quad == 2 then A2B(s[1..], 3, v % 4, 0, acc + [left * 16 + v / 4])
      else A2B(s[1..], 0, 0, 0, acc + [left * 64 + v])
  }

  /** `base64.b64decode(s)` for a `str` argument; `None` stands for the
      `ValueError` raised on non-ASCII text and the `binascii.Error` raised on bad padding. */
  function Decode(s: string): (r: Option<seq<byte>>)
    ensures !PyStr.IsAscii(s) ==> r.None?
    ensures r.Some? ==> 4 * |r.value| <= 3 * |s|
  {
    if !PyStr.IsAscii(s) then None
    else
      A2BLength(s, 0, 0, 0, []);
      A2B(s, 0, 0, 0, [])
  }

  /** Every four characters read give at most three bytes: a group at position
      `quad` has already produced `quad - 1` of its bytes. */
  lemma {:induction false} A2BLength(s: string, quad: nat, left: nat, pads: nat, acc: seq<byte>)
    requires quad < 4 && left < 64
    requires quad == 2 ==> left < 16
    requires quad == 3 ==> left < 4
    ensures A2B(s, quad, left, pads, acc).Some? ==>
              4 * |A2B(s, quad, left, pads, acc).value| + 4 * (if quad == 0 then 0 else quad - 1) <=
              4 * |acc| + 3 * (quad + |s|)
    decreases |s|
  {
    if |s| == 0 {
    } else if s[0] == '=' {
      if !(quad >= 2 && quad + pads + 1 >= 4) {
        A2BLength(s[1..], quad, left, if quad >= 2 then pads + 1 else pads, acc);
      }
    } else if !InAlphabet(s[0]) {
      A2BLength(s[1..], quad, left, pads, acc);
    } else {
      var v := SextetOf(s[0]);
      if quad == 0 {
        A2BLength(s[1..], 1, v, 0, acc);
      } else if quad == 1 {
        A2BLength(s[1..], 2, v % 16, 0, acc + [left * 4 + v / 16]);
      } else if quad == 2 {
        A2BLength(s[1..], 3, v % 4, 0, acc + [left * 16 + v / 4]);
      } else {
        A2BLength(s[1..], 0, 0, 0, acc + [left * 64 + v]);
      }
    }
  }

  /** Decoding only ever appends to the bytes it has produced. */
  lemma {:induction false} A2BExtends(s: string, quad: nat, left: nat, pads: nat, acc: seq<byte>)
    requires quad < 4 && left < 64
    requires quad == 2 ==> left < 16
    requires quad == 3 ==> left < 4
    ensures A2B(s, quad, left, pads, acc).Some? ==>
              acc <= A2B(s, quad, left, pads, acc).value
    decreases |s|
  {
    if |s| == 0 {
    } else if s[0] == '=' {
      if !(quad >= 2 && quad + pads + 1 >= 4) {
        A2BExtends(s[1..], quad, left, if quad >= 2 then pads + 1 else pads, acc);
      }
    } else if !InAlphabet(s[0]) {
      A2BExtends(s[1..], quad, left, pads, acc);
    } else {
      var v := SextetOf(s[0]);
      if quad == 0 {
        A2BExtends(s[1..], 1, v, 0, acc);
      } else if quad == 1 {
        A2BExtends(s[1..], 2, v % 16, 0, acc + [left * 4 + v / 16]);
      } else if quad == 2 {
        A2BExtends(s[1..], 3, v % 4, 0, acc + [left * 16 + v / 4]);
      } else {
        A2BExtends(s[1..], 0, 0, 0, acc + [left * 64 + v]);
      }
    }
  }

  /** A data character at each position of a group: the first only starts the
      group, the others each complete one byte. */
  lemma A2BFirst(x: nat, rest: string, left: nat, pads: nat, acc: seq<byte>)
    requires x < 64 && left < 64
    ensures A2B([SextetChar(x)] + rest, 0, left, pads, acc) == A2B(rest, 1, x, 0, acc)
  {
    SextetRoundTrip(x);
    assert ([SextetChar(x)] + rest)[1..] == rest;
  }

  lemma A2BSecond(x: nat, rest: string, left: nat, acc: seq<byte>)
    requires x < 64 && left < 64
    ensures A2B([SextetChar(x)] + rest, 1, left, 0, acc) == A2B(rest, 2, x % 16, 0, acc + [left * 4 + x / 16])
  {
    SextetRoundTrip(x);
    assert ([SextetChar(x)] + rest)[1..] == rest;
  }

  lemma A2BThird(x: nat, rest: string, left: nat, acc: seq<byte>)
    requires x < 64 && left < 16
    ensures A2B([SextetChar(x)] + rest, 2, left, 0, acc) == A2B(rest, 3, x % 4, 0, acc + [left * 16 + x / 4])
  {
    SextetRoundTrip(x);
    assert ([SextetChar(x)] + rest)[1..] == rest;
  }

  lemma A2BFourth(x: nat, rest: string, left: nat, acc: seq<byte>)
    requires x < 64 && left < 4
    ensures A2B([SextetChar(x)] + rest, 3, left, 0, acc) == A2B(rest, 0, 0, 0, acc + [left * 64 + x])
  {
    SextetRoundTrip(x);
    assert ([SextetChar(x)] + rest)[1..] == rest;
  }

  /** The sextets of a group give back its bytes. */
  lemma GroupArith(b0: byte, b1: byte, b2: byte)
    ensures FirstSextet(b0) * 4 + SecondSextet(b0, b1) / 16 == b0
    ensures (SecondSextet(b0, b1) % 16) * 16 + ThirdSextet(b1, b2) / 4 == b1
    ensures (ThirdSextet(b1, b2) % 4) * 64 + FourthSextet(b2) == b2
  {
  }

  /** Four data characters whose sextets recombine into three bytes decode to them. */
  lemma A2BGroupChars(x0: nat, x1: nat, x2: nat, x3: nat, b0: byte, b1: byte, b2: byte,
                      rest: string, pads: nat, left: nat, acc: seq<byte>)
    requires x0 < 64 && x1 < 64 && x2 < 64 && x3 < 64 && left < 64
    requires x0 * 4 + x1 / 16 == b0 && (x1 % 16) * 16 + x2 / 4 == b1 && (x2 % 4) * 64 + x3 == b2
    ensures A2B([SextetChar(x0), SextetChar(x1), SextetChar(x2), SextetChar(x3)] + rest, 0, left, pads, acc) ==
            A2B(rest, 0, 0, 0, acc + [b0, b1, b2])
  {
    var c0, c1, c2, c3 := SextetChar(x0), SextetChar(x1), SextetChar(x2), SextetChar(x3);
    assert [c0, c1, c2, c3] + rest == [c0] + ([c1] + ([c2] + ([c3] + rest)));
    A2BFirst(x0, [c1] + ([c2] + ([c3] + rest)), left, pads, acc);
    A2BSecond(x1, [c2] + ([c3] + rest), x0, acc);
    A2BThird(x2, [c3] + rest, x1 % 16, acc + [b0]);
    A2BFourth(x3, rest, x2 % 4, acc + [b0] + [b1]);
    assert acc + [b0] + [b1] + [b2] == acc + [b0, b1, b2];
  }

  /** One full group of four characters decodes to the three bytes it encodes. */
  lemma A2BFullGroup(b0: byte, b1: byte, b2: byte, rest: string, pads: nat, left: nat, acc: seq<byte>)
    requires left < 64
    ensures
      var g := [SextetChar(FirstSextet(b0)), SextetChar(SecondSextet(b0, b1)),
                SextetChar(ThirdSextet(b1, b2)), SextetChar(FourthSextet(b2))];
      A2B(g + rest, 0, left, pads, acc) == A2B(rest, 0, 0, 0, acc + [b0, b1, b2])
  {
    GroupArith(b0, b1, b2);
    A2BGroupChars(FirstSextet(b0), SecondSextet(b0, b1), ThirdSextet(b1, b2), FourthSextet(b2),
                  b0, b1, b2, rest, pads, left, acc);
  }

  /** Two data characters and two `=` whose sextets give one byte decode to it. */
  lemma A2BOneChars(x0: nat, x1: nat, b0: byte, left: nat, pads: nat, acc: seq<byte>)
    requires x0 < 64 && x1 < 64 && left < 64
    requires x0 * 4 + x1 / 16 == b0
    ensures A2B([SextetChar(x0), SextetChar(x1), '=', '='], 0, left, pads, acc) == Some(acc + [b0])
  {
    var c0, c1 := SextetChar(x0), SextetChar(x1);
    assert [c0, c1, '=', '='] == [c0] + ([c1] + ['=', '=']);
    A2BFirst(x0, [c1] + ['=', '='], left, pads, acc);
    A2BSecond(x1, ['=', '='], x0, acc);
    assert A2B(['=', '='], 2, x1 % 16, 0, acc + [b0]) == A2B(['='], 2, x1 % 16, 1, acc + [b0]);
  }

  /** A final group holding one byte and two padding characters. */
  lemma A2BTailOne(b0: byte, left: nat, pads: nat, acc: seq<byte>)
    requires left < 64
    ensures A2B(Encode([b0]), 0, left, pads, acc) == Some(acc + [b0])
  {
    GroupArith(b0, 0, 0);
    A2BOneChars(FirstSextet(b0), SecondSextet(b0, 0), b0, left, pads, acc);
  }

  /** Three data characters and one `=` whose sextets give two bytes decode to them. */
  lemma A2BTwoChars(x0: nat, x1: nat, x2: nat, b0: byte, b1: byte, left: nat, pads: nat, acc: seq<byte>)
    requires x0 < 64 && x1 < 64 && x2 < 64 && left < 64
    requires x0 * 4 + x1 / 16 == b0 && (x1 % 16) * 16 + x2 / 4 == b1
    ensures A2B([SextetChar(x0), SextetChar(x1), SextetChar(x2), '='], 0, left, pads, acc) == Some(acc + [b0, b1])
  {
    var c0, c1, c2 := SextetChar(x0), SextetChar(x1), SextetChar(x2);
    assert [c0, c1, c2, '='] == [c0] + ([c1] + ([c2] + ['=']));
    A2BFirst(x0, [c1] + ([c2] + ['=']), left, pads, acc);
    A2BSecond(x1, [c2] + ['='], x0, acc);
    A2BThird(x2, ['='], x1 % 16, acc + [b0]);
    assert acc + [b0] + [b1] == acc + [b0, b1];
  }

  /** A final group holding two bytes and one padding character. */
  lemma A2BTailTwo(b0: byte, b1: byte, left: nat, pads: nat, acc: seq<byte>)
    requires left < 64
    ensures A2B(Encode([b0, b1]), 0, left, pads, acc) == Some(acc + [b0, b1])
  {
    GroupArith(b0, b1, 0);
    A2BTwoChars(FirstSextet(b0), SecondSextet(b0, b1), ThirdSextet(b1, 0), b0, b1, left, pads, acc);
  }

  /** Strict round trip: decoding what `b64encode` produced returns the original bytes. */
  lemma {:induction false} A2BEncode(b: seq<byte>, left: nat, pads: nat, acc: seq<byte>)
    requires left < 64
    ensures A2B(Encode(b), 0, left, pads, acc) == Some(acc + b)
    decreases |b|
  {
    if |b| == 0 {
      assert acc + b == acc;
    } else if |b| == 1 {
      assert b == [b[0]];
      A2BTailOne(b[0], left, pads, acc);
    } else if |b| == 2 {
      assert b == [b[0], b[1]];
      A2BTailTwo(b[0], b[1], left, pads, acc);
    } else {
      A2BFullGroup(b[0], b[1], b[2], Encode(b[3..]), pads, left, acc);
      A2BEncode(b[3..], 0, 0, acc + [b[0], b[1], b[2]]);
      assert acc + [b[0], b[1], b[2]] + b[3..] == acc + b;
    }
  }

  lemma DecodeEncode(b: seq<byte>)
    ensures Decode(Encode(b)) == Some(b)
  {
    var s := Encode(b);
    assert PyStr.IsAscii(s);
    A2BEncode(b, 0, 0, []);
    assert [] + b == b;
  }

  /** Text whose first two characters are alphabet characters either fails to
      decode or decodes to bytes whose first byte those two characters determine. */
  lemma DecodeFirstByte(s: string)
    requires |s| >= 2 && InAlphabet(s[0]) && InAlphabet(s[1])
    ensures Decode(s).Some? ==>
              |Decode(s).value| > 0 && Decode(s).value[0] == SextetOf(s[0]) * 4 + SextetOf(s[1]) / 16
  {
    if PyStr.IsAscii(s) {
      var v0, v1 := SextetOf(s[0]), SextetOf(s[1]);
      assert A2B(s, 0, 0, 0, []) == A2B(s[1..], 1, v0, 0, []);
      assert s[1..][0] == s[1];
      assert A2B(s[1..], 1, v0, 0, []) == A2B(s[1..][1..], 2, v1 % 16, 0, [] + [v0 * 4 + v1 / 16]);
      assert [] + [v0 * 4 + v1 / 16] == [v0 * 4 + v1 / 16];
      A2BExtends(s[1..][1..], 2, v1 % 16, 0, [v0 * 4 + v1 / 16]);
    }
  }
}

=== FILE: ipcheck.dfy ===
/** The country code `get_exit_ip_country` reports for the outcome of its request
    to the geolocation service. The request itself is not modelled: its outcome is
    the input. */
module IpCheck {
  import opened Wrappers
  import opened Values
  import PyStr

  /** The exceptions an `httpx` request can raise. The four timeouts are
      `TimeoutException`s; these and the other transport, decoding and redirect
      errors are `RequestError`s; an invalid URL and anything else are neither. */
  datatype HttpxError =
    | ConnectTimeout | ReadTimeout | WriteTimeout | PoolTimeout
    | ConnectError | ReadError | WriteError | CloseError
    | LocalProtocolError | RemoteProtocolError | ProxyError | UnsupportedProtocol
    | DecodingError | TooManyRedirects
    | InvalidUrl | OtherError

  predicate IsTimeout(e: HttpxError) {
    e.ConnectTimeout? || e.ReadTimeout? || e.WriteTimeout? || e.PoolTimeout?
  }

  predicate IsRequestError(e: HttpxError) {
    !e.InvalidUrl? && !e.OtherError?
  }

  /** What the request came to: a response with its status and its body parsed
      as JSON (`None` when it is not JSON), or an exception. */
  datatype IpOutcome = Response(status: int, body: Option<Value>) | Raised(error: HttpxError)

  /** `raise_for_status` lets only 2xx through. */
  predicate Success(status: int) {
    200 <= status < 300
  }

  /** The response carries a usable country code: a successful status, a JSON
      object, and a non-empty string under `countryCode`. */
  predicate Reported(o: IpOutcome) {
    o.Response? && Success(o.status) && o.body.Some? && o.body.value.Dict? &&
    Get(o.body.value.fields, "countryCode", Null).Str? &&
    Get(o.body.value.fields, "countryCode", Null).s != ""
  }

  /** `get_exit_ip_country`: the upper-cased code, `TO` for a timeout, `ER` for
      another request error, and `XX` for everything else (an error status, a body
      that is not JSON or not an object, a missing or empty code, a code that is
      not a string). */
  function CountryCode(o: IpOutcome): (code: string)
    ensures code != ""
    ensures forall k :: 0 <= k < |code| ==> !('a' <= code[k] <= 'z')
    ensures Reported(o) ==> code == PyStr.Upper(Get(o.body.value.fields, "countryCode", Null).s)
    ensures o.Raised? && IsTimeout(o.error) ==> code == "TO"
    ensures o.Raised? && !IsTimeout(o.error) && IsRequestError(o.error) ==> code == "ER"
    ensures !Reported(o) && !(o.Raised? && IsRequestError(o.error)) ==> code == "XX"
  {
    match o
    case Raised(e) =>
      if IsTimeout(e) then "TO" else if IsRequestError(e) then "ER" else "XX"
    case Response(status, body) =>
      if !Success(status) then "XX"
      else
        match body
        case None => "XX"
        case Some(Dict(fields)) =>
          (match Get(fields, "countryCode", Null)
           case Str(s) => if s != "" then PyStr.Upper(s) else "XX"
           case v => "XX")
        case Some(_) => "XX"
  }
}

=== FILE: links.dfy ===
/** The two share-link parsers: `vmess://` followed by base64 of a JSON object, and
    `trojan://password@server:port?query#remarks`. Each returns a node or nothing;
    every failure inside is caught and logged, so neither ever raises. */
module Links {
  import opened Wrappers
  import opened Values
  import PyStr
  import Utf8
  import Base64
  import Url
  import Percent
  import Numerals

  const VmessPrefix: string := "vmess://"
  const TrojanPrefix: string := "trojan://"

  const VmessKeys: set<string> :=
    {"name", "type", "server", "port", "uuid", "alterId", "cipher", "network", "ws-opts", "tls", "sni", "_original_link"}

  const TrojanKeys: set<string> :=
    {"name", "type", "server", "port", "password", "sni", "skip-cert-verify", "_original_link"}

  /** The JSON object a vmess link carries: the text after the prefix must base64-decode,
      the bytes must be UTF-8, the text must be JSON, and the JSON must be an object
      (anything else has no `get`). */
  function VmessPayload(link: string, rt: Runtime): (r: Option<map<string, Value>>)
    ensures r.Some? ==> PyStr.StartsWith(link, VmessPrefix)
  {
    if !PyStr.StartsWith(link, VmessPrefix) then None
    else
      match Base64.Decode(link[|VmessPrefix|..])
      case None => None
      case Some(bytes) =>
        match Utf8.Decode(bytes)
        case None => None
        case Some(text) =>
          match rt.jsonLoads(text)
          case Some(Dict(fields)) => Some(fields)
          case _ => None
  }

  /** The node built from a vmess payload; `int()` of `port` or `aid` may raise. */
  function VmessNode(d: map<string, Value>, link: string): (r: Result<Node, PyError>)
    ensures r.Ok? <==> PyInt(Get(d, "port", Int(0))).Ok? && PyInt(Get(d, "aid", Int(0))).Ok?
  {
    var port :- PyInt(Get(d, "port", Int(0)));
    var aid :- PyInt(Get(d, "aid", Int(0)));
    var tls := Get(d, "tls", Null) == Str("tls");
    Ok(VmessRecord(Get(d, "ps", Str("Unnamed VMess")), Get(d, "add", Null), port, Get(d, "id", Null), aid,
                   Get(d, "scy", Str("auto")), Get(d, "net", Null), VmessWsOpts(d), tls, VmessSni(d, tls), link))
  }

  /** The `ws-opts` of a vmess node: path and Host header for websocket, else `None`. */
  function VmessWsOpts(d: map<string, Value>): (opts: Value)
    ensures opts != Null <==> Get(d, "net", Null) == Str("ws")
  {
    if Get(d, "net", Null) == Str("ws") then
      Dict(map["path" := Get(d, "path", Str("/")), "headers" := Dict(map["Host" := Get(d, "host", Str(""))])])
    else Null
  }

  /** The SNI of a vmess node: `sni`, else `host`, and only with TLS. */
  function VmessSni(d: map<string, Value>, tls: bool): (sni: Value)
    ensures !tls ==> sni == Null
  {
    if tls then Get(d, "sni", Get(d, "host", Str(""))) else Null
  }

  /** The dictionary `parse_vmess_link` returns, from the fields it has worked out. */
  function VmessRecord(name: Value, server: Value, port: int, uuid: Value, aid: int, cipher: Value,
                       net: Value, wsOpts: Value, tls: bool, sni: Value, link: string): Node
  {
    map[
      "name" := name,
      "type" := Str("vmess"),
      "server" := server,
      "port" := Int(port),
      "uuid" := uuid,
      "alterId" := Int(aid),
      "cipher" := cipher,
      "network" := net,
      "ws-opts" := wsOpts,
      "tls" := Bool(tls),
      "sni" := sni,
      "_original_link" := Str(link)]
  }

  lemma VmessRecordShape(name: Value, server: Value, port: int, uuid: Value, aid: int, cipher: Value,
                         net: Value, wsOpts: Value, tls: bool, sni: Value, link: string)
    ensures VmessRecord(name, server, port, uuid, aid, cipher, net, wsOpts, tls, sni, link).Keys == VmessKeys
  {
  }

  /** Each field of the vmess dictionary, where the parser put it. */
  lemma VmessRecordFields(name: Value, server: Value, port: int, uuid: Value, aid: int, cipher: Value,
                          net: Value, wsOpts: Value, tls: bool, sni: Value, link: string)
    ensures var r := VmessRecord(name, server, port, uuid, aid, cipher, net, wsOpts, tls, sni, link);
      VmessKeys <= r.Keys &&
      r["name"] == name && r["type"] == Str("vmess") && r["server"] == server && r["port"] == Int(port) &&
      r["uuid"] == uuid && r["alterId"] == Int(aid) && r["cipher"] == cipher && r["network"] == net &&
      r["ws-opts"] == wsOpts && r["tls"] == Bool(tls) && r["sni"] == sni && r["_original_link"] == Str(link)
  {
    VmessRecordShape(name, server, port, uuid, aid, cipher, net, wsOpts, tls, sni, link);
  }

  /** Where each field of a vmess node comes from in its payload. */
  lemma VmessNodeFields(d: map<string, Value>, link: string)
    requires VmessNode(d, link).Ok?
    ensures var n := VmessNode(d, link).value;
      var tls := Get(d, "tls", Null) == Str("tls");
      VmessKeys <= n.Keys &&
      n["name"] == Get(d, "ps", Str("Unnamed VMess")) && n["type"] == Str("vmess") &&
      n["server"] == Get(d, "add", Null) && n["uuid"] == Get(d, "id", Null) &&
      n["port"] == Int(PyInt(Get(d, "port", Int(0))).value) &&
      n["alterId"] == Int(PyInt(Get(d, "aid", Int(0))).value) &&
      n["cipher"] == Get(d, "scy", Str("auto")) && n["network"] == Get(d, "net", Null) &&
      n["ws-opts"] == VmessWsOpts(d) && n["tls"] == Bool(tls) && n["sni"] == VmessSni(d, tls) &&
      n["_original_link"] == Str(link)
  {
    var tls := Get(d, "tls", Null) == Str("tls");
    VmessRecordFields(Get(d, "ps", Str("Unnamed VMess")), Get(d, "add", Null), PyInt(Get(d, "port", Int(0))).value,
                      Get(d, "id", Null), PyInt(Get(d, "aid", Int(0))).value, Get(d, "scy", Str("auto")),
                      Get(d, "net", Null), VmessWsOpts(d), tls, VmessSni(d, tls), link);
  }

  /** The keys of a vmess node, and the two fields the parser fixes. */
  lemma VmessNodeShape(d: map<string, Value>, link: string)
    requires VmessNode(d, link).Ok?
    ensures VmessNode(d, link).value.Keys == VmessKeys
    ensures VmessNode(d, link).value["_original_link"] == Str(link)
    ensures VmessNode(d, link).value["type"] == Str("vmess")
  {
    var tls := Get(d, "tls", Null) == Str("tls");
    VmessRecordShape(Get(d, "ps", Str("Unnamed VMess")), Get(d, "add", Null), PyInt(Get(d, "port", Int(0))).value,
                     Get(d, "id", Null), PyInt(Get(d, "aid", Int(0))).value, Get(d, "scy", Str("auto")),
                     Get(d, "net", Null), VmessWsOpts(d), tls, VmessSni(d, tls), link);
    VmessNodeFields(d, link);
  }

  /** `port` and `alterId` are integers; `ws-opts` is present exactly for websocket. */
  lemma VmessNodeTransport(d: map<string, Value>, link: string)
    requires VmessNode(d, link).Ok?
    ensures "port" in VmessNode(d, link).value && VmessNode(d, link).value["port"].Int?
    ensures "alterId" in VmessNode(d, link).value && VmessNode(d, link).value["alterId"].Int?
    ensures "ws-opts" in VmessNode(d, link).value && "network" in VmessNode(d, link).value
    ensures VmessNode(d, link).value["ws-opts"] != Null <==> VmessNode(d, link).value["network"] == Str("ws")
  {
    VmessNodeFields(d, link);
  }

  /** `tls` is a boolean, and without TLS there is no SNI. */
  lemma VmessNodeTls(d: map<string, Value>, link: string)
    requires VmessNode(d, link).Ok?
    ensures "tls" in VmessNode(d, link).value && "sni" in VmessNode(d, link).value
    ensures VmessNode(d, link).value["tls"].Bool?
    ensures !VmessNode(d, link).value["tls"].b ==> VmessNode(d, link).value["sni"] == Null
  {
    VmessNodeFields(d, link);
  }

  /** The defaults for an absent `ps`, `aid` and `scy`. */
  lemma VmessNodeDefaults(d: map<string, Value>, link: string)
    requires VmessNode(d, link).Ok?
    ensures "name" in VmessNode(d, link).value && "alterId" in VmessNode(d, link).value
    ensures "cipher" in VmessNode(d, link).value
    ensures "ps" !in d ==> VmessNode(d, link).value["name"] == Str("Unnamed VMess")
    ensures "aid" !in d ==> VmessNode(d, link).value["alterId"] == Int(0)
    ensures "scy" !in d ==> VmessNode(d, link).value["cipher"] == Str("auto")
  {
    VmessNodeFields(d, link);
  }

  /** `parse_vmess_link`. */
  function ParseVmess(link: string, rt: Runtime): (r: Option<Node>)
    ensures r.Some? <==>
              VmessPayload(link, rt).Some? &&
              PyInt(Get(VmessPayload(link, rt).value, "port", Int(0))).Ok? &&
              PyInt(Get(VmessPayload(link, rt).value, "aid", Int(0))).Ok?
    ensures r.Some? ==> PyStr.StartsWith(link, VmessPrefix)
    ensures r.Some? ==> r.value.Keys == VmessKeys && r.value["_original_link"] == Str(link)
    ensures r.Some? ==> r.value["type"] == Str("vmess") && r.value["port"].Int? && r.value["alterId"].Int?
    ensures r.Some? ==> (r.value["ws-opts"] != Null <==> r.value["network"] == Str("ws"))
    ensures r.Some? ==> r.value["tls"].Bool? && (!r.value["tls"].b ==> r.value["sni"] == Null)
    ensures r.Some? ==>
              var d := VmessPayload(link, rt).value;
              ("ps" !in d ==> r.value["name"] == Str("Unnamed VMess")) &&
              ("aid" !in d ==> r.value["alterId"] == Int(0)) &&
              ("scy" !in d ==> r.value["cipher"] == Str("auto"))
  {
    match VmessPayload(link, rt)
    case None => None
    case Some(d) =>
      match VmessNode(d, link)
      case Ok(node) =>
        VmessNodeShape(d, link);
        VmessNodeTransport(d, link);
        VmessNodeTls(d, link);
        VmessNodeDefaults(d, link);
        Some(node)
      case Err(_) => None
  }

  /** How a possibly absent string prints in an f-string. */
  function ShowOptional(s: Option<string>): string {
    match s
    case Some(t) => t
    case None => "None"
  }

  function OptionalStr(s: Option<string>): (v: Value)
    ensures s.None? <==> v == Null
  {
    match s
    case Some(t) => Str(t)
    case None => Null
  }

  /** The remarks of a trojan link: its unquoted fragment, or `server:port`. */
  function TrojanRemarks(parts: Url.SplitResult, port: nat): (name: string)
    ensures parts.fragment != "" ==> name == Percent.Unquote(parts.fragment)
    ensures parts.fragment == "" ==>
              name == ShowOptional(Url.Hostname(parts.netloc)) + ":" + Numerals.ShowNat(port)
  {
    if parts.fragment != "" then Percent.Unquote(parts.fragment)
    else ShowOptional(Url.Hostname(parts.netloc)) + ":" + Numerals.ShowNat(port)
  }

  /** The SNI of a trojan link: its first non-empty `sni` parameter, or the server. */
  function TrojanSni(parts: Url.SplitResult): (sni: Value)
    ensures Percent.ParseQsFirst(parts.query, "sni").Some? && Percent.ParseQsFirst(parts.query, "sni").value != "" ==>
              sni == Str(Percent.ParseQsFirst(parts.query, "sni").value)
    ensures Percent.ParseQsFirst(parts.query, "sni").None? ==> sni == OptionalStr(Url.Hostname(parts.netloc))
  {
    var given := Percent.ParseQsFirst(parts.query, "sni");
    if given.Some? && given.value != "" then Str(given.value) else OptionalStr(Url.Hostname(parts.netloc))
  }

  /** The map `parse_trojan_link` returns, from the fields it has worked out. */
  function TrojanRecord(name: string, server: Option<string>, port: nat, password: Option<string>,
                        sni: Value, insecure: bool, link: string): (r: Node)
  {
    map[
      "name" := Str(name),
      "type" := Str("trojan"),
      "server" := OptionalStr(server),
      "port" := Int(port),
      "password" := OptionalStr(password),
      "sni" := sni,
      "skip-cert-verify" := Bool(insecure),
      "_original_link" := Str(link)]
  }

  /** The node `parse_trojan_link` builds from the parts of a link whose port parsed. */
  function TrojanNode(parts: Url.SplitResult, port: nat, link: string): (r: Node)
    requires port <= 65535
    ensures r.Keys == TrojanKeys
    ensures r["name"] == Str(TrojanRemarks(parts, port)) && r["type"] == Str("trojan")
    ensures r["server"] == OptionalStr(Url.Hostname(parts.netloc)) && r["port"] == Int(port)
    ensures r["password"] == OptionalStr(Url.Username(parts.netloc)) && r["sni"] == TrojanSni(parts)
    ensures r["skip-cert-verify"] == Bool(Percent.ParseQsFirst(parts.query, "allowInsecure") == Some("1"))
    ensures r["_original_link"] == Str(link)
  {
    var name := TrojanRemarks(parts, port);
    var server := Url.Hostname(parts.netloc);
    var password := Url.Username(parts.netloc);
    var insecure := Percent.ParseQsFirst(parts.query, "allowInsecure").GetOr("0") == "1";
    TrojanRecordShape(name, server, port, password, TrojanSni(parts), insecure, link);
    TrojanRecordFields(name, server, port, password, TrojanSni(parts), insecure, link);
    TrojanRecord(name, server, port, password, TrojanSni(parts), insecure, link)
  }

  /** The keys of a trojan node. */
  lemma TrojanRecordShape(name: string, server: Option<string>, port: nat, password: Option<string>,
                          sni: Value, insecure: bool, link: string)
    ensures TrojanRecord(name, server, port, password, sni, insecure, link).Keys == TrojanKeys
  {
  }

  /** The fields of a trojan node, each where the parser put it. */
  lemma TrojanRecordFields(name: string, server: Option<string>, port: nat, password: Option<string>,
                           sni: Value, insecure: bool, link: string)
    ensures var r := TrojanRecord(name, server, port, password, sni, insecure, link);
      TrojanKeys <= r.Keys &&
      r["name"] == Str(name) && r["type"] == Str("trojan") && r["server"] == OptionalStr(server) &&
      r["port"] == Int(port) && r["password"] == OptionalStr(password) && r["sni"] == sni &&
      r["skip-cert-verify"] == Bool(insecure) && r["_original_link"] == Str(link)
  {
  }

  /** `parse_trojan_link`. The `port` attribute raising, or being absent (then `int(None)`
      raises), gives no node, and so does a `urlsplit` failure. */
  function ParseTrojan(link: string, rt: Runtime): (r: Option<Node>)
    ensures r.Some? <==>
              PyStr.StartsWith(link, TrojanPrefix) && Url.UrlSplit(link, rt.urlChecks).Some? &&
              Url.PortOf(Url.UrlSplit(link, rt.urlChecks).value.netloc).PortNumber?
    ensures r.Some? ==> r.value.Keys == TrojanKeys && r.value["_original_link"] == Str(link)
    ensures r.Some? ==> r.value["type"] == Str("trojan") && r.value["name"].Str? && r.value["skip-cert-verify"].Bool?
    ensures r.Some? ==> r.value["port"].Int? && 0 <= r.value["port"].i <= 65535
  {
    if !PyStr.StartsWith(link, TrojanPrefix) then None
    else
      match Url.UrlSplit(link, rt.urlChecks)
      case None => None
      case Some(parts) =>
        match Url.PortOf(parts.netloc)
        case BadPort => None
        case NoPort => None
        case PortNumber(port) =>
          Some(TrojanNode(parts, port, link))
  }
}

=== FILE: numerals.dfy ===
/** Decimal text of integers as Python prints and parses it: `str(i)` and
    `int(s)` for a `str` argument in base 10. */
module Numerals {
  import opened Wrappers
  import PyStr

  function DigitChar(d: nat): (c: char)
    requires d < 10
    ensures PyStr.IsAsciiDigit(c)
  {
    ('0' as int + d) as char
  }

  function DigitValue(c: char): (d: nat)
    requires PyStr.IsAsciiDigit(c)
    ensures d < 10 && DigitChar(d) == c
  {
    c as int - '0' as int
  }

  predicate AllDigits(s: string) {
    forall k :: 0 <= k < |s| ==> PyStr.IsAsciiDigit(s[k])
  }

  /** `str(n)` for a natural number: no sign, no leading zero. */
  function ShowNat(n: nat): (r: string)
    ensures |r| > 0 && AllDigits(r)
    ensures |r| > 1 ==> r[0] != '0'
    decreases n
  {
    if n < 10 then [DigitChar(n)] else ShowNat(n / 10) + [DigitChar(n % 10)]
  }

  /** `str(i)`: a minus sign for negative numbers, then the digits of the magnitude. */
  function ShowInt(i: int): (r: string)
    ensures |r| > 0
    ensures (i < 0) <==> r[0] == '-'
  {
    if i < 0 then "-" + ShowNat(-i) else ShowNat(i)
  }

  /** The number a string of decimal digits denotes, most significant first. */
  function DigitsValue(s: string): nat
    requires AllDigits(s)
  {
    if |s| == 0 then 0 else DigitsValue(s[..|s| - 1]) * 10 + DigitValue(s[|s| - 1])
  }

  /** Digits with single underscores between them, as base-10 `int()` accepts. */
  predicate WellGrouped(s: string) {
    |s| > 0 && PyStr.IsAsciiDigit(s[0]) && PyStr.IsAsciiDigit(s[|s| - 1]) &&
    (forall k :: 0 <= k < |s| ==> PyStr.IsAsciiDigit(s[k]) || s[k] == '_') &&
    (forall k :: 0 <= k < |s| - 1 && s[k] == '_' ==> s[k + 1] != '_')
  }

  /** The value of a well-grouped digit string: underscores are ignored. */
  function GroupedValue(s: string): (v: nat)
    requires WellGrouped(s)
  {
    var digits := PyStr.RemoveChars(s, {'_'});
    assert AllDigits(digits) by {
      forall k | 0 <= k < |digits| ensures PyStr.IsAsciiDigit(digits[k]) {
        assert digits[k] in digits;
      }
    }
    DigitsValue(digits)
  }

  /** `int(s)` for a `str`: surrounding whitespace is ignored, one optional sign,
      then well-grouped ASCII digits; anything else is the `ValueError`, `None` here. */
  function ParseInt(s: string): (r: Option<int>)
    ensures r.Some? ==> |PyStr.Strip(s)| > 0
    ensures r.Some? && r.value < 0 ==> PyStr.Strip(s)[0] == '-'
  {
    var t := PyStr.Strip(s);
    if |t| == 0 then None
    else if t[0] == '-' || t[0] == '+' then
      var body := t[1..];
      if WellGrouped(body) then
        var v: int := if t[0] == '-' then 0 - GroupedValue(body) as int else GroupedValue(body);
        Some(v)
      else None
    else if WellGrouped(t) then Some(GroupedValue(t))
    else None
  }

  lemma {:induction false} DigitsOfShow(n: nat)
    ensures DigitsValue(ShowNat(n)) == n
    decreases n
  {
    if n >= 10 {
      var p := ShowNat(n / 10);
      var s := p + [DigitChar(n % 10)];
      assert s[..|s| - 1] == p;
      DigitsOfShow(n / 10);
    }
  }

  lemma GroupedOfShow(n: nat)
    ensures WellGrouped(ShowNat(n)) && GroupedValue(ShowNat(n)) == n
  {
    var s := ShowNat(n);
    assert forall c :: c in s ==> c !in {'_'};
    DigitsOfShow(n);
  }

  lemma ParseGrouped(d: string)
    requires WellGrouped(d)
    ensures ParseInt(d) == Some(GroupedValue(d))
  {
    assert d[0] !in PyStr.Whitespace && d[|d| - 1] !in PyStr.Whitespace;
    PyStr.StripKeeps(d);
  }

  lemma ParseNegated(d: string)
    requires WellGrouped(d)
    ensures ParseInt("-" + d) == Some(0 - GroupedValue(d) as int)
  {
    var s := "-" + d;
    assert s[0] !in PyStr.Whitespace && s[|s| - 1] == d[|d| - 1];
    PyStr.StripKeeps(s);
    ParseMinus(d);
  }

  /** `-` followed by grouped digits, when `strip()` leaves it alone, parses to
      their negation. */
  lemma ParseMinus(d: string)
    requires WellGrouped(d) && PyStr.Strip("-" + d) == "-" + d
    ensures ParseInt("-" + d) == Some(0 - GroupedValue(d) as int)
  {
    assert ("-" + d)[1..] == d;
  }

  /** `int(str(i)) == i`. */
  lemma ParseShow(i: int)
    ensures ParseInt(ShowInt(i)) == Some(i)
  {
    var m: nat := if i < 0 then -i else i;
    GroupedOfShow(m);
    if i < 0 {
      ParseNegated(ShowNat(m));
    } else {
      ParseGrouped(ShowNat(m));
    }
  }
}

=== FILE: outputs.dfy ===
/** The three output formats `process_subscriptions` renders the tested nodes
    in: a Clash document, a sing-box document, and a v2rayN subscription (base64 of
    newline-separated share links, regenerated for vmess and trojan nodes). */
module Outputs {
  import opened Wrappers
  import opened Values
  import PyStr
  import Utf8
  import Base64
  import Percent
  import Links
  import Subscription

  // ---------------------------------------------------------------------------
  // Names

  /** `node_data["name"]` for each node in order; the first node without a name raises. */
  function Names(nodes: seq<Node>): (r: Result<seq<Value>, PyError>)
    ensures r.Ok? <==> forall k :: 0 <= k < |nodes| ==> "name" in nodes[k]
    ensures r.Ok? ==> |r.value| == |nodes| && forall k :: 0 <= k < |nodes| ==> r.value[k] == nodes[k]["name"]
    ensures r.Err? ==> r.error == KeyError("name")
  {
    if |nodes| == 0 then Ok([])
    else
      assert forall k :: 1 <= k < |nodes| ==> nodes[k] == nodes[1..][k - 1];
      match Index(nodes[0], "name")
      case Err(e) => Err(e)
      case Ok(name) =>
        match Names(nodes[1..])
        case Err(e) => Err(e)
        case Ok(rest) => Ok([name] + rest)
  }

  /** Each node with the keys starting with `_` removed. */
  function Stripped(nodes: seq<Node>): (r: seq<Value>)
    ensures |r| == |nodes|
    ensures forall k :: 0 <= k < |r| ==> r[k] == Dict(StripInternal(nodes[k]))
  {
    seq(|nodes|, k requires 0 <= k < |nodes| => Dict(StripInternal(nodes[k])))
  }

  // ---------------------------------------------------------------------------
  // Clash

  const AutoGroup: string := "自动选择"
  const ManualGroup: string := "手动选择"
  const PlaceholderName: string := "NO-NODES-VALID"
  const Placeholder: Value := Dict(map["name" := Str(PlaceholderName), "type" := Str("direct")])

  /** The `proxies` of the Clash document: the stripped nodes, or the placeholder
      when there are none. */
  function ClashProxies(nodes: seq<Node>): (r: seq<Value>)
    ensures |r| == if |nodes| == 0 then 1 else |nodes|
    ensures |nodes| == 0 ==> r == [Placeholder]
    ensures |nodes| > 0 ==> forall k :: 0 <= k < |nodes| ==> r[k] == Dict(StripInternal(nodes[k]))
  {
    if |nodes| == 0 then [Placeholder] else Stripped(nodes)
  }

  /** The members of the url-test group: the node names, or the placeholder's. */
  function ClashMembers(names: seq<Value>): (r: seq<Value>)
    ensures |r| == if |names| == 0 then 1 else |names|
    ensures |names| == 0 ==> r == [Str(PlaceholderName)]
    ensures |names| > 0 ==> r == names
  {
    if |names| == 0 then [Str(PlaceholderName)] else names
  }

  function AutoGroupDoc(members: seq<Value>): Value {
    Dict(map[
      "name" := Str(AutoGroup), "type" := Str("url-test"), "proxies" := List(members),
      "url" := Str("http://www.gstatic.com/generate_204"), "interval" := Int(300)])
  }

  function ManualGroupDoc(members: seq<Value>): Value {
    Dict(map["name" := Str(ManualGroup), "type" := Str("select"), "proxies" := List([Str(AutoGroup)] + members)])
  }

  const ClashRules: seq<Value> := [Str("DOMAIN-SUFFIX,google.com," + AutoGroup), Str("MATCH," + ManualGroup)]

  /** The Clash document for the nodes and their names. */
  function ClashDocument(nodes: seq<Node>, names: seq<Value>): (doc: Value)
    ensures doc.Dict? && doc.fields.Keys == {"proxies", "proxy-groups", "rules"}
    ensures doc.fields["proxies"] == List(ClashProxies(nodes))
    ensures var groups := doc.fields["proxy-groups"];
            groups.List? && |groups.items| == 2 && groups.items[0].Dict? && groups.items[1].Dict? &&
            groups.items[0].fields.Keys == {"name", "type", "proxies", "url", "interval"} &&
            groups.items[1].fields.Keys == {"name", "type", "proxies"} &&
            groups.items[0].fields["name"] == Str(AutoGroup) && groups.items[1].fields["name"] == Str(ManualGroup) &&
            groups.items[0].fields["proxies"] == List(ClashMembers(names)) &&
            groups.items[1].fields["proxies"] == List([Str(AutoGroup)] + ClashMembers(names))
    ensures doc.fields["rules"] == List([Str("DOMAIN-SUFFIX,google.com," + AutoGroup), Str("MATCH," + ManualGroup)])
  {
    Dict(map[
      "proxies" := List(ClashProxies(nodes)),
      "proxy-groups" := List([AutoGroupDoc(ClashMembers(names)), ManualGroupDoc(ClashMembers(names))]),
      "rules" := List(ClashRules)])
  }

  /** Every member of the url-test group is the name of the proxy at the same
      position, so both groups only refer to proxies that exist (or to the
      url-test group itself). */
  lemma {:induction false} ClashGroupsConsistent(nodes: seq<Node>, names: seq<Value>)
    requires Names(nodes) == Ok(names)
    ensures |ClashMembers(names)| == |ClashProxies(nodes)|
    ensures forall k :: 0 <= k < |ClashProxies(nodes)| ==>
              ClashProxies(nodes)[k].Dict? && "name" in ClashProxies(nodes)[k].fields &&
              ClashProxies(nodes)[k].fields["name"] == ClashMembers(names)[k]
  {
    assert !Internal("name");
    if |nodes| == 0 {
      assert ClashProxies(nodes)[0].fields["name"] == Str(PlaceholderName);
    }
  }

  /** The Clash output: `yaml.dump` of the document. */
  function ClashOutput(nodes: seq<Node>, rt: Runtime): (r: Result<string, PyError>)
    ensures r.Ok? <==> Names(nodes).Ok?
    ensures r.Ok? ==> r.value == rt.yamlDump(ClashDocument(nodes, Names(nodes).value))
  {
    var names :- Names(nodes);
    Ok(rt.yamlDump(ClashDocument(nodes, names)))
  }

  // ---------------------------------------------------------------------------
  // sing-box

  const DirectOutbound: Value := Dict(map["type" := Str("direct"), "tag" := Str("DIRECT")])

  /** The outbounds: each stripped node tagged with its name, then the direct one. */
  function SingboxOutbounds(nodes: seq<Node>, names: seq<Value>): (r: seq<Value>)
    requires |names| == |nodes|
    ensures |r| == |nodes| + 1 && r[|nodes|] == DirectOutbound
    ensures forall k :: 0 <= k < |nodes| ==> r[k] == Dict(StripInternal(nodes[k])["tag" := names[k]])
  {
    seq(|nodes|, k requires 0 <= k < |nodes| => Dict(StripInternal(nodes[k])["tag" := names[k]])) + [DirectOutbound]
  }

  /** The outbound everything not matched goes to: the first node's tag, else `DIRECT`. */
  function SingboxFinal(names: seq<Value>): Value {
    if |names| == 0 then Str("DIRECT") else names[0]
  }

  function SingboxDocument(nodes: seq<Node>, names: seq<Value>): (doc: Value)
    requires |names| == |nodes|
    ensures doc.Dict? && "outbounds" in doc.fields && "route" in doc.fields
    ensures doc.fields["outbounds"] == List(SingboxOutbounds(nodes, names))
    ensures doc.fields["route"].Dict? && "final" in doc.fields["route"].fields && "rules" in doc.fields["route"].fields
    ensures doc.fields["route"].fields["final"] == SingboxFinal(names)
    ensures doc.fields["route"].fields["rules"] ==
              List(if |names| == 0 then [] else [Dict(map["outbound" := names[0]])])
  {
    Dict(map[
      "log" := Dict(map["level" := Str("info"), "timestamp" := Bool(true)]),
      "dns" := Dict(map["servers" := List([Dict(map["address" := Str("8.8.8.8")]), Dict(map["address" := Str("1.1.1.1")])])]),
      "inbounds" := List([Dict(map["type" := Str("mixed"), "tag" := Str("mixed-in"), "listen" := Str("::"), "listen_port" := Int(2080)])]),
      "outbounds" := List(SingboxOutbounds(nodes, names)),
      "route" := Dict(map[
        "rules" := List(if |names| == 0 then [] else [Dict(map["outbound" := names[0]])]),
        "final" := SingboxFinal(names)])])
  }

  /** The route's final outbound is always the tag of an outbound in the document. */
  lemma {:induction false} SingboxFinalExists(nodes: seq<Node>, names: seq<Value>)
    requires |names| == |nodes|
    ensures exists k :: 0 <= k < |SingboxOutbounds(nodes, names)| &&
              SingboxOutbounds(nodes, names)[k].Dict? && "tag" in SingboxOutbounds(nodes, names)[k].fields &&
              SingboxOutbounds(nodes, names)[k].fields["tag"] == SingboxFinal(names)
  {
    var outs := SingboxOutbounds(nodes, names);
    if |nodes| == 0 {
      assert outs[0].fields["tag"] == Str("DIRECT");
    } else {
      assert outs[0].fields["tag"] == names[0];
    }
  }

  /** The sing-box output: `json.dumps(..., indent=2)` of the document. */
  function SingboxOutput(nodes: seq<Node>, rt: Runtime): (r: Result<string, PyError>)
    ensures r.Ok? <==> Names(nodes).Ok?
    ensures r.Ok? ==> r.value == rt.jsonDumpsIndented(SingboxDocument(nodes, Names(nodes).value))
  {
    var names :- Names(nodes);
    Ok(rt.jsonDumpsIndented(SingboxDocument(nodes, names)))
  }

  // ---------------------------------------------------------------------------
  // v2rayN links

  /** The `host` and `path` of a websocket vmess node (`ws-opts.headers.Host` and
      `ws-opts.path`); other nodes have empty ones. */
  function WsFields(node: Node): (r: Result<(Value, Value), PyError>)
    ensures r.Ok? <==> (Get(node, "network", Null) == Str("ws") ==>
                          Get(node, "ws-opts", Dict(map[])).Dict? &&
                          Get(Get(node, "ws-opts", Dict(map[])).fields, "headers", Dict(map[])).Dict?)
    ensures r.Err? ==> r.error == AttributeError
    ensures r.Ok? && Get(node, "network", Null) != Str("ws") ==> r.value == (Str(""), Str(""))
  {
    if Get(node, "network", Null) != Str("ws") then Ok((Str(""), Str("")))
    else
      var opts := Get(node, "ws-opts", Dict(map[]));
      if !opts.Dict? then Err(AttributeError)
      else
        var headers := Get(opts.fields, "headers", Dict(map[]));
        if !headers.Dict? then Err(AttributeError)
        else Ok((Get(headers.fields, "Host", Str("")), Get(opts.fields, "path", Str(""))))
  }

  /** The object a regenerated vmess link carries, before the empty fields are
      dropped. A missing name, server, port or uuid raises `KeyError`; for a
      websocket node, `ws-opts` or its `headers` not being a dictionary raises
      `AttributeError`. */
  function VmessObject(node: Node, rt: Runtime): (r: Result<map<string, Value>, PyError>)
    ensures r.Ok? ==> r.value.Keys == VmessObjectKeys
    ensures r.Ok? <==> "name" in node && "server" in node && "port" in node && "uuid" in node && WsFields(node).Ok?
  {
    var name :- Index(node, "name");
    var server :- Index(node, "server");
    var port :- Index(node, "port");
    var uuid :- Index(node, "uuid");
    var ws :- WsFields(node);
    var tls := Truthy(Get(node, "tls", Null));
    var sni := if tls then Get(node, "sni", Str("")) else Str("");
    var aid := Display(Get(node, "alterId", Int(0)), rt);
    VmessRecordShape(name, server, Display(port, rt), uuid, aid, Get(node, "network", Str("tcp")), ws.0, ws.1, tls, sni,
                     Get(node, "cipher", Str("auto")));
    Ok(VmessRecord(name, server, Display(port, rt), uuid, aid, Get(node, "network", Str("tcp")), ws.0, ws.1, tls, sni,
                   Get(node, "cipher", Str("auto"))))
  }

  const VmessObjectKeys: set<string> := {"v", "ps", "add", "port", "id", "aid", "net", "type", "host", "path", "tls", "sni", "scy"}

  /** The dictionary `process_subscriptions` writes for a vmess node, from its fields. */
  function VmessRecord(name: Value, server: Value, port: string, uuid: Value, aid: string, net: Value,
                       host: Value, path: Value, tls: bool, sni: Value, scy: Value): map<string, Value>
  {
    map[
      "v" := Str("2"),
      "ps" := name,
      "add" := server,
      "port" := Str(port),
      "id" := uuid,
      "aid" := Str(aid),
      "net" := net,
      "type" := Str("none"),
      "host" := host,
      "path" := path,
      "tls" := Str(if tls then "tls" else ""),
      "sni" := sni,
      "scy" := scy]
  }

  lemma VmessRecordShape(name: Value, server: Value, port: string, uuid: Value, aid: string, net: Value,
                         host: Value, path: Value, tls: bool, sni: Value, scy: Value)
    ensures VmessRecord(name, server, port, uuid, aid, net, host, path, tls, sni, scy).Keys == VmessObjectKeys
  {
  }

  /** Each field of the vmess dictionary, where it was put. */
  lemma VmessRecordFields(name: Value, server: Value, port: string, uuid: Value, aid: string, net: Value,
                          host: Value, path: Value, tls: bool, sni: Value, scy: Value)
    ensures var r := VmessRecord(name, server, port, uuid, aid, net, host, path, tls, sni, scy);
      VmessObjectKeys <= r.Keys &&
      r["ps"] == name && r["add"] == server && r["port"] == Str(port) && r["id"] == uuid &&
      r["aid"] == Str(aid) && r["net"] == net && r["host"] == host && r["path"] == path &&
      r["tls"] == Str(if tls then "tls" else "") && r["sni"] == sni && r["scy"] == scy
  {
  }

  /** `{k: v for k, v in obj.items() if v}`. */
  function DropFalsy(obj: map<string, Value>): (r: map<string, Value>)
    ensures forall k :: k in r <==> k in obj && Truthy(obj[k])
    ensures forall k :: k in r ==> r[k] == obj[k]
  {
    map k | k in obj && Truthy(obj[k]) :: obj[k]
  }

  /** A regenerated vmess link. */
  function VmessLink(node: Node, rt: Runtime): (r: Result<string, PyError>)
    ensures r.Ok? <==> VmessObject(node, rt).Ok?
    ensures r.Ok? ==> PyStr.StartsWith(r.value, Links.VmessPrefix)
  {
    var obj :- VmessObject(node, rt);
    var payload := Base64.Encode(Utf8.Encode(rt.jsonDumps(Dict(DropFalsy(obj)))));
    Ok(Links.VmessPrefix + payload)
  }

  /** The query of a regenerated trojan link: `sni` when the node has a non-empty
      one, then `allowInsecure=1` when certificate checks are skipped. */
  function TrojanQuery(node: Node, rt: Runtime): (pairs: seq<(string, string)>)
    ensures |pairs| <= 2
    ensures forall k :: 0 <= k < |pairs| ==> pairs[k].0 in {"sni", "allowInsecure"}
  {
    var sni := Get(node, "sni", Null);
    (if Truthy(sni) then [("sni", Display(sni, rt))] else []) +
    (if Truthy(Get(node, "skip-cert-verify", Null)) then [("allowInsecure", "1")] else [])
  }

  /** A regenerated trojan link, `trojan://password@server:port?query#name`. A
      missing password, server, port or name raises `KeyError`; a name that is not
      a string cannot be quoted (`TypeError`). */
  function TrojanLink(node: Node, rt: Runtime): (r: Result<string, PyError>)
    ensures r.Ok? <==> "password" in node && "server" in node && "port" in node && "name" in node && node["name"].Str?
    ensures r.Ok? ==> PyStr.StartsWith(r.value, Links.TrojanPrefix)
  {
    var query := Percent.UrlEncode(TrojanQuery(node, rt));
    var password :- Index(node, "password");
    var server :- Index(node, "server");
    var port :- Index(node, "port");
    var name :- Index(node, "name");
    if !name.Str? then Err(TypeError)
    else Ok(TrojanAssembled(password, server, port, query, name.s, rt))
  }

  /** The f-string of a trojan link from its displayed parts and encoded query. */
  function TrojanAssembled(password: Value, server: Value, port: Value, query: string, name: string,
                           rt: Runtime): (link: string)
    ensures PyStr.StartsWith(link, Links.TrojanPrefix)
  {
    var netloc := Display(password, rt) + "@" + Display(server, rt) + ":" + Display(port, rt);
    var tail := (if query != "" then "?" + query else "") + "#" + Percent.Quote(name);
    var link := Links.TrojanPrefix + netloc + tail;
    assert link[..|Links.TrojanPrefix|] == Links.TrojanPrefix;
    link
  }

  /** What a node contributes to the v2rayN list. */
  datatype Entry = Omitted | Regenerated(link: string) | PassedThrough(original: Value)

  /** A node with an original link whose name shows it has been tested. */
  predicate Tested(node: Node) {
    "_original_link" in node && "name" in node && node["name"].Str? && PyStr.StartsWith(node["name"].s, "[")
  }

  /** A node without `_original_link` is left out. One whose name starts with `[`
      (it has been tested) gets a new link if it is vmess or trojan and is left out
      otherwise; any other node contributes its original link as it is. */
  function V2rayNEntry(node: Node, rt: Runtime): (r: Result<Entry, PyError>)
    ensures "_original_link" !in node ==> r == Ok(Omitted)
    ensures r.Ok? && r.value.PassedThrough? ==>
              "name" in node && node["name"].Str? && !PyStr.StartsWith(node["name"].s, "[") &&
              r.value.original == node["_original_link"]
    ensures r.Ok? && r.value.Regenerated? ==> Get(node, "type", Null) in {Str("vmess"), Str("trojan")}
    ensures "_original_link" in node && "name" !in node ==> r == Err(KeyError("name"))
    ensures "_original_link" in node && "name" in node && !node["name"].Str? ==> r == Err(AttributeError)
    ensures "_original_link" in node && "name" in node && node["name"].Str? && !PyStr.StartsWith(node["name"].s, "[") ==>
              r == Ok(PassedThrough(node["_original_link"]))
    ensures Tested(node) && Get(node, "type", Null) == Str("vmess") ==>
              (r.Ok? <==> VmessLink(node, rt).Ok?) &&
              (r.Ok? ==> r.value == Regenerated(VmessLink(node, rt).value)) &&
              (r.Err? ==> r.error == VmessLink(node, rt).error)
    ensures Tested(node) && Get(node, "type", Null) == Str("trojan") ==>
              (r.Ok? <==> TrojanLink(node, rt).Ok?) &&
              (r.Ok? ==> r.value == Regenerated(TrojanLink(node, rt).value)) &&
              (r.Err? ==> r.error == TrojanLink(node, rt).error)
    ensures Tested(node) && Get(node, "type", Null) !in {Str("vmess"), Str("trojan")} ==> r == Ok(Omitted)
  {
    if "_original_link" !in node then Ok(Omitted)
    else
      var name :- Index(node, "name");
      if !name.Str? then Err(AttributeError)
      else if PyStr.StartsWith(name.s, "[") then
        var t := Get(node, "type", Null);
        if t == Str("vmess") then (var link :- VmessLink(node, rt); Ok(Regenerated(link)))
        else if t == Str("trojan") then (var link :- TrojanLink(node, rt); Ok(Regenerated(link)))
        else Ok(Omitted)
      else Ok(PassedThrough(node["_original_link"]))
  }

  /** The line an entry contributes: none, the new link, or the original link. */
  function EntryLine(e: Entry): (r: seq<Value>)
    ensures e.Omitted? <==> r == []
  {
    match e
    case Omitted => []
    case Regenerated(link) => [Str(link)]
    case PassedThrough(original) => [original]
  }

  /** The lines of a sequence of entries, in their order. */
  function EntryLines(entries: seq<Entry>): (r: seq<Value>)
    ensures |r| <= |entries|
    ensures (forall k :: 0 <= k < |entries| ==> entries[k].Omitted?) ==> r == []
  {
    if |entries| == 0 then [] else EntryLine(entries[0]) + EntryLines(entries[1..])
  }

  /** The entry of each node, or the exception computing it raises. */
  function EntryResults(nodes: seq<Node>, rt: Runtime): (r: seq<Result<Entry, PyError>>)
    ensures |r| == |nodes| && forall k :: 0 <= k < |nodes| ==> r[k] == V2rayNEntry(nodes[k], rt)
  {
    seq(|nodes|, k requires 0 <= k < |nodes| => V2rayNEntry(nodes[k], rt))
  }

  /** The entries of a list of results none of which is an exception. */
  function OkEntries(results: seq<Result<Entry, PyError>>): (r: seq<Entry>)
    requires forall k :: 0 <= k < |results| ==> results[k].Ok?
    ensures |r| == |results| && forall k :: 0 <= k < |results| ==> r[k] == results[k].value
  {
    seq(|results|, k requires 0 <= k < |results| => results[k].value)
  }

  /** The entry of every node, when none of them raises. */
  function Entries(nodes: seq<Node>, rt: Runtime): (r: seq<Entry>)
    requires forall k :: 0 <= k < |nodes| ==> V2rayNEntry(nodes[k], rt).Ok?
    ensures |r| == |nodes| && forall k :: 0 <= k < |nodes| ==> r[k] == V2rayNEntry(nodes[k], rt).value
  {
    OkEntries(EntryResults(nodes, rt))
  }

  /** The first exception among the results is at `k`. */
  predicate FirstError(results: seq<Result<Entry, PyError>>, k: nat) {
    k < |results| && results[k].Err? && forall j :: 0 <= j < k ==> results[j].Ok?
  }

  /** The loop over the results: the first exception ends it; otherwise each
      entry contributes its line, in order. */
  function CollectLines(results: seq<Result<Entry, PyError>>): (r: Result<seq<Value>, PyError>)
    ensures r.Ok? <==> forall k :: 0 <= k < |results| ==> results[k].Ok?
    ensures r.Ok? ==> r.value == EntryLines(OkEntries(results))
    ensures r.Err? ==> exists k: nat :: FirstError(results, k) && r.error == results[k].error
  {
    if |results| == 0 then Ok([])
    else
      assert forall k :: 1 <= k < |results| ==> results[k] == results[1..][k - 1];
      match results[0]
      case Err(e) =>
        assert FirstError(results, 0);
        Err(e)
      case Ok(entry) =>
        var rest := CollectLines(results[1..]);
        if rest.Err? then
          assert exists k: nat :: FirstError(results, k) && rest.error == results[k].error by {
            var k: nat :| FirstError(results[1..], k) && rest.error == results[1..][k].error;
            assert FirstError(results, k + 1);
          }
          Err(rest.error)
        else
          assert OkEntries(results)[1..] == OkEntries(results[1..]);
          Ok(EntryLine(entry) + rest.value)
  }

  /** The first node whose entry raises sits at `k`. */
  predicate FirstFailure(nodes: seq<Node>, rt: Runtime, k: nat) {
    k < |nodes| && V2rayNEntry(nodes[k], rt).Err? &&
    forall j :: 0 <= j < k ==> V2rayNEntry(nodes[j], rt).Ok?
  }

  /** The lines of the list: the first node that raises ends the output; otherwise
      each node contributes its entry's line, in node order. */
  function V2rayNLines(nodes: seq<Node>, rt: Runtime): (r: Result<seq<Value>, PyError>)
    ensures r.Ok? <==> forall k :: 0 <= k < |nodes| ==> V2rayNEntry(nodes[k], rt).Ok?
    ensures r.Ok? ==> r.value == EntryLines(Entries(nodes, rt)) && |r.value| <= |nodes|
    ensures r.Err? ==> exists k: nat :: FirstFailure(nodes, rt, k) && r.error == V2rayNEntry(nodes[k], rt).error
  {
    var results := EntryResults(nodes, rt);
    var r := CollectLines(results);
    assert r.Err? ==> exists k: nat :: FirstFailure(nodes, rt, k) && r.error == V2rayNEntry(nodes[k], rt).error by {
      if r.Err? {
        var k: nat :| FirstError(results, k) && r.error == results[k].error;
        assert FirstFailure(nodes, rt, k);
      }
    }
    r
  }

  /** The text of each line; `"\n".join` raises `TypeError` on one that is not a string. */
  function LineTexts(lines: seq<Value>): (r: Result<seq<string>, PyError>)
    ensures r.Ok? <==> forall k :: 0 <= k < |lines| ==> lines[k].Str?
    ensures r.Ok? ==> |r.value| == |lines| && forall k :: 0 <= k < |lines| ==> r.value[k] == lines[k].s
    ensures r.Err? ==> r.error == TypeError
  {
    if |lines| == 0 then Ok([])
    else if !lines[0].Str? then Err(TypeError)
    else
      assert forall k :: 1 <= k < |lines| ==> lines[k] == lines[1..][k - 1];
      match LineTexts(lines[1..])
      case Err(e) => Err(e)
      case Ok(rest) => Ok([lines[0].s] + rest)
  }

  /** The links of the v2rayN list: each node's line, in node order, as text. */
  function V2rayNLinks(nodes: seq<Node>, rt: Runtime): (r: Result<seq<string>, PyError>)
    ensures r.Ok? <==>
              V2rayNLines(nodes, rt).Ok? &&
              forall k :: 0 <= k < |V2rayNLines(nodes, rt).value| ==> V2rayNLines(nodes, rt).value[k].Str?
    ensures r.Ok? ==>
              |r.value| == |V2rayNLines(nodes, rt).value| &&
              forall k :: 0 <= k < |r.value| ==> Str(r.value[k]) == V2rayNLines(nodes, rt).value[k]
    ensures V2rayNLines(nodes, rt).Err? ==> r == Err(V2rayNLines(nodes, rt).error)
    ensures V2rayNLines(nodes, rt).Ok? && r.Err? ==> r.error == TypeError
  {
    var lines :- V2rayNLines(nodes, rt);
    LineTexts(lines)
  }

  /** The v2rayN output: the links joined by line breaks, encoded, and base64 encoded. */
  function V2rayNOutput(nodes: seq<Node>, rt: Runtime): (r: Result<string, PyError>)
    ensures r.Ok? <==> V2rayNLinks(nodes, rt).Ok?
    ensures r.Ok? ==> Subscription.Base64Text(r.value)
    ensures r.Ok? ==> r.value == Subscription.EncodeLinkList(V2rayNLinks(nodes, rt).value)
  {
    var links :- V2rayNLinks(nodes, rt);
    Ok(Subscription.EncodeLinkList(links))
  }

  /** A v2rayN output reads back as a link list: when every link is a non-empty
      line, fetching the output parses exactly those links, in node order. */
  lemma V2rayNReadBack(nodes: seq<Node>, rt: Runtime)
    requires V2rayNLinks(nodes, rt).Ok?
    requires var links := V2rayNLinks(nodes, rt).value;
             forall k :: 0 <= k < |links| ==> Subscription.CleanLine(links[k])
    ensures V2rayNOutput(nodes, rt).Ok?
    ensures Subscription.FetchNodes(Subscription.Fetched(V2rayNOutput(nodes, rt).value), rt) ==
              Subscription.ParseLines(V2rayNLinks(nodes, rt).value, rt)
  {
    Subscription.LinkListRoundTrip(V2rayNLinks(nodes, rt).value, rt);
  }

  /** `process_subscriptions`'s rendering step; an unknown format is answered with
      an error message rather than an exception. */
  function Render(format: string, nodes: seq<Node>, rt: Runtime): (r: Result<string, PyError>)
    ensures format == "clash" ==> r == ClashOutput(nodes, rt)
    ensures format == "singbox" ==> r == SingboxOutput(nodes, rt)
    ensures format == "v2rayn" ==> r == V2rayNOutput(nodes, rt)
    ensures format !in {"clash", "singbox", "v2rayn"} ==> r == Ok("Error: Unsupported output format")
  {
    if format == "clash" then ClashOutput(nodes, rt)
    else if format == "singbox" then SingboxOutput(nodes, rt)
    else if format == "v2rayn" then V2rayNOutput(nodes, rt)
    else Ok("Error: Unsupported output format")
  }
}

=== FILE: percent.dfy ===
/** Percent-encoding as `urllib.parse` implements it (section 2.1 of RFC 3986,
    and the `application/x-www-form-urlencoded` variant that writes a space as `+`):
    `quote`, `quote_plus`, `unquote`, `unquote_to_bytes`, `urlencode` and `parse_qsl`. */
module Percent {
  import opened Wrappers
  import opened Utf8
  import PyStr

  /** Bytes `quote` never escapes: ASCII letters, digits and `_.-~`. */
  predicate AlwaysSafe(x: byte) {
    ('A' as int <= x <= 'Z' as int) || ('a' as int <= x <= 'z' as int) ||
    ('0' as int <= x <= '9' as int) || x == '_' as int || x == '.' as int ||
    x == '-' as int || x == '~' as int
  }

  predicate KeepsByte(x: byte, safe: set<char>) {
    AlwaysSafe(x) || (x < 128 && (x as char) in safe)
  }

  function HexDigit(d: nat): (c: char)
    requires d < 16
    ensures c as int < 128 && IsHexByte(c as int) && HexValue(c as int) == d
  {
    if d < 10 then ('0' as int + d) as char else ('A' as int + d - 10) as char
  }

  predicate IsHexByte(x: byte) {
    ('0' as int <= x <= '9' as int) || ('a' as int <= x <= 'f' as int) || ('A' as int <= x <= 'F' as int)
  }

  function HexValue(x: byte): (d: nat)
    requires IsHexByte(x)
    ensures d < 16
  {
    if x <= '9' as int then x - '0' as int
    else if x >= 'a' as int then x - 'a' as int + 10
    else x - 'A' as int + 10
  }

  /** One byte as `quote_from_bytes` writes it: itself when kept, `%XX` otherwise. */
  function QuoteByte(x: byte, safe: set<char>): (r: string)
  {
    if KeepsByte(x, safe) then [x as char] else ['%', HexDigit(x / 16), HexDigit(x % 16)]
  }

  /** `quote_from_bytes(b, safe)`. */
  function QuoteBytes(b: seq<byte>, safe: set<char>): (r: string)
    ensures PyStr.IsAscii(r)
    ensures |r| >= |b|
    decreases |b|
  {
    if |b| == 0 then "" else QuoteByte(b[0], safe) + QuoteBytes(b[1..], safe)
  }

  /** `urllib.parse.quote(s)`, whose default `safe` is `/`. */
  function Quote(s: string): (r: string)
    ensures PyStr.IsAscii(r)
  {
    QuoteBytes(Encode(s), {'/'})
  }

  /** `urllib.parse.quote_plus(s)`: nothing but the always-safe bytes is kept,
      and a space becomes `+`. */
  function QuotePlus(s: string): (r: string)
    ensures PyStr.IsAscii(r)
    ensures |r| >= |s|
  {
    EncodeLength(s);
    if ' ' !in s then QuoteBytes(Encode(s), {})
    else PyStr.ReplaceChar(QuoteBytes(Encode(s), {' '}), ' ', '+')
  }

  /** `unquote_to_bytes` on the bytes of its argument: `%` and two hexadecimal digits
      become the byte they spell; any other `%` stays. Splitting at every `%` and
      looking up the first two characters of each piece, as the library does,
      amounts to this left-to-right scan. */
  function UnquoteBytes(b: seq<byte>): (r: seq<byte>)
    ensures |r| <= |b|
    decreases |b|
  {
    if |b| == 0 then []
    else if b[0] == '%' as int && |b| >= 3 && IsHexByte(b[1]) && IsHexByte(b[2]) then
      [HexValue(b[1]) * 16 + HexValue(b[2])] + UnquoteBytes(b[3..])
    else [b[0]] + UnquoteBytes(b[1..])
  }

  /** Length of the leading run of ASCII characters. */
  function AsciiRun(s: string): (n: nat)
    ensures n <= |s|
    ensures PyStr.IsAscii(s[..n])
    ensures n < |s| ==> s[n] as int >= 128
  {
    if |s| == 0 || s[0] as int >= 128 then 0 else 1 + AsciiRun(s[1..])
  }

  /** The body of `unquote` once a `%` is present: each maximal ASCII run goes through
      `unquote_to_bytes` and a UTF-8 decode with `errors='replace'`; other characters stay. */
  function UnquoteRuns(s: string): string
    decreases |s|
  {
    if |s| == 0 then ""
    else if s[0] as int >= 128 then [s[0]] + UnquoteRuns(s[1..])
    else
      var n := AsciiRun(s);
      DecodeReplace(UnquoteBytes(Encode(s[..n]))) + UnquoteRuns(s[n..])
  }

  /** `urllib.parse.unquote(s)`. */
  function Unquote(s: string): (r: string)
    ensures '%' !in s ==> r == s
  {
    if '%' !in s then s else UnquoteRuns(s)
  }

  /** `urlencode` of a dictionary of strings, with its default `quote_plus`. */
  function UrlEncode(pairs: seq<(string, string)>): (r: string)
    ensures |pairs| == 0 <==> r == ""
  {
    var parts := seq(|pairs|, k requires 0 <= k < |pairs| => QuotePlus(pairs[k].0) + "=" + QuotePlus(pairs[k].1));
    JoinNonEmpty(parts);
    PyStr.Join("&", parts)
  }

  /** Decoding one side of a query pair: `+` is a space, then `unquote`. */
  function FormDecode(s: string): string {
    Unquote(PyStr.ReplaceChar(s, '+', ' '))
  }

  /** `parse_qsl(qs)` with its defaults: empty pieces, pieces without `=`, and
      pairs whose value is empty are dropped. */
  function ParseQsl(qs: string): (r: seq<(string, string)>)
  {
    var pieces := if qs == "" then [] else PyStr.Split(qs, '&');
    ParsePieces(pieces)
  }

  function ParsePieces(pieces: seq<string>): (r: seq<(string, string)>)
    ensures |r| <= |pieces|
  {
    if |pieces| == 0 then []
    else
      var piece := pieces[0];
      var (name, hasEq, value) := PyStr.Partition(piece, '=');
      if piece == "" || !hasEq || value == "" then ParsePieces(pieces[1..])
      else [(FormDecode(name), FormDecode(value))] + ParsePieces(pieces[1..])
  }

  /** `parse_qs(qs).get(key, [None])[0]`: the first value given for `key`. */
  function ParseQsFirst(qs: string, key: string): (r: Option<string>)
  {
    FirstValue(ParseQsl(qs), key)
  }

  function FirstValue(pairs: seq<(string, string)>, key: string): (r: Option<string>)
    ensures r.Some? ==> exists k :: 0 <= k < |pairs| && pairs[k] == (key, r.value)
    ensures r.None? <==> forall k :: 0 <= k < |pairs| ==> pairs[k].0 != key
  {
    if |pairs| == 0 then None
    else if pairs[0].0 == key then Some(pairs[0].1)
    else
      var r := FirstValue(pairs[1..], key);
      assert forall k :: 1 <= k < |pairs| ==> pairs[k] == pairs[1..][k - 1];
      r
  }

  // ---------------------------------------------------------------------------
  // Round trips

  lemma EncodeLength(s: string)
    ensures |Encode(s)| >= |s|
  {
    if |s| > 0 {
      EncodeLength(s[1..]);
    }
  }

  lemma JoinNonEmpty(parts: seq<string>)
    ensures |parts| > 0 && (forall k :: 0 <= k < |parts| ==> |parts[k]| > 0) ==> PyStr.Join("&", parts) != ""
  {
  }

  /** Undoing one quoted byte. */
  lemma UnquoteQuoteByte(x: byte, safe: set<char>, rest: seq<byte>)
    requires '%' !in safe
    ensures UnquoteBytes(Encode(QuoteByte(x, safe)) + rest) == [x] + UnquoteBytes(rest)
  {
    var q := QuoteByte(x, safe);
    if KeepsByte(x, safe) {
      assert Encode(q) == [x];
      assert x != '%' as int;
    } else {
      var h, l := x / 16, x % 16;
      assert q == ['%', HexDigit(h), HexDigit(l)];
      EncodeAscii(q);
      assert Encode(q) == [q[0] as int, q[1] as int, q[2] as int];
      var b := Encode(q) + rest;
      assert b[0] == '%' as int && b[1] == HexDigit(h) as int && b[2] == HexDigit(l) as int;
      assert HexValue(b[1]) == h && HexValue(b[2]) == l;
      assert b[3..] == rest;
    }
  }

  /** `unquote_to_bytes` inverts `quote_from_bytes` whatever `safe` holds, as long as it
      does not mark `%` itself as safe. */
  lemma {:induction false} UnquoteQuoteBytes(b: seq<byte>, safe: set<char>)
    requires '%' !in safe
    ensures UnquoteBytes(Encode(QuoteBytes(b, safe))) == b
    decreases |b|
  {
    if |b| > 0 {
      var q := QuoteByte(b[0], safe);
      EncodeAppend(q, QuoteBytes(b[1..], safe));
      UnquoteQuoteByte(b[0], safe, Encode(QuoteBytes(b[1..], safe)));
      UnquoteQuoteBytes(b[1..], safe);
      assert [b[0]] + b[1..] == b;
    }
  }

  /** On ASCII text the run-by-run decoding is one run. */
  lemma UnquoteRunsAscii(s: string)
    requires PyStr.IsAscii(s) && |s| > 0
    ensures UnquoteRuns(s) == DecodeReplace(UnquoteBytes(Encode(s)))
  {
    AsciiRunAll(s);
    assert s[..|s|] == s;
    assert s[|s|..] == "";
  }

  lemma {:induction false} AsciiRunAll(s: string)
    requires PyStr.IsAscii(s)
    ensures AsciiRun(s) == |s|
  {
    if |s| > 0 {
      AsciiRunAll(s[1..]);
    }
  }

  /** ASCII text without `%` passes through `unquote_to_bytes` and decoding unchanged. */
  lemma {:induction false} PlainAsciiBytes(s: string)
    requires PyStr.IsAscii(s) && '%' !in s
    ensures UnquoteBytes(Encode(s)) == Encode(s)
    ensures DecodeReplace(Encode(s)) == s
  {
    if |s| > 0 {
      assert s[0] in s;
      assert Encode(s) == [s[0] as int] + Encode(s[1..]);
      assert '%' !in s[1..] by {
        forall k | 0 <= k < |s[1..]| ensures s[1..][k] != '%' {
          assert s[1..][k] == s[k + 1];
          assert s[k + 1] in s;
        }
      }
      PlainAsciiBytes(s[1..]);
      assert (Encode(s))[1..] == Encode(s[1..]);
      assert [s[0]] + s[1..] == s;
    }
  }

  /** ASCII quoted text: `unquote` inverts the byte quoting and the UTF-8 encoding. */
  lemma UnquoteOfQuoted(s: string, safe: set<char>)
    requires '%' !in safe
    ensures Unquote(QuoteBytes(Encode(s), safe)) == s
  {
    var q := QuoteBytes(Encode(s), safe);
    UnquoteQuoteBytes(Encode(s), safe);
    DecodeReplaceEncode(s);
    if |q| == 0 {
      assert Encode(s) == [] by { EncodeLength(s); }
      EncodeLength(s);
    } else if '%' in q {
      UnquoteRunsAscii(q);
    } else {
      UnquoteRunsAscii(q);
      PlainAsciiBytes(q);
    }
  }

  /** `unquote(quote(s)) == s`. */
  lemma UnquoteQuote(s: string)
    ensures Unquote(Quote(s)) == s
  {
    UnquoteOfQuoted(s, {'/'});
  }

  /** `quote_plus` keeps no `&` or `=`: they are always escaped. */
  lemma QuotePlusClean(s: string)
    ensures '&' !in QuotePlus(s) && '=' !in QuotePlus(s)
  {
    var safe := if ' ' !in s then {} else {' '};
    QuoteBytesAvoids(Encode(s), safe);
    var q := QuoteBytes(Encode(s), safe);
    forall k | 0 <= k < |q| ensures q[k] != '&' && q[k] != '=' {
      assert q[k] in q;
    }
  }

  lemma {:induction false} QuoteBytesAvoids(b: seq<byte>, safe: set<char>)
    requires '+' !in safe && '&' !in safe && '=' !in safe
    ensures '+' !in QuoteBytes(b, safe) && '&' !in QuoteBytes(b, safe) && '=' !in QuoteBytes(b, safe)
    decreases |b|
  {
    if |b| > 0 {
      QuoteBytesAvoids(b[1..], safe);
      var q := QuoteByte(b[0], safe);
      assert '+' !in q && '&' !in q && '=' !in q;
    }
  }

  /** Form decoding undoes `quote_plus`. */
  lemma FormDecodeQuotePlus(s: string)
    ensures FormDecode(QuotePlus(s)) == s
  {
    if ' ' !in s {
      var q := QuoteBytes(Encode(s), {});
      QuoteBytesAvoids(Encode(s), {});
      assert PyStr.ReplaceChar(q, '+', ' ') == q;
      UnquoteOfQuoted(s, {});
    } else {
      var q := QuoteBytes(Encode(s), {' '});
      QuoteBytesAvoids(Encode(s), {' '});
      assert PyStr.ReplaceChar(PyStr.ReplaceChar(q, ' ', '+'), '+', ' ') == q by {
        forall k | 0 <= k < |q| ensures q[k] != '+' {
          assert q[k] in q;
        }
      }
      UnquoteOfQuoted(s, {' '});
    }
  }

  /** `parse_qsl(urlencode(pairs)) == pairs` when no value is empty
      (`parse_qsl` drops pairs with an empty value). */
  lemma ParseQslUrlEncode(pairs: seq<(string, string)>)
    requires forall k :: 0 <= k < |pairs| ==> pairs[k].1 != ""
    ensures ParseQsl(UrlEncode(pairs)) == pairs
  {
    var parts := seq(|pairs|, k requires 0 <= k < |pairs| => QuotePlus(pairs[k].0) + "=" + QuotePlus(pairs[k].1));
    if |pairs| > 0 {
      forall k | 0 <= k < |parts| ensures '&' !in parts[k] {
        QuotePlusClean(pairs[k].0);
        QuotePlusClean(pairs[k].1);
      }
      PyStr.SplitJoin(parts, '&');
    }
    ParsePiecesOfParts(pairs, parts);
  }

  lemma {:induction false} ParsePiecesOfParts(pairs: seq<(string, string)>, parts: seq<string>)
    requires |parts| == |pairs|
    requires forall k :: 0 <= k < |pairs| ==> pairs[k].1 != ""
    requires forall k :: 0 <= k < |pairs| ==> parts[k] == QuotePlus(pairs[k].0) + "=" + QuotePlus(pairs[k].1)
    ensures ParsePieces(parts) == pairs
    decreases |pairs|
  {
    if |pairs| > 0 {
      var name, value := QuotePlus(pairs[0].0), QuotePlus(pairs[0].1);
      QuotePlusClean(pairs[0].0);
      PyStr.PartitionAtFirst(name, '=', value);
      assert parts[0] == name + ['='] + value;
      assert |value| > 0;
      FormDecodeQuotePlus(pairs[0].0);
      FormDecodeQuotePlus(pairs[0].1);
      ParsePiecesOfParts(pairs[1..], parts[1..]);
      assert pairs == [pairs[0]] + pairs[1..];
    }
  }

  /** What `quote_from_bytes` writes is `%` or a character it keeps (the hexadecimal
      digits of an escape are kept characters too). */
  lemma {:induction false} QuoteBytesOnly(b: seq<byte>, safe: set<char>)
    ensures forall c :: c in QuoteBytes(b, safe) ==> c == '%' || (c as int < 128 && KeepsByte(c as int, safe))
    decreases |b|
  {
    if |b| > 0 {
      QuoteBytesOnly(b[1..], safe);
      assert QuoteBytes(b, safe) == QuoteByte(b[0], safe) + QuoteBytes(b[1..], safe);
    }
  }

  /** The characters that would end a URL's query or fragment, or that URL parsing
      drops: `#`, `?`, tab and line breaks. */
  const QueryStops: set<char> := {'#', '?', '\t', '\r', '\n'}

  /** `quote` leaves none of them, nor `&` and `=`. */
  lemma QuoteKeepsOut(s: string)
    ensures forall k :: 0 <= k < |Quote(s)| ==> Quote(s)[k] !in QueryStops + {'&', '='}
  {
    QuoteBytesOnly(Encode(s), {'/'});
    var q := Quote(s);
    forall k | 0 <= k < |q| ensures q[k] !in QueryStops + {'&', '='} {
      assert q[k] in q;
    }
  }

  lemma QuotePlusKeepsOut(s: string)
    ensures forall k :: 0 <= k < |QuotePlus(s)| ==> QuotePlus(s)[k] !in QueryStops + {'&', '='}
  {
    var safe: set<char> := if ' ' !in s then {} else {' '};
    QuoteBytesOnly(Encode(s), safe);
    var q := QuoteBytes(Encode(s), safe);
    var r := QuotePlus(s);
    assert |r| == |q| && forall k :: 0 <= k < |r| ==> r[k] == q[k] || r[k] == '+';
    forall k | 0 <= k < |r| ensures r[k] !in QueryStops + {'&', '='} {
      assert q[k] in q;
    }
  }

  lemma {:induction false} JoinKeepsOut(sep: string, parts: seq<string>, cs: set<char>)
    requires forall k :: 0 <= k < |sep| ==> sep[k] !in cs
    requires forall k, m :: 0 <= k < |parts| && 0 <= m < |parts[k]| ==> parts[k][m] !in cs
    ensures forall k :: 0 <= k < |PyStr.Join(sep, parts)| ==> PyStr.Join(sep, parts)[k] !in cs
    decreases |parts|
  {
    if |parts| > 1 {
      JoinKeepsOut(sep, parts[1..], cs);
      var rest := PyStr.Join(sep, parts[1..]);
      var j := PyStr.Join(sep, parts);
      assert j == parts[0] + sep + rest;
      forall k | 0 <= k < |j| ensures j[k] !in cs {
        if k < |parts[0]| {
        } else if k < |parts[0]| + |sep| {
          assert j[k] == sep[k - |parts[0]|];
        } else {
          assert j[k] == rest[k - |parts[0]| - |sep|];
        }
      }
    }
  }

  /** An encoded query holds no `#`, `?`, tab or line break. */
  lemma UrlEncodeKeepsOut(pairs: seq<(string, string)>)
    ensures forall k :: 0 <= k < |UrlEncode(pairs)| ==> UrlEncode(pairs)[k] !in QueryStops
  {
    var parts := seq(|pairs|, k requires 0 <= k < |pairs| => QuotePlus(pairs[k].0) + "=" + QuotePlus(pairs[k].1));
    forall k | 0 <= k < |parts| ensures forall m :: 0 <= m < |parts[k]| ==> parts[k][m] !in QueryStops {
      PairKeepsOut(pairs[k].0, pairs[k].1);
    }
    JoinKeepsOut("&", parts, QueryStops);
  }

  /** One encoded `key=value` pair holds no `#`, `?`, tab or line break. */
  lemma PairKeepsOut(key: string, value: string)
    ensures var p := QuotePlus(key) + "=" + QuotePlus(value);
            forall m :: 0 <= m < |p| ==> p[m] !in QueryStops
  {
    var a := QuotePlus(key);
    var b := QuotePlus(value);
    var p := a + "=" + b;
    QuotePlusKeepsOut(key);
    QuotePlusKeepsOut(value);
    forall m | 0 <= m < |p| ensures p[m] !in QueryStops {
      if m < |a| {
        assert p[m] == a[m];
      } else if m > |a| {
        assert p[m] == b[m - |a| - 1];
      }
    }
  }

  /** `quote` of a non-empty string is not empty. */
  lemma QuoteNonEmpty(s: string)
    ensures s != "" ==> Quote(s) != ""
  {
    EncodeLength(s);
  }
}

=== FILE: pipeline.dfy ===
/** `process_subscriptions`: every subscription is fetched and parsed, each node is
    given a core to be tested with (or skipped when neither core is there), each is
    tested and renamed, and the renamed nodes are rendered in the asked-for format.

    Two versions of the per-node decision are modelled. As written, the decision
    calls `os.path.exists` although `os` is never imported, so the first node
    raises `NameError` (or, earlier, `AttributeError` when its type or network is
    not a string). The corrected version checks the cores as intended and reads a
    null network as an empty one. */
module Pipeline {
  import opened Wrappers
  import opened Values
  import PyStr
  import Links
  import Subscription
  import Outputs
  import Probe
  import RoundTrip

  // ---------------------------------------------------------------------------
  // Collecting the nodes

  /** The nodes of all subscriptions, in subscription order. */
  function AllNodes(fetches: seq<Subscription.Fetch>, rt: Runtime): (r: seq<Node>)
    ensures forall k, n :: 0 <= k < |fetches| && n in Subscription.FetchNodes(fetches[k], rt) ==> n in r
    ensures forall n :: n in r ==> exists k :: 0 <= k < |fetches| && n in Subscription.FetchNodes(fetches[k], rt)
  {
    if |fetches| == 0 then []
    else
      var rest := AllNodes(fetches[1..], rt);
      assert forall k :: 1 <= k < |fetches| ==> fetches[k] == fetches[1..][k - 1];
      Subscription.FetchNodes(fetches[0], rt) + rest
  }

  /** Subscriptions are read one after another: the nodes of `a + b` are those of
      `a` followed by those of `b`. */
  lemma {:induction false} AllNodesAppend(a: seq<Subscription.Fetch>, b: seq<Subscription.Fetch>, rt: Runtime)
    ensures AllNodes(a + b, rt) == AllNodes(a, rt) + AllNodes(b, rt)
  {
    if |a| > 0 {
      var first := Subscription.FetchNodes(a[0], rt);
      assert (a + b)[0] == a[0];
      assert (a + b)[1..] == a[1..] + b;
      assert AllNodes(a + b, rt) == first + AllNodes(a[1..] + b, rt);
      AllNodesAppend(a[1..], b, rt);
      assert AllNodes(a, rt) == first + AllNodes(a[1..], rt);
    } else {
      assert a + b == b;
    }
  }

  /** One subscription contributes exactly its nodes. */
  lemma AllNodesOne(f: Subscription.Fetch, rt: Runtime)
    ensures AllNodes([f], rt) == Subscription.FetchNodes(f, rt)
  {
    assert [f][1..] == [];
  }

  // ---------------------------------------------------------------------------
  // Choosing a core

  /** `node.get("type", "").lower()`: a type that is not a string has no `lower`. */
  function TypeOf(node: Node): (r: Result<string, PyError>)
    ensures r.Ok? <==> Get(node, "type", Str("")).Str?
    ensures r.Ok? ==> r.value == PyStr.Lower(Get(node, "type", Str("")).s)
  {
    LowerOf(Get(node, "type", Str("")))
  }

  /** `node.get("network", "").lower()` as written: a vmess node without a network
      has `network: None`, which has no `lower`. */
  function NetworkAsWritten(node: Node): (r: Result<string, PyError>)
    ensures r.Ok? <==> Get(node, "network", Str("")).Str?
  {
    LowerOf(Get(node, "network", Str("")))
  }

  /** The network read as intended: a null network is no network. */
  function Network(node: Node): (r: Result<string, PyError>)
    ensures r.Ok? <==> Get(node, "network", Str("")).Str? || Get(node, "network", Str("")) == Null
    ensures Get(node, "network", Str("")) == Null ==> r == Ok("")
    ensures Get(node, "network", Str("")).Str? ==> r == NetworkAsWritten(node)
  {
    var v := Get(node, "network", Str(""));
    if v == Null then Ok("") else LowerOf(v)
  }

  /** A vmess link whose JSON has no `net` gives a node the network check as
      written raises on, while the corrected check reads it as no network. */
  lemma VmessWithoutNetwork(link: string, rt: Runtime)
    requires Links.ParseVmess(link, rt).Some?
    requires "net" !in Links.VmessPayload(link, rt).value
    ensures NetworkAsWritten(Links.ParseVmess(link, rt).value) == Err(AttributeError)
    ensures Network(Links.ParseVmess(link, rt).value) == Ok("")
  {
    var d := Links.VmessPayload(link, rt).value;
    assert Links.ParseVmess(link, rt) == Some(Links.VmessNode(d, link).value);
    Links.VmessNodeFields(d, link);
  }

  /** Hysteria and QUIC-based nodes are better tested with sing-box. */
  predicate PrefersSingbox(nodeType: string, network: string) {
    PyStr.Contains(nodeType, "hysteria") || PyStr.Contains(nodeType, "hy2") || PyStr.Contains(network, "quic")
  }

  datatype Decision = TestWith(kind: Probe.CoreKind) | Skip

  /** The core a node is tested with. `clashReady` and `singboxReady` say whether
      each core binary exists and is not empty. */
  function ChooseCore(prefersSingbox: bool, clashReady: bool, singboxReady: bool): (d: Decision)
    ensures d.Skip? <==> !clashReady && !singboxReady
    ensures d == TestWith(Probe.Clash) ==> clashReady
    ensures d == TestWith(Probe.Singbox) ==> singboxReady
    ensures prefersSingbox && singboxReady ==> d == TestWith(Probe.Singbox)
    ensures clashReady && !(prefersSingbox && singboxReady) ==> d == TestWith(Probe.Clash)
  {
    if prefersSingbox && singboxReady then TestWith(Probe.Singbox)
    else if !clashReady then (if singboxReady then TestWith(Probe.Singbox) else Skip)
    else TestWith(Probe.Clash)
  }

  /** The decision for one node, as intended. */
  function Decide(node: Node, clashReady: bool, singboxReady: bool): (r: Result<Decision, PyError>)
    ensures r.Err? <==> TypeOf(node).Err? || Network(node).Err?
    ensures r.Err? ==> r.error == AttributeError
    ensures r.Ok? ==> r.value == ChooseCore(PrefersSingbox(TypeOf(node).value, Network(node).value), clashReady, singboxReady)
  {
    var nodeType :- TypeOf(node);
    var network :- Network(node);
    Ok(ChooseCore(PrefersSingbox(nodeType, network), clashReady, singboxReady))
  }

  /** The decision for one node as written: the type and network are lowered, and
      then the first `os.path.exists` is evaluated (in the first test when the node
      prefers sing-box, in the second otherwise), raising `NameError`. */
  function DecideAsWritten(node: Node): (r: Result<Decision, PyError>)
    ensures r.Err?
    ensures TypeOf(node).Err? || NetworkAsWritten(node).Err? ==> r.error == AttributeError
    ensures TypeOf(node).Ok? && NetworkAsWritten(node).Ok? ==> r.error == NameError("os")
  {
    var nodeType :- TypeOf(node);
    var network :- NetworkAsWritten(node);
    Err(NameError("os"))
  }

  /** The decisions for all nodes; the loop ends with the first exception. */
  function DecideAll(nodes: seq<Node>, clashReady: bool, singboxReady: bool): (r: Result<seq<Decision>, PyError>)
    ensures r.Ok? <==> forall k :: 0 <= k < |nodes| ==> Decide(nodes[k], clashReady, singboxReady).Ok?
    ensures r.Err? ==> r.error == AttributeError
    ensures r.Ok? ==> |r.value| == |nodes|
    ensures r.Ok? ==> forall k :: 0 <= k < |nodes| ==> r.value[k] == Decide(nodes[k], clashReady, singboxReady).value
  {
    if |nodes| == 0 then Ok([])
    else
      assert forall k :: 1 <= k < |nodes| ==> nodes[k] == nodes[1..][k - 1];
      var first :- Decide(nodes[0], clashReady, singboxReady);
      var rest :- DecideAll(nodes[1..], clashReady, singboxReady);
      Ok([first] + rest)
  }

  // ---------------------------------------------------------------------------
  // Testing

  /** What happens to the node at position `slot`: a skipped node is renamed
      `[SKP-CORE] name`; a tested one gets the outcome of its test, run with the
      configuration path and port of its own slot. The core checked before the
      test is the one the decision found ready. */
  function Settle(node: Node, slot: nat, decision: Decision, clashReady: bool, singboxReady: bool,
                  world: Probe.ProbeWorld, rt: Runtime): (r: Node)
    ensures r.Keys == node.Keys + {"name"}
    ensures r["name"].Str? && PyStr.StartsWith(r["name"].s, "[")
    ensures forall k :: k in node && k != "name" ==> r[k] == node[k]
    ensures "name" in node ==> PyStr.EndsWith(r["name"].s, Display(node["name"], rt))
    ensures decision.Skip? ==> r == Probe.Relabel(node, "SKP-CORE", "Unnamed", rt)
    ensures decision.TestWith? ==>
              var kind := decision.kind;
              var ready := if kind == Probe.Clash then clashReady else singboxReady;
              r == Probe.TestNode(node, kind, Probe.SlotResources(kind, slot), world.(coreReady := ready), rt).node
  {
    match decision
    case Skip => Relabelled(node, "SKP-CORE", "Unnamed", rt)
    case TestWith(kind) =>
      var ready := if kind == Probe.Clash then clashReady else singboxReady;
      var result := Probe.TestNode(node, kind, Probe.SlotResources(kind, slot), world.(coreReady := ready), rt);
      Relabelled(node, result.code, "Unnamed Node", rt)
  }

  /** `Relabel`, and the name it gives starts with `[`. */
  function Relabelled(node: Node, code: string, fallback: string, rt: Runtime): (r: Node)
    ensures r == Probe.Relabel(node, code, fallback, rt)
    ensures "name" in r && r["name"].Str? && PyStr.StartsWith(r["name"].s, "[")
    ensures "name" in node ==> PyStr.EndsWith(r["name"].s, Display(node["name"], rt))
  {
    var r := Probe.Relabel(node, code, fallback, rt);
    assert r["name"].s[0] == ("[" + code + "] ")[0];
    assert |r["name"].s| >= |code| + 3;
    r
  }

  /** The tested nodes, in the order of the input (`asyncio.gather` keeps it). */
  function TestAll(nodes: seq<Node>, decisions: seq<Decision>, clashReady: bool, singboxReady: bool,
                   worlds: nat -> Probe.ProbeWorld, rt: Runtime): (r: seq<Node>)
    requires |decisions| == |nodes|
    ensures |r| == |nodes|
    ensures forall k :: 0 <= k < |nodes| ==>
              r[k] == Settle(nodes[k], k, decisions[k], clashReady, singboxReady, worlds(k), rt)
  {
    seq(|nodes|, k requires 0 <= k < |nodes| =>
      Settle(nodes[k], k, decisions[k], clashReady, singboxReady, worlds(k), rt))
  }

  // ---------------------------------------------------------------------------
  // The whole run

  /** `process_subscriptions`, corrected: `worlds(k)` is what the test of the k-th
      node meets. */
  function Process(fetches: seq<Subscription.Fetch>, format: string, clashReady: bool, singboxReady: bool,
                   worlds: nat -> Probe.ProbeWorld, rt: Runtime): (r: Result<string, PyError>)
    ensures DecideAll(AllNodes(fetches, rt), clashReady, singboxReady).Err? ==> r.Err? && r.error == AttributeError
    ensures DecideAll(AllNodes(fetches, rt), clashReady, singboxReady).Ok? ==>
              var nodes := AllNodes(fetches, rt);
              r == Outputs.Render(format, TestAll(nodes, DecideAll(nodes, clashReady, singboxReady).value,
                                                  clashReady, singboxReady, worlds, rt), rt)
    ensures DecideAll(AllNodes(fetches, rt), clashReady, singboxReady).Ok? && format in {"clash", "singbox"} ==> r.Ok?
    ensures DecideAll(AllNodes(fetches, rt), clashReady, singboxReady).Ok? && format !in {"clash", "singbox", "v2rayn"} ==>
              r == Ok("Error: Unsupported output format")
  {
    var nodes := AllNodes(fetches, rt);
    var decisions :- DecideAll(nodes, clashReady, singboxReady);
    var tested := TestAll(nodes, decisions, clashReady, singboxReady, worlds, rt);
    RenderNamed(format, tested, rt);
    Outputs.Render(format, tested, rt)
  }

  /** Nodes that all have a name render in the Clash and sing-box formats, and an
      unknown format gets the error text. */
  lemma RenderNamed(format: string, nodes: seq<Node>, rt: Runtime)
    requires forall k :: 0 <= k < |nodes| ==> "name" in nodes[k]
    ensures Outputs.Names(nodes).Ok?
    ensures format in {"clash", "singbox"} ==> Outputs.Render(format, nodes, rt).Ok?
    ensures format !in {"clash", "singbox", "v2rayn"} ==> Outputs.Render(format, nodes, rt) == Ok("Error: Unsupported output format")
  {
  }

  /** `proxy` is what the Clash output shows for `node` after its test: the node
      without its `_` keys, under a new name that starts with `[` and ends with the
      old one. */
  ghost predicate RenderedFrom(proxy: Value, node: Node, rt: Runtime) {
    proxy.Dict? && "name" in proxy.fields && proxy.fields["name"].Str? &&
    PyStr.StartsWith(proxy.fields["name"].s, "[") &&
    ("name" in node ==> PyStr.EndsWith(proxy.fields["name"].s, Display(node["name"], rt))) &&
    (forall key :: key in proxy.fields <==> key == "name" || (key in node && !Internal(key))) &&
    (forall key :: key in node && key != "name" && !Internal(key) ==> proxy.fields[key] == node[key])
  }

  /** `settled` is `node` after its test or skip: renamed to a name that starts
      with `[` and ends with the old one, and otherwise unchanged. */
  ghost predicate SettledFrom(settled: Node, node: Node, rt: Runtime) {
    settled.Keys == node.Keys + {"name"} && settled["name"].Str? && PyStr.StartsWith(settled["name"].s, "[") &&
    ("name" in node ==> PyStr.EndsWith(settled["name"].s, Display(node["name"], rt))) &&
    forall key :: key in node && key != "name" ==> settled[key] == node[key]
  }

  /** For the Clash format, a run whose decisions succeed renders; its proxies are
      the collected nodes in input order, each relabelled and otherwise unchanged
      apart from the dropped `_` keys, and the url-test group lists their names in
      the same order. */
  lemma ClashRendersTested(fetches: seq<Subscription.Fetch>, clashReady: bool, singboxReady: bool,
                           worlds: nat -> Probe.ProbeWorld, rt: Runtime)
    requires DecideAll(AllNodes(fetches, rt), clashReady, singboxReady).Ok?
    ensures var nodes := AllNodes(fetches, rt);
            var tested := TestAll(nodes, DecideAll(nodes, clashReady, singboxReady).value, clashReady, singboxReady, worlds, rt);
            Outputs.Names(tested).Ok? &&
            Process(fetches, "clash", clashReady, singboxReady, worlds, rt) ==
              Ok(rt.yamlDump(Outputs.ClashDocument(tested, Outputs.Names(tested).value)))
    ensures var nodes := AllNodes(fetches, rt);
            var tested := TestAll(nodes, DecideAll(nodes, clashReady, singboxReady).value, clashReady, singboxReady, worlds, rt);
            var proxies := Outputs.ClashProxies(tested);
            nodes != [] ==>
              |proxies| == |nodes| && Outputs.ClashMembers(Outputs.Names(tested).value) == Outputs.Names(tested).value &&
              forall k :: 0 <= k < |nodes| ==>
                RenderedFrom(proxies[k], nodes[k], rt) && Outputs.Names(tested).value[k] == proxies[k].fields["name"]
  {
    var nodes := AllNodes(fetches, rt);
    var decisions := DecideAll(nodes, clashReady, singboxReady).value;
    var tested := TestAll(nodes, decisions, clashReady, singboxReady, worlds, rt);
    forall k | 0 <= k < |nodes| ensures SettledFrom(tested[k], nodes[k], rt) {
      SettleSettles(nodes[k], k, decisions[k], clashReady, singboxReady, worlds(k), rt);
    }
    ClashOfSettled(nodes, tested, rt);
  }

  lemma SettleSettles(node: Node, slot: nat, decision: Decision, clashReady: bool, singboxReady: bool,
                      world: Probe.ProbeWorld, rt: Runtime)
    ensures SettledFrom(Settle(node, slot, decision, clashReady, singboxReady, world, rt), node, rt)
  {
  }

  /** The Clash proxies of settled nodes are the nodes, in order, as rendered. */
  lemma ClashOfSettled(nodes: seq<Node>, tested: seq<Node>, rt: Runtime)
    requires |tested| == |nodes| && forall k :: 0 <= k < |nodes| ==> SettledFrom(tested[k], nodes[k], rt)
    ensures Outputs.Names(tested).Ok?
    ensures var proxies := Outputs.ClashProxies(tested);
            nodes != [] ==>
              |proxies| == |nodes| && Outputs.ClashMembers(Outputs.Names(tested).value) == Outputs.Names(tested).value &&
              forall k :: 0 <= k < |nodes| ==>
                RenderedFrom(proxies[k], nodes[k], rt) && Outputs.Names(tested).value[k] == proxies[k].fields["name"]
  {
    assert forall k :: 0 <= k < |tested| ==> "name" in tested[k];
    if nodes != [] {
      var proxies := Outputs.ClashProxies(tested);
      forall k | 0 <= k < |nodes| ensures RenderedFrom(proxies[k], nodes[k], rt) && proxies[k].fields["name"] == tested[k]["name"] {
        StrippedRendered(tested[k], nodes[k], rt);
      }
    }
  }

  /** A settled node without its `_` keys is rendered from the node. */
  lemma StrippedRendered(settled: Node, node: Node, rt: Runtime)
    requires SettledFrom(settled, node, rt)
    ensures RenderedFrom(Dict(StripInternal(settled)), node, rt)
    ensures "name" in StripInternal(settled) && StripInternal(settled)["name"] == settled["name"]
  {
    assert !Internal("name");
  }

  /** The decisions as written: the first node ends the loop with its exception. */
  function DecideAllAsWritten(nodes: seq<Node>): (r: Result<seq<Decision>, PyError>)
    ensures |nodes| == 0 <==> r.Ok?
    ensures r.Ok? ==> r.value == []
    ensures |nodes| > 0 ==> r == Err(DecideAsWritten(nodes[0]).error)
  {
    if |nodes| == 0 then Ok([]) else Err(DecideAsWritten(nodes[0]).error)
  }

  /** `process_subscriptions` as written. */
  function ProcessAsWritten(fetches: seq<Subscription.Fetch>, format: string, rt: Runtime): (r: Result<string, PyError>)
    ensures AllNodes(fetches, rt) != [] ==> r == Err(DecideAsWritten(AllNodes(fetches, rt)[0]).error)
    ensures AllNodes(fetches, rt) == [] ==> r == Outputs.Render(format, [], rt)
  {
    var nodes := AllNodes(fetches, rt);
    var decisions :- DecideAllAsWritten(nodes);
    Outputs.Render(format, nodes, rt)
  }

  /** As written, a run that collects any node raises before testing anything:
      `AttributeError` when the first node's type or network is not a string,
      `NameError` otherwise. Only a run with no nodes at all renders, and then it
      agrees with the corrected version. */
  lemma ProcessAsWrittenRaises(fetches: seq<Subscription.Fetch>, format: string, clashReady: bool, singboxReady: bool,
                               worlds: nat -> Probe.ProbeWorld, rt: Runtime)
    ensures var nodes := AllNodes(fetches, rt);
      nodes != [] ==> ProcessAsWritten(fetches, format, rt).Err? &&
                      ProcessAsWritten(fetches, format, rt).error in {AttributeError, NameError("os")}
    ensures AllNodes(fetches, rt) == [] ==>
              ProcessAsWritten(fetches, format, rt) == Process(fetches, format, clashReady, singboxReady, worlds, rt) &&
              ProcessAsWritten(fetches, format, rt) == Outputs.Render(format, [], rt)
  {
    var nodes := AllNodes(fetches, rt);
    if nodes == [] {
      assert TestAll(nodes, [], clashReady, singboxReady, worlds, rt) == [];
    }
  }

  /** Every node the corrected run renders is a renamed one, so the v2rayN output
      never takes the branch that passes an original link through unchanged. */
  lemma TestedNodesNotPassedThrough(nodes: seq<Node>, decisions: seq<Decision>, clashReady: bool, singboxReady: bool,
                                    worlds: nat -> Probe.ProbeWorld, rt: Runtime, k: nat)
    requires |decisions| == |nodes| && k < |nodes|
    ensures var tested := TestAll(nodes, decisions, clashReady, singboxReady, worlds, rt);
      var entry := Outputs.V2rayNEntry(tested[k], rt);
      !(entry.Ok? && entry.value.PassedThrough?)
  {
    var tested: seq<Node> := TestAll(nodes, decisions, clashReady, singboxReady, worlds, rt);
    var name := tested[k]["name"].s;
    assert name[..1] == "[";
  }

  /** A trojan node with an original link keeps its password, server, port and SNI
      through its test, and its new name starts with `[`: so its v2rayN entry is a
      regenerated link, and that link parses back to the renamed node's name and the
      node's credentials and address. */
  lemma SettledTrojanReadsBack(node: Node, slot: nat, decision: Decision, clashReady: bool, singboxReady: bool,
                               world: Probe.ProbeWorld, rt: Runtime)
    requires "_original_link" in node && Get(node, "type", Null) == Str("trojan")
    requires "password" in node && node["password"].Str? && RoundTrip.PlainPassword(node["password"].s)
    requires "server" in node && node["server"].Str? && RoundTrip.PlainServer(node["server"].s)
    requires "port" in node && node["port"].Int? && 0 <= node["port"].i <= 65535
    requires Get(node, "sni", Null).Str? || Get(node, "sni", Null) == Null
    ensures var settled := Settle(node, slot, decision, clashReady, singboxReady, world, rt);
            var entry := Outputs.V2rayNEntry(settled, rt);
            entry.Ok? && entry.value.Regenerated? &&
            var back := Links.ParseTrojan(entry.value.link, rt);
            back.Some? && back.value["name"] == settled["name"] && back.value["password"] == node["password"] &&
            back.value["server"] == node["server"] && back.value["port"] == node["port"]
  {
    var settled := Settle(node, slot, decision, clashReady, singboxReady, world, rt);
    SettleSettles(node, slot, decision, clashReady, singboxReady, world, rt);
    SettledTrojanRegenerable(settled, node, rt);
    RoundTrip.TrojanRoundTrip(settled, rt);
  }

  /** A settled trojan node can still be written as a link and read back. */
  lemma SettledTrojanRegenerable(settled: Node, node: Node, rt: Runtime)
    requires SettledFrom(settled, node, rt)
    requires "_original_link" in node && Get(node, "type", Null) == Str("trojan")
    requires "password" in node && node["password"].Str? && RoundTrip.PlainPassword(node["password"].s)
    requires "server" in node && node["server"].Str? && RoundTrip.PlainServer(node["server"].s)
    requires "port" in node && node["port"].Int? && 0 <= node["port"].i <= 65535
    requires Get(node, "sni", Null).Str? || Get(node, "sni", Null) == Null
    ensures RoundTrip.TrojanRegenerable(settled) && Outputs.Tested(settled)
    ensures Get(settled, "type", Null) == Str("trojan")
    ensures settled["password"] == node["password"] && settled["server"] == node["server"] && settled["port"] == node["port"]
  {
    assert settled["name"].s[0] == '[';
    assert Get(settled, "type", Null) == Get(node, "type", Null);
    assert Get(settled, "sni", Null) == Get(node, "sni", Null);
  }


  /** When both cores are missing, every node is skipped and keeps everything but
      its name, which becomes `[SKP-CORE] name`. */
  lemma NoCoresSkipsAll(nodes: seq<Node>, worlds: nat -> Probe.ProbeWorld, rt: Runtime)
    requires DecideAll(nodes, false, false).Ok?
    ensures var tested := TestAll(nodes, DecideAll(nodes, false, false).value, false, false, worlds, rt);
      forall k :: 0 <= k < |nodes| ==> tested[k] == Probe.Relabel(nodes[k], "SKP-CORE", "Unnamed", rt)
  {
  }
}

=== FILE: probe.dfy ===
/** Testing one node (`test_and_rename_node`): a one-proxy configuration for the
    chosen core is written, the core is started on it, the geolocation service is
    asked through it, the core is stopped and the configuration removed, and the
    node's name gets the resulting code in brackets. The outside world the test
    meets is an input. */
module Probe {
  import opened Wrappers
  import opened Values
  import PyStr
  import Numerals
  import IpCheck
  import ProxyManager

  const TempProxyPort: int := 10808
  const TempClashConfigPath: string := "temp_configs/temp_clash_config.yaml"
  const TempSingboxConfigPath: string := "temp_configs/temp_singbox_config.json"
  const ClashCorePath: string := "downloaded_cores/clash-meta"
  const SingboxCorePath: string := "downloaded_cores/sing-box"

  datatype CoreKind = Clash | Singbox

  /** The core type string handed to `run_proxy_core`. */
  function KindName(kind: CoreKind): (s: string)
    ensures ProxyManager.Command(s, "", "") != []
  {
    match kind
    case Clash => "clash"
    case Singbox => "singbox"
  }

  /** What one test uses: the configuration file, the core binary, and the first
      local port. The clash configuration also claims the next two ports. */
  datatype Resources = Resources(configPath: string, corePath: string, port: int)

  function CorePath(kind: CoreKind): string {
    match kind
    case Clash => ClashCorePath
    case Singbox => SingboxCorePath
  }

  /** The local ports a configuration listens on. */
  function UsedPorts(kind: CoreKind, res: Resources): (ports: set<int>)
    ensures res.port in ports
    ensures kind == Clash ==> ports == {res.port, res.port + 1, res.port + 2}
    ensures kind == Singbox ==> ports == {res.port}
  {
    match kind
    case Clash => {res.port, res.port + 1, res.port + 2}
    case Singbox => {res.port}
  }

  // ---------------------------------------------------------------------------
  // The one-proxy configurations

  /** The clash configuration as the source builds it: the group's member is
      `node["name"]`, a `KeyError` for a node without a name. */
  function ClashProbeConfigAsWritten(node: Node, port: int): (r: Result<Value, PyError>)
    ensures r.Err? <==> "name" !in node
    ensures r.Err? ==> r.error == KeyError("name")
    ensures r.Ok? ==> r.value == ClashProbeConfig(node, port, node["name"])
  {
    var name :- Index(node, "name");
    Ok(ClashProbeConfig(node, port, name))
  }

  /** The clash configuration: the node (without the parsers' two helper keys) as
      the only proxy, a `GLOBAL` select group holding `name`, and a rule sending
      everything to that group. HTTP, SOCKS and controller ports are `port`,
      `port + 1` and `port + 2`. */
  function ClashProbeConfig(node: Node, port: int, name: Value): (doc: Value)
    ensures doc.Dict?
  {
    Dict(map[
      "port" := Int(port),
      "socks-port" := Int(port + 1),
      "allow-lan" := Bool(true),
      "mode" := Str("global"),
      "log-level" := Str("silent"),
      "external-controller" := Str("127.0.0.1:" + Numerals.ShowInt(port + 2)),
      "proxies" := List([Dict(WithoutHelperKeys(node))]),
      "proxy-groups" := List([Dict(map["name" := Str("GLOBAL"), "type" := Str("select"), "proxies" := List([name])])]),
      "rules" := List([Str("MATCH,GLOBAL")])])
  }

  /** The proxy list is exactly the node, and the group selects exactly `name`. */
  lemma ClashProbeConfigProxies(node: Node, port: int, name: Value)
    ensures var f := ClashProbeConfig(node, port, name).fields;
            "proxies" in f && f["proxies"] == List([Dict(WithoutHelperKeys(node))])
    ensures var f := ClashProbeConfig(node, port, name).fields;
            "proxy-groups" in f && f["proxy-groups"].List? && |f["proxy-groups"].items| == 1 &&
            f["proxy-groups"].items[0] == Dict(map["name" := Str("GLOBAL"), "type" := Str("select"), "proxies" := List([name])])
  {
  }

  /** Everything goes to the group, in global mode, on the three ports. */
  lemma ClashProbeConfigRouting(node: Node, port: int, name: Value)
    ensures var f := ClashProbeConfig(node, port, name).fields;
            "rules" in f && f["rules"] == List([Str("MATCH,GLOBAL")]) &&
            "mode" in f && f["mode"] == Str("global")
    ensures var f := ClashProbeConfig(node, port, name).fields;
            "port" in f && "socks-port" in f && "external-controller" in f &&
            f["port"] == Int(port) && f["socks-port"] == Int(port + 1) &&
            f["external-controller"] == Str("127.0.0.1:" + Numerals.ShowInt(port + 2))
  {
  }

  /** For a node with a name, the group's one member is the name of the one proxy,
      so the configuration is consistent. */
  lemma {:induction false} ClashProbeConfigConsistent(node: Node, port: int)
    requires "name" in node
    ensures var f := ClashProbeConfig(node, port, node["name"]).fields;
            "proxies" in f && "proxy-groups" in f &&
            f["proxy-groups"].List? && |f["proxy-groups"].items| == 1 &&
            f["proxy-groups"].items[0].Dict? && "proxies" in f["proxy-groups"].items[0].fields &&
            f["proxy-groups"].items[0].fields["proxies"] == List([WithoutHelperKeys(node)["name"]]) &&
            f["proxies"] == List([Dict(WithoutHelperKeys(node))])
  {
    ClashProbeConfigProxies(node, port, node["name"]);
    assert "name" in WithoutHelperKeys(node);
  }

  /** The sing-box configuration: one mixed inbound on `port`, the node tagged
      `proxy` and a direct outbound, and a route that sends everything to `proxy`. */
  function SingboxProbeConfig(node: Node, port: int): (doc: Value)
    ensures doc.Dict? && doc.fields.Keys == {"log", "inbounds", "outbounds", "route"}
    ensures var f := doc.fields;
            f["outbounds"].List? && f["route"].Dict? &&
            |f["outbounds"].items| == 2 && f["outbounds"].items[0].Dict? &&
            "tag" in f["outbounds"].items[0].fields && "final" in f["route"].fields &&
            f["outbounds"].items[0].fields["tag"] == f["route"].fields["final"] &&
            f["outbounds"].items[0].fields - {"tag"} == WithoutHelperKeys(node) - {"tag"}
  {
    var proxy := WithoutHelperKeys(node)["tag" := Str("proxy")];
    assert proxy - {"tag"} == WithoutHelperKeys(node) - {"tag"};
    Dict(map[
      "log" := Dict(map["level" := Str("warn"), "output" := Str("stderr")]),
      "inbounds" := List([Dict(map["type" := Str("mixed"), "tag" := Str("mixed-in"), "listen" := Str("127.0.0.1"), "listen_port" := Int(port)])]),
      "outbounds" := List([Dict(proxy), Dict(map["type" := Str("direct"), "tag" := Str("direct")])]),
      "route" := Dict(map["rules" := List([Dict(map["outbound" := Str("proxy")])]), "final" := Str("proxy")])])
  }

  /** The outbounds are the node tagged `proxy` and a direct one; the route's final
      outbound is the node's. */
  lemma SingboxProbeConfigRoute(node: Node, port: int)
    ensures var f := SingboxProbeConfig(node, port).fields;
            "outbounds" in f && f["outbounds"] ==
              List([Dict(WithoutHelperKeys(node)["tag" := Str("proxy")]), Dict(map["type" := Str("direct"), "tag" := Str("direct")])])
    ensures var f := SingboxProbeConfig(node, port).fields;
            "route" in f && f["route"] == Dict(map["rules" := List([Dict(map["outbound" := Str("proxy")])]), "final" := Str("proxy")])
  {
  }

  /** The single inbound listens on `port`. */
  lemma SingboxProbeConfigInbound(node: Node, port: int)
    ensures var f := SingboxProbeConfig(node, port).fields;
            "inbounds" in f &&
            f["inbounds"] == List([Dict(map["type" := Str("mixed"), "tag" := Str("mixed-in"), "listen" := Str("127.0.0.1"), "listen_port" := Int(port)])])
  {
  }

  /** The configuration written for the test: the clash one for Clash, the
      sing-box one (which has no use for the name) for sing-box. */
  function ConfigFor(kind: CoreKind, node: Node, port: int, name: Value): (doc: Value)
    ensures doc.Dict?
    ensures kind == Clash ==> doc == ClashProbeConfig(node, port, name)
    ensures kind == Singbox ==> doc == SingboxProbeConfig(node, port)
  {
    match kind
    case Clash => ClashProbeConfig(node, port, name)
    case Singbox => SingboxProbeConfig(node, port)
  }

  // ---------------------------------------------------------------------------
  // The test and the relabel

  /** What the test meets: whether the core binary is there and not empty (the
      check before anything is written), what spawning it does, whether it is
      still running after the start-up wait and again when it is stopped, how the
      geolocation request ends, and whether the process ends within the five
      seconds `terminate` is given. */
  datatype ProbeWorld = ProbeWorld(
    coreReady: bool,
    spawn: ProxyManager.Spawn,
    aliveAfterStartup: bool,
    aliveAtStop: bool,
    ip: IpCheck.IpOutcome,
    gracefulStop: bool)

  /** The side effects of one test, in order. */
  datatype Event =
    | WriteConfig(path: string, doc: Value)
    | Launch(cmd: seq<string>)
    | Stop(actions: seq<ProxyManager.StopAction>)
    | RemoveConfig(path: string)

  predicate Launched(events: seq<Event>) {
    exists e :: e in events && e.Launch?
  }

  predicate Stopped(events: seq<Event>) {
    exists e :: e in events && e.Stop?
  }

  predicate Written(events: seq<Event>) {
    exists e :: e in events && e.WriteConfig?
  }

  predicate Removed(events: seq<Event>) {
    exists e :: e in events && e.RemoveConfig?
  }

  datatype ProbeResult = ProbeResult(node: Node, code: string, events: seq<Event>)

  /** The name a test gives: the code in brackets before the name the node had on
      entry (or `Unnamed Node`), shown as `str()` shows it. */
  function Relabel(node: Node, code: string, fallback: string, rt: Runtime): (r: Node)
    ensures r.Keys == node.Keys + {"name"}
    ensures forall k :: k in node && k != "name" ==> r[k] == node[k]
    ensures r["name"].Str? && PyStr.StartsWith(r["name"].s, "[" + code + "] ")
    ensures var original := Display(Get(node, "name", Str(fallback)), rt);
            r["name"].s[|code| + 3..] == original
  {
    var original := Display(Get(node, "name", Str(fallback)), rt);
    var name := "[" + code + "] " + original;
    assert name[..|code| + 3] == "[" + code + "] ";
    node["name" := Str(name)]
  }

  /** The codes a test can end with apart from the country codes. */
  const ProbeFailureCodes: set<string> := {"ER-CORE", "NC", "TE", "FL"}

  /** The code and the side effects once the core is known to be there: the
      configuration is written, the core started, the process (if any) stopped,
      and the configuration removed on every way out. */
  function RunTest(kind: CoreKind, res: Resources, doc: Value, w: ProbeWorld): (r: (string, seq<Event>))
    ensures r.0 in ProbeFailureCodes - {"ER-CORE"} || r.0 == IpCheck.CountryCode(w.ip)
    ensures r.0 == "NC" ==> w.spawn.ExecutableNotFound? || IpCheck.CountryCode(w.ip) == "NC"
    ensures !w.spawn.Spawned? ==> r.0 in {"NC", "TE"}
    ensures r.0 == "FL" ==> !w.aliveAfterStartup || IpCheck.CountryCode(w.ip) == "FL"
    ensures w.spawn.Spawned? && w.aliveAfterStartup ==> r.0 == IpCheck.CountryCode(w.ip)
    ensures w.spawn.Spawned? && !w.aliveAfterStartup ==> r.0 == "FL"
    ensures w.spawn.ExecutableNotFound? ==> r.0 == "NC"
    ensures w.spawn.SpawnFailed? ==> r.0 == "TE"
    ensures Launched(r.1) <==> Stopped(r.1)
    ensures Launched(r.1) <==> w.spawn.Spawned?
    ensures Written(r.1) && Removed(r.1)
    ensures |r.1| >= 2 && r.1[0] == WriteConfig(res.configPath, doc) && r.1[|r.1| - 1] == RemoveConfig(res.configPath)
  {
    var write := WriteConfig(res.configPath, doc);
    var remove := RemoveConfig(res.configPath);
    match ProxyManager.RunProxyCore(res.corePath, res.configPath, KindName(kind), true, true, w.spawn)
    case Err(e) =>
      var code := if e.FileNotFoundError? then "NC" else "TE";
      var events := [write, remove];
      assert events[0] in events && events[1] in events;
      (code, events)
    case Ok(cmd) =>
      var code := if !w.aliveAfterStartup then "FL" else IpCheck.CountryCode(w.ip);
      var state := if w.aliveAfterStartup && w.aliveAtStop then ProxyManager.Running else ProxyManager.Exited;
      var stop := Stop(ProxyManager.StopProxyCore(state, w.gracefulStop).1);
      var events := [write, Launch(cmd), stop, remove];
      assert events[0] in events && events[1] in events && events[2] in events && events[3] in events;
      (code, events)
  }

  /** `test_and_rename_node` with the configuration naming the group's member by
      the name the node had on entry. */
  function TestNode(node: Node, kind: CoreKind, res: Resources, w: ProbeWorld, rt: Runtime): (r: ProbeResult)
    ensures r.node == Relabel(node, r.code, "Unnamed Node", rt)
    ensures r.code in ProbeFailureCodes || r.code == IpCheck.CountryCode(w.ip)
    ensures !w.coreReady ==> r.code == "ER-CORE" && r.events == []
    ensures w.coreReady ==> r.events != []
    ensures r.code == "NC" ==> w.spawn.ExecutableNotFound? || IpCheck.CountryCode(w.ip) == "NC"
    ensures r.code == "FL" ==> !w.aliveAfterStartup || IpCheck.CountryCode(w.ip) == "FL"
    ensures w.coreReady && w.spawn.Spawned? && w.aliveAfterStartup ==> r.code == IpCheck.CountryCode(w.ip)
    ensures w.coreReady && w.spawn.Spawned? && !w.aliveAfterStartup ==> r.code == "FL"
    ensures w.coreReady && w.spawn.ExecutableNotFound? ==> r.code == "NC"
    ensures w.coreReady && w.spawn.SpawnFailed? ==> r.code == "TE"
    ensures Launched(r.events) <==> Stopped(r.events)
    ensures Written(r.events) <==> Removed(r.events)
    ensures Launched(r.events) <==> w.coreReady && w.spawn.Spawned?
    ensures r.events != [] ==>
              r.events[0] == WriteConfig(res.configPath, ConfigFor(kind, node, res.port, Get(node, "name", Str("Unnamed Node")))) &&
              r.events[|r.events| - 1] == RemoveConfig(res.configPath)
  {
    if !w.coreReady then
      ProbeResult(Relabel(node, "ER-CORE", "Unnamed Node", rt), "ER-CORE", [])
    else
      var (code, events) := RunTest(kind, res, ConfigFor(kind, node, res.port, Get(node, "name", Str("Unnamed Node"))), w);
      ProbeResult(Relabel(node, code, "Unnamed Node", rt), code, events)
  }

  /** A process is stopped only when it is still running; one that exited during
      the start-up wait is left alone. */
  lemma {:induction false} ExitedCoreNotSignalled(node: Node, kind: CoreKind, res: Resources, w: ProbeWorld, rt: Runtime)
    requires w.coreReady && w.spawn.Spawned? && !w.aliveAfterStartup
    ensures TestNode(node, kind, res, w, rt).code == "FL"
    ensures |TestNode(node, kind, res, w, rt).events| == 4 && TestNode(node, kind, res, w, rt).events[2] == Stop([])
  {
    assert KindName(kind) == "clash" || KindName(kind) == "singbox";
  }

  // ---------------------------------------------------------------------------
  // Shared and per-test resources

  /** The resources every test uses, whatever the node: one configuration path
      per core kind and one port. */
  function SharedResources(kind: CoreKind): (res: Resources)
    ensures res.port == TempProxyPort
  {
    match kind
    case Clash => Resources(TempClashConfigPath, ClashCorePath, TempProxyPort)
    case Singbox => Resources(TempSingboxConfigPath, SingboxCorePath, TempProxyPort)
  }

  /** The resources the test of the node at index `slot` uses as the source
      chooses them: the slot plays no part. */
  function ProbeResourcesAsWritten(kind: CoreKind, slot: nat): (res: Resources)
    ensures res.corePath == CorePath(kind)
  {
    SharedResources(kind)
  }

  /** Two tests of the same kind running together write the same file and listen
      on the same port, so either can overwrite, or delete, the other's configuration. */
  lemma SharedResourcesCollide(kind: CoreKind, i: nat, j: nat)
    ensures ProbeResourcesAsWritten(kind, i).configPath == ProbeResourcesAsWritten(kind, j).configPath
    ensures UsedPorts(kind, ProbeResourcesAsWritten(kind, i)) * UsedPorts(kind, ProbeResourcesAsWritten(kind, j)) != {}
  {
    assert TempProxyPort in UsedPorts(kind, ProbeResourcesAsWritten(kind, i)) * UsedPorts(kind, ProbeResourcesAsWritten(kind, j));
  }

  /** Per-test resources: the test in slot `slot` gets its own configuration file
      and the three ports starting at `10808 + 3 * slot`. */
  function SlotResources(kind: CoreKind, slot: nat): (res: Resources)
    ensures res.port == TempProxyPort + 3 * slot
    ensures res.corePath == CorePath(kind)
  {
    var n := Numerals.ShowNat(slot);
    match kind
    case Clash => Resources("temp_configs/temp_clash_config_" + n + ".yaml", ClashCorePath, TempProxyPort + 3 * slot)
    case Singbox => Resources("temp_configs/temp_singbox_config_" + n + ".json", SingboxCorePath, TempProxyPort + 3 * slot)
  }

  lemma ShowNatInjective(i: nat, j: nat)
    requires Numerals.ShowNat(i) == Numerals.ShowNat(j)
    ensures i == j
  {
    Numerals.DigitsOfShow(i);
    Numerals.DigitsOfShow(j);
  }

  lemma {:induction false} PathsDiffer(prefix: string, a: string, b: string, suffix: string)
    requires a != b && |a| == |b|
    ensures prefix + a + suffix != prefix + b + suffix
  {
    var k :| 0 <= k < |a| && a[k] != b[k];
    assert (prefix + a + suffix)[|prefix| + k] == a[k];
    assert (prefix + b + suffix)[|prefix| + k] == b[k];
  }

  lemma {:induction false} PathsDifferInLength(prefix: string, a: string, b: string, suffix: string)
    requires |a| != |b|
    ensures prefix + a + suffix != prefix + b + suffix
  {
    assert |prefix + a + suffix| != |prefix + b + suffix|;
  }

  /** Tests in different slots share neither a configuration file nor a port. */
  lemma {:induction false} SlotsDisjoint(k1: CoreKind, k2: CoreKind, i: nat, j: nat)
    requires i != j
    ensures SlotResources(k1, i).configPath != SlotResources(k2, j).configPath
    ensures UsedPorts(k1, SlotResources(k1, i)) !! UsedPorts(k2, SlotResources(k2, j))
  {
    var a, b := Numerals.ShowNat(i), Numerals.ShowNat(j);
    if a == b {
      ShowNatInjective(i, j);
      assert false;
    }
    if k1 == k2 {
      if |a| == |b| {
        match k1
        case Clash => PathsDiffer("temp_configs/temp_clash_config_", a, b, ".yaml");
        case Singbox => PathsDiffer("temp_configs/temp_singbox_config_", a, b, ".json");
      } else {
        match k1
        case Clash => PathsDifferInLength("temp_configs/temp_clash_config_", a, b, ".yaml");
        case Singbox => PathsDifferInLength("temp_configs/temp_singbox_config_", a, b, ".json");
      }
    } else {
      var p1, p2 := SlotResources(k1, i).configPath, SlotResources(k2, j).configPath;
      assert p1[18] != p2[18];
    }
  }
}

=== FILE: provision.dfy ===
/** Fetching a proxy core from its latest GitHub release (`ensure_core_binary`,
    `download_file`): the machine-name mapping, the first matching release asset,
    and the suffix dispatch that decides how a download is unpacked and installed.
    The HTTP requests, the payload and the filesystem are inputs. */
module Provision {
  import opened Wrappers
  import opened Values
  import PyStr
  import ProxyManager

  /** GitHub release assets name machines the Go way; other names pass unchanged,
      so a name already in GitHub's spelling is left alone. */
  function GhArch(arch: string): (r: string)
    ensures arch == "x86_64" ==> r == "amd64"
    ensures arch == "aarch64" ==> r == "arm64"
    ensures arch == "armv7l" ==> r == "armv7"
    ensures r != arch <==> arch in {"x86_64", "aarch64", "armv7l"}
    ensures r !in {"x86_64", "aarch64", "armv7l"}
  {
    if arch == "x86_64" then "amd64"
    else if arch == "aarch64" then "arm64"
    else if arch == "armv7l" then "armv7"
    else arch
  }

  /** `asset.get("name", "").lower()`: only a dictionary has `get`, only a string
      has `lower`. */
  function AssetName(asset: Value): (r: Result<string, PyError>)
    ensures r.Ok? <==> asset.Dict? && Get(asset.fields, "name", Str("")).Str?
    ensures r.Ok? ==> r.value == PyStr.Lower(Get(asset.fields, "name", Str("")).s)
    ensures r.Err? ==> r.error == AttributeError
  {
    var name :- GetAttr(asset, "name", Str(""));
    LowerOf(name)
  }

  /** The selection test: the lower-cased name holds the keyword, the architecture
      and the platform, each as a substring. */
  predicate Wanted(name: string, keyword: string, arch: string, platform: string) {
    PyStr.Contains(name, keyword) && PyStr.Contains(name, arch) && PyStr.Contains(name, platform)
  }

  /** An asset the loop looks at and passes over. */
  predicate Passed(asset: Value, keyword: string, arch: string, platform: string) {
    AssetName(asset).Ok? && !Wanted(AssetName(asset).value, keyword, arch, platform)
  }

  /** Every asset of `assets[from..to]` is looked at and passed over. */
  predicate PassedBetween(assets: seq<Value>, from: nat, to: nat, keyword: string, arch: string, platform: string)
    requires to <= |assets|
  {
    forall j :: from <= j < to ==> Passed(assets[j], keyword, arch, platform)
  }

  /** The loop, started at `from`, passes over everything before `j` and then
      meets the malformed asset `assets[j]`. */
  predicate RaisesAt(assets: seq<Value>, from: nat, j: nat, keyword: string, arch: string, platform: string) {
    from <= j < |assets| && AssetName(assets[j]).Err? && PassedBetween(assets, from, j, keyword, arch, platform)
  }

  /** The selection loop up to its `break`, from position `from` on: the index
      of the first wanted asset, `None` when the loop runs out, or the error of
      the first malformed asset the loop reaches. */
  function FirstWanted(assets: seq<Value>, keyword: string, arch: string, platform: string, from: nat): (r: Result<Option<nat>, PyError>)
    requires from <= |assets|
    ensures r.Ok? && r.value.Some? ==>
              from <= r.value.value < |assets| &&
              AssetName(assets[r.value.value]).Ok? &&
              Wanted(AssetName(assets[r.value.value]).value, keyword, arch, platform) &&
              PassedBetween(assets, from, r.value.value, keyword, arch, platform)
    ensures r == Ok(None) <==> PassedBetween(assets, from, |assets|, keyword, arch, platform)
    ensures r.Err? ==> r.error == AttributeError && exists j :: RaisesAt(assets, from, j, keyword, arch, platform)
    decreases |assets| - from
  {
    if from == |assets| then Ok(None)
    else
      match AssetName(assets[from])
      case Err(e) =>
        assert RaisesAt(assets, from, from, keyword, arch, platform);
        Err(e)
      case Ok(name) =>
        if Wanted(name, keyword, arch, platform) then
          assert !PassedBetween(assets, from, |assets|, keyword, arch, platform) by {
            assert !Passed(assets[from], keyword, arch, platform);
          }
          Ok(Some(from))
        else
          var rest := FirstWanted(assets, keyword, arch, platform, from + 1);
          PassedOver(assets, from, keyword, arch, platform);
          assert rest.Err? ==> exists j :: RaisesAt(assets, from, j, keyword, arch, platform) by {
            if rest.Err? {
              var j :| RaisesAt(assets, from + 1, j, keyword, arch, platform);
              assert RaisesAt(assets, from, j, keyword, arch, platform);
            }
          }
          rest
  }

  /** Passing over `assets[from]` moves the start of every passed-over stretch,
      and of every raising stretch, one position back. */
  lemma PassedOver(assets: seq<Value>, from: nat, keyword: string, arch: string, platform: string)
    requires from < |assets| && Passed(assets[from], keyword, arch, platform)
    ensures forall to :: from < to <= |assets| ==>
              (PassedBetween(assets, from, to, keyword, arch, platform) <==> PassedBetween(assets, from + 1, to, keyword, arch, platform))
    ensures forall j :: RaisesAt(assets, from + 1, j, keyword, arch, platform) ==> RaisesAt(assets, from, j, keyword, arch, platform)
  {
  }

  /** `latest_release.get("assets", [])` as the loop iterates it. Iterating a
      non-empty dictionary or string yields strings, whose missing `get` raises;
      iterating `None`, a boolean or an integer raises `TypeError`. */
  function ReleaseAssets(release: Value): (r: Result<seq<Value>, PyError>)
    ensures !release.Dict? ==> r == Err(AttributeError)
    ensures release.Dict? && "assets" !in release.fields ==> r == Ok([])
    ensures release.Dict? && "assets" in release.fields && release.fields["assets"].List? ==>
              r == Ok(release.fields["assets"].items)
    ensures r.Ok? ==> release.Dict? && (Get(release.fields, "assets", List([])).List? || !Truthy(Get(release.fields, "assets", List([]))))
    ensures r.Err? && r.error == TypeError <==>
              release.Dict? && var a := Get(release.fields, "assets", List([])); a.Null? || a.Bool? || a.Int?
  {
    var assets :- GetAttr(release, "assets", List([]));
    match assets
    case List(items) => Ok(items)
    case Dict(fields) => if |fields| == 0 then Ok([]) else Err(AttributeError)
    case Str(s) => if s == "" then Ok([]) else Err(AttributeError)
    case _ => Err(TypeError)
  }

  /** The asset chosen for download: where it sits in the release, its lower-cased
      name, and its `browser_download_url`. */
  datatype Asset = Asset(index: nat, name: string, url: Value)

  /** Lines 97-121: the assets of the release, the first one whose name is wanted
      for this machine, and its download URL. A wanted asset with a falsy URL stops
      the search all the same; the warning loop that follows then reads every
      asset's `get('name')`, which raises for an asset that is not a dictionary. */
  function SelectAsset(release: Value, keyword: string, machine: string, system: string): (r: Result<Option<Asset>, PyError>)
    ensures ReleaseAssets(release).Err? ==> r == Err(ReleaseAssets(release).error)
    ensures r.Ok? && r.value.Some? ==>
              var assets := ReleaseAssets(release).value;
              var a := r.value.value;
              ReleaseAssets(release).Ok? && a.index < |assets| && assets[a.index].Dict? &&
              AssetName(assets[a.index]) == Ok(a.name) &&
              Wanted(a.name, keyword, GhArch(PyStr.Lower(machine)), PyStr.Lower(system)) &&
              PassedBetween(assets, 0, a.index, keyword, GhArch(PyStr.Lower(machine)), PyStr.Lower(system)) &&
              a.url == Get(assets[a.index].fields, "browser_download_url", Null) && Truthy(a.url)
    ensures r == Ok(None) ==>
              ReleaseAssets(release).Ok? &&
              FirstWanted(ReleaseAssets(release).value, keyword, GhArch(PyStr.Lower(machine)), PyStr.Lower(system), 0).Ok?
    ensures r.Err? ==> r.error == AttributeError || r.error == TypeError
  {
    var assets :- ReleaseAssets(release);
    var arch := GhArch(PyStr.Lower(machine));
    var platform := PyStr.Lower(system);
    var found :- FirstWanted(assets, keyword, arch, platform, 0);
    match found
    case None => Ok(None)
    case Some(i) =>
      var url := Get(assets[i].fields, "browser_download_url", Null);
      if Truthy(url) then Ok(Some(Asset(i, AssetName(assets[i]).value, url)))
      else if forall j :: 0 <= j < |assets| ==> assets[j].Dict? then Ok(None)
      else Err(AttributeError)
  }

  /** Every asset a dictionary with a string name (or none). */
  predicate WellFormedAssets(assets: seq<Value>) {
    forall j :: 0 <= j < |assets| ==> AssetName(assets[j]).Ok?
  }

  /** `assets[i]` is the first wanted asset, and its URL is truthy. */
  predicate FirstPick(assets: seq<Value>, i: nat, keyword: string, arch: string, platform: string) {
    i < |assets| && AssetName(assets[i]).Ok? && Wanted(AssetName(assets[i]).value, keyword, arch, platform) &&
    PassedBetween(assets, 0, i, keyword, arch, platform) &&
    Truthy(Get(assets[i].fields, "browser_download_url", Null))
  }

  /** With well-formed assets the selection never raises, and it finds an asset
      exactly when the first wanted one has a truthy URL. */
  lemma SelectAssetComplete(release: Value, keyword: string, machine: string, system: string)
    requires ReleaseAssets(release).Ok? && WellFormedAssets(ReleaseAssets(release).value)
    ensures var assets := ReleaseAssets(release).value;
            var r := SelectAsset(release, keyword, machine, system);
            r.Ok? &&
            (r.value.Some? <==> exists i :: FirstPick(assets, i, keyword, GhArch(PyStr.Lower(machine)), PyStr.Lower(system)))
  {
    var assets := ReleaseAssets(release).value;
    var arch := GhArch(PyStr.Lower(machine));
    var platform := PyStr.Lower(system);
    FoundPick(assets, keyword, arch, platform);
    var found := FirstWanted(assets, keyword, arch, platform, 0);
    if found.value.Some? {
      var i := found.value.value;
      if Truthy(Get(assets[i].fields, "browser_download_url", Null)) {
        assert FirstPick(assets, i, keyword, arch, platform);
      }
    }
  }

  /** Over well-formed assets the selection loop never raises, every asset is a
      dictionary, and the loop's result decides which asset, if any, is the first
      pick. */
  lemma FoundPick(assets: seq<Value>, keyword: string, arch: string, platform: string)
    requires WellFormedAssets(assets)
    ensures forall j :: 0 <= j < |assets| ==> assets[j].Dict?
    ensures FirstWanted(assets, keyword, arch, platform, 0).Ok?
    ensures FirstWanted(assets, keyword, arch, platform, 0).value.None? ==>
              forall i: nat :: !FirstPick(assets, i, keyword, arch, platform)
    ensures var found := FirstWanted(assets, keyword, arch, platform, 0).value;
            found.Some? ==> forall i: nat :: FirstPick(assets, i, keyword, arch, platform) ==> i == found.value
  {
    var found := FirstWanted(assets, keyword, arch, platform, 0);
    forall j: nat | j < |assets| ensures !RaisesAt(assets, 0, j, keyword, arch, platform) && assets[j].Dict? {
      assert AssetName(assets[j]).Ok?;
    }
    match found.value
    case None =>
      forall i: nat | i < |assets| ensures !FirstPick(assets, i, keyword, arch, platform) {
        assert Passed(assets[i], keyword, arch, platform);
      }
    case Some(i) =>
      forall i': nat | i' < i ensures !FirstPick(assets, i', keyword, arch, platform) {
        assert Passed(assets[i'], keyword, arch, platform);
      }
      forall i': nat | i < i' ensures !FirstPick(assets, i', keyword, arch, platform) {
        assert !Passed(assets[i], keyword, arch, platform);
      }
  }

  /** `os.path.join(directory, name)` for one name. */
  function PathJoin(directory: string, name: string): (r: string)
    ensures PyStr.EndsWith(r, name)
    ensures |name| > 0 && name[0] == '/' ==> r == name
    ensures directory == "" ==> r == name
  {
    if |name| > 0 && name[0] == '/' then name
    else if directory == "" || directory[|directory| - 1] == '/' then directory + name
    else directory + "/" + name
  }

  /** How an asset is unpacked, by the suffix of its lower-cased name; `.tar.gz`
      is tested before `.gz` (lines 138-173). */
  datatype ArchiveKind = TarGz | Gz | Zip | Binary

  function KindOf(name: string): (k: ArchiveKind)
    ensures k == TarGz <==> PyStr.EndsWith(name, ".tar.gz")
    ensures k == Gz <==> PyStr.EndsWith(name, ".gz") && !PyStr.EndsWith(name, ".tar.gz")
    ensures k == Zip <==> PyStr.EndsWith(name, ".zip")
    ensures k == Binary <==> !PyStr.EndsWith(name, ".gz") && !PyStr.EndsWith(name, ".zip")
  {
    if PyStr.EndsWith(name, ".tar.gz") then
      assert name[|name| - 3..] == ".gz" by { assert name[|name| - 3..] == name[|name| - 7..][4..]; }
      TarGz
    else if PyStr.EndsWith(name, ".gz") then
      assert name[|name| - 1] == 'z' by { assert name[|name| - 1] == name[|name| - 3..][2]; }
      assert !PyStr.EndsWith(name, ".zip");
      Gz
    else if PyStr.EndsWith(name, ".zip") then Zip
    else Binary
  }

  /** What the network and the payload did: whether a response arrived with a
      success status, whether the payload is a well-formed archive of the format
      its name says (any bytes pass for a plain binary), and whether the archive
      holds a file named like the executable or the core. */
  datatype Transfer = Transfer(received: bool, intact: bool, holdsExecutable: bool)

  /** What `download_file` left behind when it returned `True`: the decompressed
      payload at the destination, the archive's members beside it (and nothing at
      the destination), or the payload as received at the destination. */
  datatype Stored = Decompressed | ExtractedBeside | Raw

  /** `download_file` as written. A URL that is not a string makes the request
      raise inside the `try`, which returns `False` (`None` here); so does a failed
      request or a payload that does not decompress. A `.zip` URL is extracted next
      to the destination and the destination itself is never written. */
  function DownloadFileAsWritten(url: Value, t: Transfer): (r: Option<Stored>)
    ensures r.Some? ==> url.Str? && t.received
    ensures r == Some(ExtractedBeside) <==> url.Str? && t.received && t.intact && PyStr.EndsWith(url.s, ".zip")
    ensures r == Some(Decompressed) <==> url.Str? && t.received && t.intact && KindOf(url.s) == Gz
    ensures r == Some(Raw) <==> url.Str? && t.received && (KindOf(url.s) == TarGz || KindOf(url.s) == Binary)
  {
    if !url.Str? || !t.received then None
    else
      match KindOf(url.s)
      case Gz => if t.intact then Some(Decompressed) else None
      case Zip => if t.intact then Some(ExtractedBeside) else None
      case _ => Some(Raw)
  }

  /** `download_file` as `ensure_core_binary` needs it: a `.zip` download is
      written to the destination as it arrived, like a `.tar.gz`, so that the
      caller's extraction finds it there. */
  function DownloadFile(url: Value, t: Transfer): (r: Option<Stored>)
    ensures r != Some(ExtractedBeside)
    ensures r.Some? <==> url.Str? && t.received && (t.intact || KindOf(url.s) != Gz)
    ensures r == Some(Decompressed) <==> url.Str? && t.received && t.intact && KindOf(url.s) == Gz
  {
    if !url.Str? || !t.received then None
    else
      match KindOf(url.s)
      case Gz => if t.intact then Some(Decompressed) else None
      case _ => Some(Raw)
  }

  /** The core binary before the call: missing, present but empty, or present
      with content (`os.path.exists` and `os.path.getsize`). */
  datatype Target = Missing | Empty | Ready

  /** Lines 136-196 after a successful download to `temp`: extract a `.tar.gz`
      or `.zip` and move the executable found in it to the target, or move a
      single `.gz` or plain binary there; then report whether the target is a
      file. Opening or moving a file that is not there raises
      `FileNotFoundError`; an archive that is not of its format raises, and so
      does opening the existing empty target as an archive when the asset's name
      is the target's own. */
  function Install(kind: ArchiveKind, stored: Stored, t: Transfer, target: Target,
                   temp: string, targetPath: string): (r: Result<bool, PyError>)
    requires target != Ready
    ensures stored == ExtractedBeside && (kind == TarGz || kind == Zip) && (target == Missing || temp != targetPath) ==>
              r == Err(FileNotFoundError(temp))
    ensures stored == ExtractedBeside && (kind == TarGz || kind == Zip) && target == Empty && temp == targetPath ==>
              r == Err(ArchiveError)
    ensures stored == ExtractedBeside && temp != targetPath ==> r == Err(FileNotFoundError(temp))
    ensures stored == Raw && t.intact && t.holdsExecutable ==> r == Ok(true)
    ensures (kind == Gz || kind == Binary) && stored != ExtractedBeside ==> r == Ok(true)
    ensures r == Ok(true) ==> stored != ExtractedBeside || target == Empty
    ensures r.Err? ==> r.error == FileNotFoundError(temp) || r.error == ArchiveError
  {
    match kind
    case TarGz | Zip =>
      if stored == ExtractedBeside then
        (if temp == targetPath && target == Empty then Err(ArchiveError) else Err(FileNotFoundError(temp)))
      else if !(stored == Raw && t.intact) then Err(ArchiveError)
      else if t.holdsExecutable then Ok(true)
      else Ok(target == Empty || temp == targetPath)
    case Gz | Binary =>
      if stored != ExtractedBeside then Ok(true)
      else if temp != targetPath then Err(FileNotFoundError(temp))
      else Ok(target == Empty)
  }

  /** The temporary download path: the asset's name in the target's directory. */
  function TempPath(targetPath: string, a: Asset): (p: string)
    ensures PyStr.EndsWith(p, a.name)
  {
    PathJoin(ProxyManager.Dirname(targetPath), a.name)
  }

  /** Lines 123-196 for the chosen asset: `False` when the download failed,
      otherwise the installation from the temporary path. */
  function Provide(a: Asset, stored: Option<Stored>, t: Transfer, target: Target, targetPath: string): (r: Result<bool, PyError>)
    requires target != Ready
    ensures stored.None? ==> r == Ok(false)
    ensures stored.Some? ==> r == Install(KindOf(a.name), stored.value, t, target, TempPath(targetPath, a), targetPath)
    ensures stored != Some(ExtractedBeside) && r.Err? ==> r.error == ArchiveError
  {
    match stored
    case None => Ok(false)
    case Some(s) => Install(KindOf(a.name), s, t, target, TempPath(targetPath, a), targetPath)
  }

  /** `ensure_core_binary` as written. A non-empty target is accepted without
      asking GitHub; a failed release request (`None`), no suitable asset or a
      failed download gives `False`; the rest is `Install`. Exceptions raised
      after the request are not caught. */
  function EnsureCoreAsWritten(keyword: string, targetPath: string, target: Target, release: Option<Value>,
                               machine: string, system: string, t: Transfer): (r: Result<bool, PyError>)
    ensures target == Ready ==> r == Ok(true)
    ensures target != Ready && release.None? ==> r == Ok(false)
    ensures target != Ready && release.Some? && SelectAsset(release.value, keyword, machine, system).Err? ==>
              r == Err(SelectAsset(release.value, keyword, machine, system).error)
    ensures target != Ready && release.Some? && SelectAsset(release.value, keyword, machine, system) == Ok(None) ==>
              r == Ok(false)
  {
    if target == Ready then Ok(true)
    else
      match release
      case None => Ok(false)
      case Some(rel) =>
        var selected :- SelectAsset(rel, keyword, machine, system);
        match selected
        case None => Ok(false)
        case Some(a) => Provide(a, DownloadFileAsWritten(a.url, t), t, target, targetPath)
  }

  /** `ensure_core_binary` with the corrected `download_file`. */
  function EnsureCore(keyword: string, targetPath: string, target: Target, release: Option<Value>,
                      machine: string, system: string, t: Transfer): (r: Result<bool, PyError>)
    ensures target == Ready ==> r == Ok(true)
    ensures target != Ready && release.None? ==> r == Ok(false)
    ensures target != Ready && release.Some? && SelectAsset(release.value, keyword, machine, system).Err? ==>
              r == Err(SelectAsset(release.value, keyword, machine, system).error)
    ensures target != Ready && release.Some? && SelectAsset(release.value, keyword, machine, system) == Ok(None) ==>
              r == Ok(false)
    ensures r.Err? ==> !r.error.FileNotFoundError?
  {
    if target == Ready then Ok(true)
    else
      match release
      case None => Ok(false)
      case Some(rel) =>
        var selected :- SelectAsset(rel, keyword, machine, system);
        match selected
        case None => Ok(false)
        case Some(a) => Provide(a, DownloadFile(a.url, t), t, target, targetPath)
  }

  /** The URL ends with the same archive suffixes as the asset's lower-cased name,
      as GitHub's download URLs end with the asset's name. */
  predicate SameSuffixes(url: string, name: string) {
    KindOf(url) == KindOf(name)
  }

  /** `download_file` decompresses exactly the downloads that `ensure_core_binary`
      treats as single gzip files, and stores a `.tar.gz` or plain binary as it
      arrived. */
  lemma DownloadAgreesWithInstall(url: string, name: string, t: Transfer)
    requires SameSuffixes(url, name) && t.received && t.intact
    ensures DownloadFile(Str(url), t) == Some(Decompressed) <==> KindOf(name) == Gz
    ensures KindOf(name) == TarGz || KindOf(name) == Binary ==> DownloadFileAsWritten(Str(url), t) == Some(Raw)
  {
  }

  /** With the corrected download, a release that offers a wanted asset whose
      archive arrives intact and holds the executable always installs the core,
      whatever the archive format. */
  lemma EnsureCoreInstalls(keyword: string, targetPath: string, target: Target, release: Value,
                           machine: string, system: string, a: Asset, t: Transfer)
    requires SelectAsset(release, keyword, machine, system) == Ok(Some(a))
    requires a.url.Str? && SameSuffixes(a.url.s, a.name)
    requires t.received && t.intact && t.holdsExecutable
    ensures EnsureCore(keyword, targetPath, target, Some(release), machine, system, t) == Ok(true)
  {
    if target != Ready {
      var stored := if KindOf(a.name) == Gz then Decompressed else Raw;
      assert DownloadFile(a.url, t) == Some(stored);
      assert Provide(a, Some(stored), t, target, targetPath) == Ok(true);
    }
  }

  /** As written, every wanted `.zip` asset that downloads intact makes
      `ensure_core_binary` raise `FileNotFoundError` on the temporary path, which
      `download_file` never wrote. */
  lemma ZipAssetRaises(keyword: string, targetPath: string, target: Target, release: Value,
                       machine: string, system: string, a: Asset, t: Transfer)
    requires target != Ready
    requires SelectAsset(release, keyword, machine, system) == Ok(Some(a))
    requires a.url.Str? && SameSuffixes(a.url.s, a.name) && KindOf(a.name) == Zip
    requires t.received && t.intact
    ensures target == Missing || TempPath(targetPath, a) != targetPath ==>
              EnsureCoreAsWritten(keyword, targetPath, target, Some(release), machine, system, t) ==
                Err(FileNotFoundError(TempPath(targetPath, a)))
    ensures target == Empty && TempPath(targetPath, a) == targetPath ==>
              EnsureCoreAsWritten(keyword, targetPath, target, Some(release), machine, system, t) == Err(ArchiveError)
  {
    assert DownloadFileAsWritten(a.url, t) == Some(ExtractedBeside);
    assert Provide(a, Some(ExtractedBeside), t, target, targetPath) ==
           Install(Zip, ExtractedBeside, t, target, TempPath(targetPath, a), targetPath);
  }

  /** A lower-case name is its own `lower()`. */
  lemma LowerKeeps(s: string)
    requires forall k :: 0 <= k < |s| ==> !('A' <= s[k] <= 'Z')
    ensures PyStr.Lower(s) == s
  {
  }

  /** The asset name of the example below is lower case and wanted on an
      x86-64 Windows machine. */
  lemma ExampleWanted(name: string)
    requires name == "sing-box-1.9.0-windows-amd64.zip"
    ensures PyStr.Lower(name) == name
    ensures Wanted(name, "sing-box", "amd64", "windows")
  {
    ExampleLower(name);
    ExampleParts(name);
    PyStr.ContainsWitness(name, "sing-box", 0);
    PyStr.ContainsWitness(name, "amd64", 23);
    PyStr.ContainsWitness(name, "windows", 15);
  }

  lemma ExampleLower(name: string)
    requires name == "sing-box-1.9.0-windows-amd64.zip"
    ensures PyStr.Lower(name) == name
  {
    LowerKeeps(name);
  }

  lemma ExampleParts(name: string)
    requires name == "sing-box-1.9.0-windows-amd64.zip"
    ensures PyStr.OccursAt(name, "sing-box", 0)
    ensures PyStr.OccursAt(name, "amd64", 23)
    ensures PyStr.OccursAt(name, "windows", 15)
  {
    assert name[0..8] == "sing-box" && name[23..28] == "amd64" && name[15..22] == "windows";
  }

  lemma ExampleSelection(name: string, url: string)
    requires name == "sing-box-1.9.0-windows-amd64.zip" && url != ""
    ensures var asset := Dict(map["name" := Str(name), "browser_download_url" := Str(url)]);
            var release := Dict(map["assets" := List([asset])]);
            SelectAsset(release, "sing-box", "x86_64", "Windows") == Ok(Some(Asset(0, name, Str(url))))
  {
    var asset := Dict(map["name" := Str(name), "browser_download_url" := Str(url)]);
    ExampleWanted(name);
    LowerKeeps("x86_64");
    assert PyStr.Lower("Windows") == "windows";
    assert AssetName(asset) == Ok(name);
    assert FirstWanted([asset], "sing-box", "amd64", "windows", 0) == Ok(Some(0));
    var release := Dict(map["assets" := List([asset])]);
    assert ReleaseAssets(release) == Ok([asset]);
    assert GhArch(PyStr.Lower("x86_64")) == "amd64";
    assert Truthy(Get(asset.fields, "browser_download_url", Null));
  }

  /** Both the name and the URL of the example end with `.zip`. */
  lemma ExampleKinds(name: string, url: string)
    requires name == "sing-box-1.9.0-windows-amd64.zip"
    requires url == "https://example.org/sing-box-1.9.0-windows-amd64.zip"
    ensures KindOf(name) == Zip && SameSuffixes(url, name)
  {
    assert name[28..] == ".zip" && url[48..] == ".zip";
  }

  /** The example downloads next to `cores/sing-box`. */
  lemma ExampleTempPath(a: Asset)
    requires a.name == "sing-box-1.9.0-windows-amd64.zip"
    ensures TempPath("cores/sing-box", a) == "cores/" + a.name
  {
    ExampleDirname();
    assert "cores" + "/" == "cores/";
    assert PathJoin("cores", a.name) == "cores/" + a.name;
  }

  /** The target directory of the example. */
  lemma ExampleDirname()
    ensures ProxyManager.Dirname("cores/sing-box") == "cores"
  {
    var p := "cores/sing-box";
    var i := PyStr.LastIndexOf(p, '/');
    assert i == Some(5) by {
      assert i.Some? by { assert p[5] == '/'; }
      assert p[i.value] == '/';
    }
    var head := p[..6];
    assert head == "cores/";
    assert head[0] != '/';
    var r := PyStr.RStripSet(head, {'/'});
    assert |r| == 5 by {
      assert head[4] !in {'/'};
      assert head[5] in {'/'};
    }
  }

  /** The same on one release: a single sing-box zip for Windows on x86-64,
      which the corrected download installs. */
  lemma ZipReleaseExample()
    ensures var asset := Dict(map["name" := Str("sing-box-1.9.0-windows-amd64.zip"),
                                  "browser_download_url" := Str("https://example.org/sing-box-1.9.0-windows-amd64.zip")]);
            var release := Dict(map["assets" := List([asset])]);
            var t := Transfer(true, true, true);
            EnsureCoreAsWritten("sing-box", "cores/sing-box", Missing, Some(release), "x86_64", "Windows", t) ==
              Err(FileNotFoundError("cores/" + "sing-box-1.9.0-windows-amd64.zip")) &&
            EnsureCore("sing-box", "cores/sing-box", Missing, Some(release), "x86_64", "Windows", t) == Ok(true)
  {
    var name := "sing-box-1.9.0-windows-amd64.zip";
    var url := "https://example.org/sing-box-1.9.0-windows-amd64.zip";
    var asset := Dict(map["name" := Str(name), "browser_download_url" := Str(url)]);
    var release := Dict(map["assets" := List([asset])]);
    var t := Transfer(true, true, true);
    var a := Asset(0, name, Str(url));
    ExampleSelection(name, url);
    ExampleKinds(name, url);
    ExampleTempPath(a);
    ZipAssetRaises("sing-box", "cores/sing-box", Missing, release, "x86_64", "Windows", a, t);
    EnsureCoreInstalls("sing-box", "cores/sing-box", Missing, release, "x86_64", "Windows", a, t);
  }
}

=== FILE: proxymanager.dfy ===
/** Starting and stopping a proxy core (`run_proxy_core`, `stop_proxy_core`).
    The filesystem checks and the outcome of spawning the process are inputs;
    the process itself is a three-state machine. */
module ProxyManager {
  import opened Wrappers
  import opened Values
  import PyStr

  /** `os.path.dirname` on a POSIX path: everything up to the last `/`, with
      trailing slashes removed unless the head is nothing but slashes. */
  function Dirname(p: string): (r: string)
    ensures PyStr.StartsWith(p, r)
    ensures '/' !in p ==> r == ""
    ensures '/' in p && r != "" ==> r[|r| - 1] != '/' || (forall k :: 0 <= k < |r| ==> r[k] == '/')
  {
    match PyStr.LastIndexOf(p, '/')
    case None => ""
    case Some(i) =>
      var head := p[..i + 1];
      if forall k :: 0 <= k < |head| ==> head[k] == '/' then head
      else
        var r := PyStr.RStripSet(head, {'/'});
        assert p[..|r|] == r;
        r
  }

  /** The command line for a core kind; an unknown kind gets none. */
  function Command(kind: string, core: string, config: string): (cmd: seq<string>)
    ensures cmd != [] <==> kind == "clash" || kind == "singbox"
    ensures cmd != [] ==> cmd[0] == core && cmd[|cmd| - 1] == config
    ensures kind == "clash" ==> |cmd| == 5 && cmd[1..4] == ["-d", Dirname(config), "-f"]
    ensures kind == "singbox" ==> |cmd| == 4 && cmd[1..3] == ["run", "-c"]
  {
    if kind == "clash" then [core, "-d", Dirname(config), "-f", config]
    else if kind == "singbox" then [core, "run", "-c", config]
    else []
  }

  /** What `asyncio.create_subprocess_exec` did with the command. */
  datatype Spawn = Spawned | ExecutableNotFound | SpawnFailed

  /** `run_proxy_core`: the command of the started process, or the exception.
      The core is checked before the config; an empty command has no program
      to run, which is a `TypeError`. */
  function RunProxyCore(core: string, config: string, kind: string,
                        coreExists: bool, configExists: bool, spawn: Spawn): (r: Result<seq<string>, PyError>)
    ensures !coreExists ==> r == Err(FileNotFoundError(core))
    ensures coreExists && !configExists ==> r == Err(FileNotFoundError(config))
    ensures r.Ok? <==> coreExists && configExists && spawn.Spawned? && (kind == "clash" || kind == "singbox")
    ensures r.Ok? ==> r.value == Command(kind, core, config)
    ensures r.Err? && r.error.FileNotFoundError? ==> !coreExists || !configExists || spawn.ExecutableNotFound?
  {
    if !coreExists then Err(FileNotFoundError(core))
    else if !configExists then Err(FileNotFoundError(config))
    else
      var cmd := Command(kind, core, config);
      if cmd == [] then Err(TypeError)
      else
        match spawn
        case Spawned => Ok(cmd)
        case ExecutableNotFound => Err(FileNotFoundError(core))
        case SpawnFailed => Err(OSError)
  }

  /** A process as `stop_proxy_core` sees it: none at all, still running, or
      exited with a return code. */
  datatype ProcState = NoProcess | Running | Exited

  /** What is done to the process: `terminate`, the wait of at most five seconds,
      `kill`, and the unbounded wait after it. */
  datatype StopAction = Terminate | WaitUpTo5s | Kill | Wait

  /** `stop_proxy_core`: a running process is terminated and waited for; if it does
      not end within five seconds (`graceful` false) it is killed and waited for.
      A process that has already exited, or none, is left alone. */
  function StopProxyCore(p: ProcState, graceful: bool): (r: (ProcState, seq<StopAction>))
    ensures p.Running? ==> r.0 == Exited
    ensures !p.Running? ==> r.0 == p && r.1 == []
    ensures p.Running? ==> |r.1| >= 2 && r.1[..2] == [Terminate, WaitUpTo5s]
    ensures Kill in r.1 <==> p.Running? && !graceful
  {
    if p.Running? then
      (Exited, if graceful then [Terminate, WaitUpTo5s] else [Terminate, WaitUpTo5s, Kill, Wait])
    else (p, [])
  }

  /** Stopping twice does nothing the second time. */
  lemma StopIdempotent(p: ProcState, first: bool, second: bool)
    ensures StopProxyCore(StopProxyCore(p, first).0, second) == (StopProxyCore(p, first).0, [])
  {
  }

  /** A kill is always preceded by a terminate. */
  lemma KillAfterTerminate(p: ProcState, graceful: bool, k: nat)
    requires k < |StopProxyCore(p, graceful).1| && StopProxyCore(p, graceful).1[k] == Kill
    ensures exists j :: 0 <= j < k && StopProxyCore(p, graceful).1[j] == Terminate
  {
    assert StopProxyCore(p, graceful).1[0] == Terminate;
  }
}

=== FILE: pystr.dfy ===
/** The pieces of Python's `str` API that the converter relies on:
    `startswith`, `endswith`, `in`, `find`, `partition`, `rpartition`,
    `split`, `join`, `strip`, `splitlines`, `lower`, `upper`, `replace`.
    Case mapping is modelled on ASCII letters only. */
module PyStr {
  import opened Wrappers

  predicate StartsWith(s: string, prefix: string) {
    |prefix| <= |s| && s[..|prefix|] == prefix
  }

  predicate EndsWith(s: string, suffix: string) {
    |suffix| <= |s| && s[|s| - |suffix|..] == suffix
  }

  predicate OccursAt(s: string, sub: string, i: nat) {
    i + |sub| <= |s| && s[i..i + |sub|] == sub
  }

  /** `s.find(sub, start)`: the lowest index at or after `start` where `sub` occurs. */
  function FindFrom(s: string, sub: string, start: nat): (r: Option<nat>)
    ensures r.Some? ==> start <= r.value && OccursAt(s, sub, r.value)
    ensures forall j {:trigger OccursAt(s, sub, j)} ::
              start <= j && (r.None? || j < r.value) ==> !OccursAt(s, sub, j)
    decreases |s| - start
  {
    if start + |sub| > |s| then None
    else if s[start..start + |sub|] == sub then Some(start)
    else FindFrom(s, sub, start + 1)
  }

  /** Python's `sub in s` for strings. */
  predicate Contains(s: string, sub: string) {
    FindFrom(s, sub, 0).Some?
  }

  lemma ContainsWitness(s: string, sub: string, i: nat)
    requires OccursAt(s, sub, i)
    ensures Contains(s, sub)
  {
  }

  lemma ContainsSlice(s: string, sub: string)
    requires Contains(s, sub)
    ensures exists i: nat {:trigger OccursAt(s, sub, i)} :: OccursAt(s, sub, i)
  {
    var i := FindFrom(s, sub, 0).value;
    assert OccursAt(s, sub, i);
  }

  /** Index of the first `c` in `s`. */
  function IndexOf(s: string, c: char): (r: Option<nat>)
    ensures r.Some? ==> r.value < |s| && s[r.value] == c && c !in s[..r.value]
    ensures r.None? <==> c !in s
  {
    if |s| == 0 then None
    else if s[0] == c then Some(0)
    else
      match IndexOf(s[1..], c)
      case None => None
      case Some(i) =>
        assert s[..i + 1] == [s[0]] + s[1..][..i];
        Some(i + 1)
  }

  /** Index of the last `c` in `s`. */
  function LastIndexOf(s: string, c: char): (r: Option<nat>)
    ensures r.Some? ==> r.value < |s| && s[r.value] == c && c !in s[r.value + 1..]
    ensures r.None? <==> c !in s
  {
    if |s| == 0 then None
    else if s[|s| - 1] == c then Some(|s| - 1)
    else
      match LastIndexOf(s[..|s| - 1], c)
      case None =>
        assert s == s[..|s| - 1] + [s[|s| - 1]];
        None
      case Some(i) =>
        assert s[i + 1..] == s[..|s| - 1][i + 1..] + [s[|s| - 1]];
        Some(i)
  }

  /** `s.partition(c)`: the text before the first `c`, whether it was found, the text after. */
  function Partition(s: string, c: char): (r: (string, bool, string))
    ensures r.1 <==> c in s
    ensures r.1 ==> s == r.0 + [c] + r.2 && c !in r.0
    ensures !r.1 ==> r.0 == s && r.2 == ""
  {
    match IndexOf(s, c)
    case None => (s, false, "")
    case Some(i) =>
      assert s == s[..i] + [c] + s[i + 1..];
      (s[..i], true, s[i + 1..])
  }

  /** `s.rpartition(c)`: split at the last `c`; when absent, everything is in the third part. */
  function RPartition(s: string, c: char): (r: (string, bool, string))
    ensures r.1 <==> c in s
    ensures r.1 ==> s == r.0 + [c] + r.2 && c !in r.2
    ensures !r.1 ==> r.0 == "" && r.2 == s
  {
    match LastIndexOf(s, c)
    case None => ("", false, s)
    case Some(i) =>
      assert s == s[..i] + [c] + s[i + 1..];
      (s[..i], true, s[i + 1..])
  }

  /** `sep.join(parts)`. */
  function Join(sep: string, parts: seq<string>): string
  {
    if |parts| == 0 then ""
    else if |parts| == 1 then parts[0]
    else parts[0] + sep + Join(sep, parts[1..])
  }

  /** `s.split(c)` with a one-character separator: every piece, empty ones included. */
  function Split(s: string, c: char): (r: seq<string>)
    ensures |r| >= 1
    ensures Join([c], r) == s
    ensures forall k :: 0 <= k < |r| ==> c !in r[k]
    decreases |s|
  {
    var (before, found, after) := Partition(s, c);
    if !found then [s]
    else
      var rest := Split(after, c);
      assert Join([c], [before] + rest) == before + [c] + Join([c], rest);
      [before] + rest
  }

  /** Splitting a join at its one-character separator gives the parts back,
      provided no part contains the separator. */
  lemma {:induction false} SplitJoin(parts: seq<string>, c: char)
    requires |parts| >= 1
    requires forall k :: 0 <= k < |parts| ==> c !in parts[k]
    ensures Split(Join([c], parts), c) == parts
  {
    var s := Join([c], parts);
    if |parts| == 1 {
      assert Partition(s, c) == (s, false, "");
    } else {
      var rest := Join([c], parts[1..]);
      assert s == parts[0] + [c] + rest;
      var (before, found, after) := Partition(s, c);
      assert found by { assert s[|parts[0]|] == c; }
      PartitionAtFirst(parts[0], c, rest);
      SplitJoin(parts[1..], c);
      assert parts == [parts[0]] + parts[1..];
    }
  }

  /** Partitioning `a + [c] + b` where `a` has no `c` splits right after `a`. */
  lemma PartitionAtFirst(a: string, c: char, b: string)
    requires c !in a
    ensures Partition(a + [c] + b, c) == (a, true, b)
  {
    var s := a + [c] + b;
    assert s[|a|] == c;
    var (before, found, after) := Partition(s, c);
    assert s == before + [c] + after && c !in before;
    assert before == s[..|before|] && a == s[..|a|];
    assert after == s[|a| + 1..] && b == s[|a| + 1..];
  }

  /** Characters for which Python's `str.isspace()` holds. */
  const Whitespace: set<char> :=
    {'\t', '\n', '\U{000B}', '\U{000C}', '\r', '\U{001C}', '\U{001D}', '\U{001E}', '\U{001F}', ' ',
     '\U{0085}', '\U{00A0}', '\U{1680}', '\U{2000}', '\U{2001}', '\U{2002}', '\U{2003}', '\U{2004}',
     '\U{2005}', '\U{2006}', '\U{2007}', '\U{2008}', '\U{2009}', '\U{200A}', '\U{2028}', '\U{2029}',
     '\U{202F}', '\U{205F}', '\U{3000}'}

  /** Characters at which Python's `str.splitlines()` breaks a line. */
  const LineBreaks: set<char> :=
    {'\n', '\r', '\U{000B}', '\U{000C}', '\U{001C}', '\U{001D}', '\U{001E}', '\U{0085}', '\U{2028}', '\U{2029}'}

  /** Drop the leading characters that belong to `cs` (`s.lstrip(cs)`). */
  function LStripSet(s: string, cs: set<char>): (r: string)
    ensures |r| <= |s| && r == s[|s| - |r|..]
    ensures |r| > 0 ==> r[0] !in cs
    ensures forall k :: 0 <= k < |s| - |r| ==> s[k] in cs
  {
    if |s| > 0 && s[0] in cs then LStripSet(s[1..], cs) else s
  }

  /** Drop the trailing characters that belong to `cs` (`s.rstrip(cs)`). */
  function RStripSet(s: string, cs: set<char>): (r: string)
    ensures |r| <= |s| && r == s[..|r|]
    ensures |r| > 0 ==> r[|r| - 1] !in cs
    ensures forall k :: |r| <= k < |s| ==> s[k] in cs
  {
    if |s| > 0 && s[|s| - 1] in cs then RStripSet(s[..|s| - 1], cs) else s
  }

  /** `s.strip()`: remove leading and trailing whitespace. */
  function Strip(s: string): (r: string)
  {
    RStripSet(LStripSet(s, Whitespace), Whitespace)
  }

  /** A string whose ends are not whitespace is left alone by `strip()`. */
  lemma StripKeeps(s: string)
    requires |s| > 0 ==> s[0] !in Whitespace && s[|s| - 1] !in Whitespace
    ensures Strip(s) == s
  {
  }

  /** `s.splitlines()`: lines without their terminators; `\r\n` counts as one break,
      and a final terminator does not start an extra empty line. */
  function SplitLines(s: string): (r: seq<string>)
    ensures forall k :: 0 <= k < |r| ==> forall c :: c in r[k] ==> c !in LineBreaks
    decreases |s|
  {
    if |s| == 0 then []
    else
      var k := LineEnd(s, 0);
      var next :=
        if k == |s| then |s|
        else if s[k] == '\r' && k + 1 < |s| && s[k + 1] == '\n' then k + 2
        else k + 1;
      [s[..k]] + SplitLines(s[next..])
  }

  /** The first index at or after `i` holding a line break, or `|s|`. */
  function LineEnd(s: string, i: nat): (k: nat)
    requires i <= |s|
    ensures i <= k <= |s|
    ensures forall m :: i <= m < k ==> s[m] !in LineBreaks
    ensures k < |s| ==> s[k] in LineBreaks
    decreases |s| - i
  {
    if i == |s| || s[i] in LineBreaks then i else LineEnd(s, i + 1)
  }

  predicate NoLineBreak(s: string) {
    forall c :: c in s ==> c !in LineBreaks
  }

  /** Joining non-empty, break-free lines with `\n` and splitting them again
      gives back the same lines. */
  lemma {:induction false} SplitLinesOfJoin(lines: seq<string>)
    requires forall k :: 0 <= k < |lines| ==> |lines[k]| > 0 && NoLineBreak(lines[k])
    ensures SplitLines(Join("\n", lines)) == lines
  {
    if |lines| == 0 {
    } else if |lines| == 1 {
      var s := lines[0];
      LineEndNoBreak(s);
      assert s[..|s|] == s;
    } else {
      var s := Join("\n", lines);
      var head := lines[0];
      assert s == head + "\n" + Join("\n", lines[1..]);
      LineEndNoBreak(head);
      LineEndPrefix(head, s);
      assert s[|head|] == '\n';
      assert s[..|head|] == head;
      assert s[|head| + 1..] == Join("\n", lines[1..]);
      SplitLinesOfJoin(lines[1..]);
    }
  }

  lemma LineEndNoBreak(s: string)
    requires NoLineBreak(s)
    ensures LineEnd(s, 0) == |s|
  {
    forall m | 0 <= m < |s|
      ensures s[m] !in LineBreaks
    {
      assert s[m] in s;
    }
  }

  lemma LineEndPrefix(p: string, s: string)
    requires NoLineBreak(p) && |p| < |s| && s[..|p|] == p && s[|p|] in LineBreaks
    ensures LineEnd(s, 0) == |p|
  {
    forall m | 0 <= m < |p|
      ensures s[m] !in LineBreaks
    {
      assert s[m] == p[m];
      assert p[m] in p;
    }
  }

  /** ASCII lower-casing of one character. */
  function LowerChar(c: char): char {
    if 'A' <= c <= 'Z' then (c as int + 32) as char else c
  }

  function UpperChar(c: char): char {
    if 'a' <= c <= 'z' then (c as int - 32) as char else c
  }

  /** `s.lower()` on ASCII letters. */
  function Lower(s: string): (r: string)
    ensures |r| == |s|
    ensures forall k :: 0 <= k < |s| ==> r[k] == LowerChar(s[k])
  {
    seq(|s|, k requires 0 <= k < |s| => LowerChar(s[k]))
  }

  /** `s.upper()` on ASCII letters. */
  function Upper(s: string): (r: string)
    ensures |r| == |s|
    ensures forall k :: 0 <= k < |s| ==> r[k] == UpperChar(s[k])
  {
    seq(|s|, k requires 0 <= k < |s| => UpperChar(s[k]))
  }

  /** `s.replace(a, b)` for single characters. */
  function ReplaceChar(s: string, a: char, b: char): (r: string)
    ensures |r| == |s|
    ensures forall k :: 0 <= k < |s| ==> r[k] == (if s[k] == a then b else s[k])
  {
    seq(|s|, k requires 0 <= k < |s| => if s[k] == a then b else s[k])
  }

  /** Delete every character of `cs` from `s` (repeated `s.replace(c, "")`). */
  function RemoveChars(s: string, cs: set<char>): (r: string)
    ensures forall c :: c in r ==> c !in cs && c in s
    ensures (forall c :: c in s ==> c !in cs) ==> r == s
  {
    if |s| == 0 then ""
    else if s[0] in cs then RemoveChars(s[1..], cs)
    else [s[0]] + RemoveChars(s[1..], cs)
  }

  predicate IsAscii(s: string) {
    forall k :: 0 <= k < |s| ==> s[k] as int < 128
  }

  predicate IsAsciiDigit(c: char) {
    '0' <= c <= '9'
  }

  predicate IsAsciiLetter(c: char) {
    'a' <= c <= 'z' || 'A' <= c <= 'Z'
  }
}

=== FILE: roundtrip.dfy ===
/** Reading back what the v2rayN output writes: a regenerated trojan link parses to
    a node with the same name, credentials, address and options; a regenerated vmess
    link does too, given a JSON codec that reads back what it writes. */
module RoundTrip {
  import opened Wrappers
  import opened Values
  import PyStr
  import Utf8
  import Base64
  import Url
  import Percent
  import Numerals
  import Links
  import Outputs

  // ---------------------------------------------------------------------------
  // trojan

  /** A password that can sit before the `@` of a netloc unchanged. */
  predicate PlainPassword(s: string) {
    PyStr.IsAscii(s) && Url.NoneOf(s, Url.NetlocStops + {':'})
  }

  /** A server name that reads back unchanged: lower case, no `%`, nothing that ends
      or splits a netloc. */
  predicate PlainServer(s: string) {
    s != "" && PyStr.IsAscii(s) && Url.NoneOf(s, Url.NetlocStops + {':', '@', '%'}) && PyStr.Lower(s) == s
  }

  /** A trojan node whose link can be written and read back. */
  predicate TrojanRegenerable(node: Node) {
    "password" in node && node["password"].Str? && PlainPassword(node["password"].s) &&
    "server" in node && node["server"].Str? && PlainServer(node["server"].s) &&
    "port" in node && node["port"].Int? && 0 <= node["port"].i <= 65535 &&
    "name" in node && node["name"].Str? && node["name"].s != "" &&
    (Get(node, "sni", Null).Str? || Get(node, "sni", Null) == Null)
  }

  function TrojanNetloc(node: Node): string
    requires "password" in node && node["password"].Str? && "server" in node && node["server"].Str?
    requires "port" in node && node["port"].Int? && 0 <= node["port"].i
  {
    node["password"].s + "@" + node["server"].s + ":" + Numerals.ShowNat(node["port"].i)
  }

  function TrojanTail(node: Node, rt: Runtime): string
    requires "name" in node && node["name"].Str?
  {
    var query := Percent.UrlEncode(Outputs.TrojanQuery(node, rt));
    (if query != "" then "?" + query else "") + "#" + Percent.Quote(node["name"].s)
  }

  lemma NoneOfSubset(s: string, big: set<char>, small: set<char>)
    requires Url.NoneOf(s, big) && small <= big
    ensures Url.NoneOf(s, small)
  {
  }

  /** The link is `trojan://` + netloc + tail. */
  lemma TrojanLinkShape(node: Node, rt: Runtime)
    requires "password" in node && node["password"].Str? && "server" in node && node["server"].Str?
    requires "port" in node && node["port"].Int? && 0 <= node["port"].i
    requires "name" in node && node["name"].Str?
    ensures Outputs.TrojanLink(node, rt) == Ok("trojan" + "://" + TrojanNetloc(node) + TrojanTail(node, rt))
  {
    var query := Percent.UrlEncode(Outputs.TrojanQuery(node, rt));
    TrojanLinkAssembled(node, rt);
    AssembledShape(node["password"].s, node["server"].s, node["port"].i, query, node["name"].s, rt);
  }

  lemma TrojanLinkAssembled(node: Node, rt: Runtime)
    requires "password" in node && "server" in node && "port" in node && "name" in node && node["name"].Str?
    ensures Outputs.TrojanLink(node, rt) ==
              Ok(Outputs.TrojanAssembled(node["password"], node["server"], node["port"],
                                         Percent.UrlEncode(Outputs.TrojanQuery(node, rt)), node["name"].s, rt))
  {
  }

  lemma AssembledShape(password: string, server: string, port: nat, query: string, name: string, rt: Runtime)
    ensures Outputs.TrojanAssembled(Str(password), Str(server), Int(port), query, name, rt) ==
              "trojan" + "://" + (password + "@" + server + ":" + Numerals.ShowNat(port)) +
              ((if query != "" then "?" + query else "") + "#" + Percent.Quote(name))
  {
    assert "trojan" + "://" == Links.TrojanPrefix;
  }

  lemma TrojanNetlocClean(node: Node)
    requires TrojanRegenerable(node)
    ensures TrojanNetloc(node) != "" && PyStr.IsAscii(TrojanNetloc(node))
    ensures Url.NoneOf(TrojanNetloc(node), Url.NetlocStops)
  {
    var pw := node["password"].s;
    var server := node["server"].s;
    var digits := Numerals.ShowNat(node["port"].i);
    Url.DigitsAscii(node["port"].i);
    NoneOfSubset(pw, Url.NetlocStops + {':'}, Url.NetlocStops);
    NoneOfSubset(server, Url.NetlocStops + {':', '@', '%'}, Url.NetlocStops);
    NoneOfSubset(digits, Url.NetlocStops + {':', '@', '%'}, Url.NetlocStops);
    Url.NoneOfConcat(pw, "@", Url.NetlocStops);
    Url.NoneOfConcat(pw + "@", server, Url.NetlocStops);
    Url.NoneOfConcat(pw + "@" + server, ":", Url.NetlocStops);
    Url.NoneOfConcat(pw + "@" + server + ":", digits, Url.NetlocStops);
    assert PyStr.IsAscii(TrojanNetloc(node)) by {
      var s := TrojanNetloc(node);
      forall k | 0 <= k < |s| ensures s[k] as int < 128 {
        if k < |pw| {
          assert s[k] == pw[k];
        } else if k == |pw| {
        } else if k < |pw| + 1 + |server| {
          assert s[k] == server[k - |pw| - 1];
        } else if k == |pw| + 1 + |server| {
        } else {
          assert s[k] == digits[k - |pw| - 2 - |server|];
        }
      }
    }
  }

  /** A `?query#fragment` tail (no `?` part for an empty query) splits back into its
      parts when neither part holds a character that ends it. */
  lemma TailClean(query: string, fragment: string)
    requires Url.NoneOf(query, Percent.QueryStops) && Url.NoneOf(fragment, Url.Unsafe)
    ensures var tail := (if query != "" then "?" + query else "") + "#" + fragment;
      |tail| > 0 && (tail[0] == '?' || tail[0] == '#') && Url.NoneOf(tail, Url.Unsafe) &&
      Url.SplitTail(tail) == ("", query, fragment)
  {
    var head := if query != "" then "?" + query else "";
    NoneOfSubset(query, Percent.QueryStops, Url.Unsafe);
    if query != "" {
      Url.NoneOfConcat("?", query, Url.Unsafe);
    }
    Url.NoneOfConcat(head, "#", Url.Unsafe);
    Url.NoneOfConcat(head + "#", fragment, Url.Unsafe);
    Url.NoneOfMember(query, Percent.QueryStops);
    Url.TailParts(query, fragment);
  }

  lemma TrojanTailClean(node: Node, rt: Runtime)
    requires "name" in node && node["name"].Str?
    ensures var tail := TrojanTail(node, rt);
      |tail| > 0 && (tail[0] == '?' || tail[0] == '#') && Url.NoneOf(tail, Url.Unsafe)
    ensures Url.SplitTail(TrojanTail(node, rt)) ==
              ("", Percent.UrlEncode(Outputs.TrojanQuery(node, rt)), Percent.Quote(node["name"].s))
  {
    var query := Percent.UrlEncode(Outputs.TrojanQuery(node, rt));
    var fragment := Percent.Quote(node["name"].s);
    Percent.UrlEncodeKeepsOut(Outputs.TrojanQuery(node, rt));
    Percent.QuoteKeepsOut(node["name"].s);
    NoneOfSubset(fragment, Percent.QueryStops + {'&', '='}, Url.Unsafe);
    TailClean(query, fragment);
  }

  /** The query pairs a trojan link is written with. */
  function QueryPairs(sni: Option<string>, insecure: bool): seq<(string, string)> {
    (if sni.Some? then [("sni", sni.value)] else []) + (if insecure then [("allowInsecure", "1")] else [])
  }

  /** The query reads back: the `sni` given, if any, and `allowInsecure=1` exactly
      when certificate checks were skipped. */
  lemma QueryReads(sni: Option<string>, insecure: bool)
    requires sni.Some? ==> sni.value != ""
    ensures var qs := Percent.UrlEncode(QueryPairs(sni, insecure));
      Percent.ParseQsFirst(qs, "sni") == sni &&
      (Percent.ParseQsFirst(qs, "allowInsecure") == Some("1") <==> insecure)
  {
    var pairs := QueryPairs(sni, insecure);
    var qs := Percent.UrlEncode(pairs);
    Percent.ParseQslUrlEncode(pairs);
    assert Percent.ParseQsFirst(qs, "sni") == Percent.FirstValue(pairs, "sni");
    assert Percent.ParseQsFirst(qs, "allowInsecure") == Percent.FirstValue(pairs, "allowInsecure");
    FirstValues(sni, insecure);
  }

  lemma FirstValues(sni: Option<string>, insecure: bool)
    ensures Percent.FirstValue(QueryPairs(sni, insecure), "sni") == sni
    ensures Percent.FirstValue(QueryPairs(sni, insecure), "allowInsecure") == if insecure then Some("1") else None
  {
    var pairs := QueryPairs(sni, insecure);
    if sni.Some? && insecure {
      assert pairs == [("sni", sni.value), ("allowInsecure", "1")];
      assert pairs[1..] == [("allowInsecure", "1")];
    } else if sni.Some? {
      assert pairs == [("sni", sni.value)];
    } else if insecure {
      assert pairs == [("allowInsecure", "1")];
    } else {
      assert pairs == [];
    }
  }

  lemma TrojanQueryReads(node: Node, rt: Runtime)
    requires Get(node, "sni", Null).Str? || Get(node, "sni", Null) == Null
    ensures var qs := Percent.UrlEncode(Outputs.TrojanQuery(node, rt));
      var sni := Get(node, "sni", Null);
      Percent.ParseQsFirst(qs, "sni") == (if Truthy(sni) then Some(sni.s) else None) &&
      (Percent.ParseQsFirst(qs, "allowInsecure") == Some("1") <==> Truthy(Get(node, "skip-cert-verify", Null)))
  {
    var sni := Get(node, "sni", Null);
    var given := if Truthy(sni) then Some(sni.s) else None;
    var insecure := Truthy(Get(node, "skip-cert-verify", Null));
    assert Outputs.TrojanQuery(node, rt) == QueryPairs(given, insecure);
    QueryReads(given, insecure);
  }

  /** `TrojanRecordFields` for the node built from the parts of a link. */
  lemma TrojanNodeFields(parts: Url.SplitResult, port: nat, link: string)
    requires port <= 65535
    ensures var n := Links.TrojanNode(parts, port, link);
      Links.TrojanKeys <= n.Keys &&
      n["name"] == Str(Links.TrojanRemarks(parts, port)) &&
      n["server"] == Links.OptionalStr(Url.Hostname(parts.netloc)) &&
      n["port"] == Int(port) &&
      n["password"] == Links.OptionalStr(Url.Username(parts.netloc)) &&
      n["sni"] == Links.TrojanSni(parts) &&
      n["skip-cert-verify"] == Bool(Percent.ParseQsFirst(parts.query, "allowInsecure").GetOr("0") == "1")
  {
    Links.TrojanRecordFields(
      Links.TrojanRemarks(parts, port), Url.Hostname(parts.netloc), port, Url.Username(parts.netloc),
      Links.TrojanSni(parts), Percent.ParseQsFirst(parts.query, "allowInsecure").GetOr("0") == "1", link);
  }

  /** The fields of the node read back from the parts of a regenerated link. */
  lemma TrojanNodeOfParts(pw: string, server: string, port: nat, name: string, parts: Url.SplitResult, link: string)
    requires PlainPassword(pw) && PlainServer(server) && port <= 65535 && name != ""
    requires parts.netloc == pw + "@" + server + ":" + Numerals.ShowNat(port)
    requires parts.fragment == Percent.Quote(name)
    ensures var back := Links.TrojanNode(parts, port, link);
      "name" in back && "password" in back && "server" in back &&
      back["name"] == Str(name) && back["password"] == Str(pw) && back["server"] == Str(server)
  {
    Url.NoneOfMember(pw, Url.NetlocStops + {':'});
    Url.NoneOfMember(server, Url.NetlocStops + {':', '@', '%'});
    Url.NetlocParts(pw, server, port);
    Percent.QuoteNonEmpty(name);
    Percent.UnquoteQuote(name);
    TrojanNodeFields(parts, port, link);
  }

  lemma TrojanNodeOptions(server: string, port: nat, sni: Option<string>, insecure: bool,
                          parts: Url.SplitResult, link: string)
    requires port <= 65535 && Url.Hostname(parts.netloc) == Some(server)
    requires sni.Some? ==> sni.value != ""
    requires parts.query == Percent.UrlEncode(QueryPairs(sni, insecure))
    ensures var back := Links.TrojanNode(parts, port, link);
      "sni" in back && "skip-cert-verify" in back &&
      back["sni"] == Str(if sni.Some? then sni.value else server) &&
      back["skip-cert-verify"] == Bool(insecure)
  {
    QueryReads(sni, insecure);
    TrojanNodeFields(parts, port, link);
  }

  /** The link splits into the netloc and the tail it was written with. */
  lemma TrojanLinkSplits(netloc: string, tail: string, checks: Url.Checks)
    requires netloc != "" && PyStr.IsAscii(netloc) && Url.NoneOf(netloc, Url.NetlocStops)
    requires |tail| > 0 && (tail[0] == '?' || tail[0] == '#') && Url.NoneOf(tail, Url.Unsafe)
    ensures var (path, query, fragment) := Url.SplitTail(tail);
      Url.UrlSplit("trojan" + "://" + netloc + tail, checks) == Some(Url.SplitResult("trojan", netloc, path, query, fragment))
  {
    assert Url.SchemeName("trojan");
    Url.SplitOfAssembled("trojan", netloc, tail, checks);
  }

  /** The parts `urlsplit` finds in a regenerated trojan link. */
  function TrojanParts(node: Node, rt: Runtime): (parts: Url.SplitResult)
    requires TrojanRegenerable(node)
    ensures parts.fragment == Percent.Quote(node["name"].s)
    ensures parts.netloc == TrojanNetloc(node)
  {
    Url.SplitResult("trojan", TrojanNetloc(node), "", Percent.UrlEncode(Outputs.TrojanQuery(node, rt)),
                    Percent.Quote(node["name"].s))
  }

  /** A regenerated trojan link is accepted by the parser, which builds its node
      from the parts the link was written with. */
  lemma TrojanLinkParses(node: Node, rt: Runtime)
    requires TrojanRegenerable(node)
    ensures Outputs.TrojanLink(node, rt).Ok?
    ensures var link := Outputs.TrojanLink(node, rt).value;
      Links.ParseTrojan(link, rt) == Some(Links.TrojanNode(TrojanParts(node, rt), node["port"].i, link))
  {
    var pw, server, port := node["password"].s, node["server"].s, node["port"].i;
    var netloc := TrojanNetloc(node);
    var tail := TrojanTail(node, rt);
    var link := "trojan" + "://" + netloc + tail;
    TrojanLinkShape(node, rt);
    TrojanNetlocClean(node);
    TrojanTailClean(node, rt);
    TrojanLinkSplits(netloc, tail, rt.urlChecks);
    var parts := TrojanParts(node, rt);
    assert Url.UrlSplit(link, rt.urlChecks) == Some(parts);
    Url.NoneOfMember(pw, Url.NetlocStops + {':'});
    Url.NoneOfMember(server, Url.NetlocStops + {':', '@', '%'});
    Url.NetlocParts(pw, server, port);
    TrojanPrefixed(netloc + tail);
    ParseTrojanOfParts(link, parts, port, rt);
  }

  lemma TrojanPrefixed(rest: string)
    ensures PyStr.StartsWith("trojan" + "://" + rest, Links.TrojanPrefix)
  {
    var link := "trojan" + "://" + rest;
    assert link[..|Links.TrojanPrefix|] == Links.TrojanPrefix;
  }

  /** The parser builds its node from the parts `urlsplit` finds. */
  lemma ParseTrojanOfParts(link: string, parts: Url.SplitResult, port: nat, rt: Runtime)
    requires PyStr.StartsWith(link, Links.TrojanPrefix)
    requires Url.UrlSplit(link, rt.urlChecks) == Some(parts)
    requires Url.PortOf(parts.netloc) == Url.PortNumber(port)
    ensures Links.ParseTrojan(link, rt) == Some(Links.TrojanNode(parts, port, link))
  {
  }

  /** A regenerated trojan link parses back to the node's name, password, server,
      port, SNI (the server when the node had none) and certificate option. */
  lemma TrojanRoundTrip(node: Node, rt: Runtime)
    requires TrojanRegenerable(node)
    ensures Outputs.TrojanLink(node, rt).Ok?
    ensures var back := Links.ParseTrojan(Outputs.TrojanLink(node, rt).value, rt);
      back.Some? &&
      back.value["name"] == node["name"] && back.value["password"] == node["password"] &&
      back.value["server"] == node["server"] && back.value["port"] == node["port"] &&
      back.value["sni"] == (if Truthy(Get(node, "sni", Null)) then node["sni"] else node["server"]) &&
      back.value["skip-cert-verify"] == Bool(Truthy(Get(node, "skip-cert-verify", Null)))
  {
    var pw, server, port, name := node["password"].s, node["server"].s, node["port"].i, node["name"].s;
    var sniValue := Get(node, "sni", Null);
    var sni := if Truthy(sniValue) then Some(sniValue.s) else None;
    var insecure := Truthy(Get(node, "skip-cert-verify", Null));
    TrojanLinkParses(node, rt);
    var link := Outputs.TrojanLink(node, rt).value;
    var parts := TrojanParts(node, rt);
    TrojanNodeFields(parts, port, link);
    TrojanNodeOfParts(pw, server, port, name, parts, link);
    Url.NoneOfMember(pw, Url.NetlocStops + {':'});
    Url.NoneOfMember(server, Url.NetlocStops + {':', '@', '%'});
    Url.NetlocParts(pw, server, port);
    assert Outputs.TrojanQuery(node, rt) == QueryPairs(sni, insecure);
    TrojanNodeOptions(server, port, sni, insecure, parts, link);
  }

  // ---------------------------------------------------------------------------
  // vmess

  /** The JSON codec reads back what it writes for this value. */
  predicate JsonReadsBack(rt: Runtime, v: Value) {
    rt.jsonLoads(rt.jsonDumps(v)) == Some(v)
  }

  /** A vmess node whose link can be written, with numeric port and alterId. */
  predicate VmessRegenerable(node: Node, rt: Runtime) {
    Outputs.VmessObject(node, rt).Ok? && node["port"].Int? && Get(node, "alterId", Int(0)).Int?
  }

  /** The object a regenerated link carries, with its empty fields dropped. */
  function VmessPayloadOf(node: Node, rt: Runtime): map<string, Value>
    requires Outputs.VmessObject(node, rt).Ok?
  {
    Outputs.DropFalsy(Outputs.VmessObject(node, rt).value)
  }

  /** The payload of a regenerated link decodes to the object it was written from. */
  lemma VmessPayloadReadsBack(node: Node, rt: Runtime)
    requires Outputs.VmessObject(node, rt).Ok?
    requires JsonReadsBack(rt, Dict(VmessPayloadOf(node, rt)))
    ensures Links.VmessPayload(Outputs.VmessLink(node, rt).value, rt) == Some(VmessPayloadOf(node, rt))
  {
    var text := rt.jsonDumps(Dict(VmessPayloadOf(node, rt)));
    var bytes := Utf8.Encode(text);
    var payload := Base64.Encode(bytes);
    var link := Links.VmessPrefix + payload;
    assert Outputs.VmessLink(node, rt).value == link;
    assert link[|Links.VmessPrefix|..] == payload;
    assert link[..|Links.VmessPrefix|] == Links.VmessPrefix;
    Base64.DecodeEncode(bytes);
    Utf8.DecodeEncode(text);
  }

  /** The fields of the object a regenerated link carries. */
  lemma VmessObjectFields(node: Node, rt: Runtime)
    requires Outputs.VmessObject(node, rt).Ok?
    ensures var obj := Outputs.VmessObject(node, rt).value;
      obj["ps"] == node["name"] && obj["add"] == node["server"] && obj["id"] == node["uuid"] &&
      obj["port"] == Str(Display(node["port"], rt)) &&
      obj["aid"] == Str(Display(Get(node, "alterId", Int(0)), rt)) &&
      obj["net"] == Get(node, "network", Str("tcp")) &&
      obj["tls"] == Str(if Truthy(Get(node, "tls", Null)) then "tls" else "")
  {
    var tls := Truthy(Get(node, "tls", Null));
    Outputs.VmessRecordFields(node["name"], node["server"], Display(node["port"], rt), node["uuid"],
                              Display(Get(node, "alterId", Int(0)), rt), Get(node, "network", Str("tcp")),
                              Outputs.WsFields(node).value.0, Outputs.WsFields(node).value.1, tls,
                              if tls then Get(node, "sni", Str("")) else Str(""), Get(node, "cipher", Str("auto")));
  }

  /** The payload's port and alterId are the node's, written out in decimal. */
  lemma VmessPayloadNumbers(node: Node, rt: Runtime)
    requires VmessRegenerable(node, rt)
    ensures PyInt(Get(VmessPayloadOf(node, rt), "port", Int(0))) == Ok(node["port"].i)
    ensures PyInt(Get(VmessPayloadOf(node, rt), "aid", Int(0))) == Ok(Get(node, "alterId", Int(0)).i)
  {
    var obj := Outputs.VmessObject(node, rt).value;
    VmessObjectFields(node, rt);
    ShownNumberKept(obj, "port", node["port"].i);
    ShownNumberKept(obj, "aid", Get(node, "alterId", Int(0)).i);
  }

  /** A number written out in decimal survives `DropFalsy` and `int()` reads it back. */
  lemma ShownNumberKept(obj: map<string, Value>, key: string, i: int)
    requires key in obj && obj[key] == Str(Numerals.ShowInt(i))
    ensures PyInt(Get(Outputs.DropFalsy(obj), key, Int(0))) == Ok(i)
  {
    Numerals.ParseShow(i);
  }

  /** The payload keeps each non-empty field of the object. */
  lemma VmessPayloadKeeps(node: Node, rt: Runtime)
    requires Outputs.VmessObject(node, rt).Ok?
    ensures var d := VmessPayloadOf(node, rt);
      (Truthy(node["name"]) ==> Get(d, "ps", Str("Unnamed VMess")) == node["name"]) &&
      (Truthy(node["server"]) ==> Get(d, "add", Null) == node["server"]) &&
      (Truthy(node["uuid"]) ==> Get(d, "id", Null) == node["uuid"]) &&
      (Truthy(Get(node, "network", Str("tcp"))) ==> Get(d, "net", Null) == Get(node, "network", Str("tcp"))) &&
      (Get(d, "tls", Null) == Str("tls") <==> Truthy(Get(node, "tls", Null)))
  {
    VmessObjectFields(node, rt);
  }

  /** A regenerated vmess link parses to the node built from its payload. */
  lemma VmessParsesToPayloadNode(node: Node, rt: Runtime)
    requires VmessRegenerable(node, rt)
    requires JsonReadsBack(rt, Dict(VmessPayloadOf(node, rt)))
    ensures Links.VmessNode(VmessPayloadOf(node, rt), Outputs.VmessLink(node, rt).value).Ok?
    ensures Links.ParseVmess(Outputs.VmessLink(node, rt).value, rt) ==
              Some(Links.VmessNode(VmessPayloadOf(node, rt), Outputs.VmessLink(node, rt).value).value)
  {
    VmessPayloadReadsBack(node, rt);
    VmessPayloadNumbers(node, rt);
  }

  /** A regenerated vmess link parses back to the node's port, alterId and TLS
      switch, and to its name, server, uuid and network whenever those are not
      empty (empty fields are left out of the link). */
  lemma VmessRoundTrip(node: Node, rt: Runtime)
    requires VmessRegenerable(node, rt)
    requires JsonReadsBack(rt, Dict(VmessPayloadOf(node, rt)))
    ensures Outputs.VmessLink(node, rt).Ok?
    ensures var back := Links.ParseVmess(Outputs.VmessLink(node, rt).value, rt);
      back.Some? &&
      back.value["port"] == node["port"] &&
      back.value["alterId"] == Get(node, "alterId", Int(0)) &&
      back.value["tls"] == Bool(Truthy(Get(node, "tls", Null))) &&
      (Truthy(node["name"]) ==> back.value["name"] == node["name"]) &&
      (Truthy(node["server"]) ==> back.value["server"] == node["server"]) &&
      (Truthy(node["uuid"]) ==> back.value["uuid"] == node["uuid"]) &&
      (Truthy(Get(node, "network", Str("tcp"))) ==> back.value["network"] == Get(node, "network", Str("tcp")))
  {
    var d := VmessPayloadOf(node, rt);
    var link := Outputs.VmessLink(node, rt).value;
    VmessParsesToPayloadNode(node, rt);
    VmessPayloadNumbers(node, rt);
    VmessPayloadKeeps(node, rt);
    Links.VmessNodeFields(d, link);
  }
}

=== FILE: subscription.dfy ===
/** Turning one fetched subscription into nodes (`fetch_and_parse_subscription`):
    the body is read as Clash YAML, as sing-box JSON, or as a base64 list of share
    links, tried in that order; a body that is not base64 after all is read as plain
    lines of links. Every error is caught, and the nodes collected so far are returned. */
module Subscription {
  import opened Wrappers
  import opened Values
  import PyStr
  import Utf8
  import Base64
  import Links

  /** The outcome of the HTTP request: a request error or an error status (both end
      in the catch-all handlers), or the decoded body. */
  datatype Fetch = FetchFailed | Fetched(body: string)

  datatype Format = ClashYaml | SingboxJson | LinkList

  /** The Clash test: the text mentions `proxies:` and either `Proxy` or `proxy-groups`. */
  predicate LooksLikeClash(content: string) {
    PyStr.Contains(content, "proxies:") &&
    (PyStr.Contains(content, "Proxy") || PyStr.Contains(content, "proxy-groups"))
  }

  /** The sing-box test: the text starts with `{` and mentions `"outbounds"` with its quotes. */
  predicate LooksLikeSingbox(content: string) {
    PyStr.StartsWith(content, "{") && PyStr.Contains(content, "\"outbounds\"")
  }

  /** The format a body is read as: the first test that passes wins, and a body
      passing neither is a link list. */
  function Classify(content: string): (f: Format)
    ensures f == ClashYaml <==> LooksLikeClash(content)
    ensures f == SingboxJson <==> !LooksLikeClash(content) && LooksLikeSingbox(content)
    ensures f == LinkList <==> !LooksLikeClash(content) && !LooksLikeSingbox(content)
  {
    if LooksLikeClash(content) then ClashYaml
    else if LooksLikeSingbox(content) then SingboxJson
    else LinkList
  }

  /** How many leading items are dictionaries. `{**item}` and `item.get` raise on
      the first item that is not one, which ends the loop with what was collected. */
  function DictPrefix(items: seq<Value>): (n: nat)
    ensures n <= |items|
    ensures forall k :: 0 <= k < n ==> items[k].Dict?
    ensures n < |items| ==> !items[n].Dict?
  {
    if |items| == 0 || !items[0].Dict? then 0 else 1 + DictPrefix(items[1..])
  }

  /** `{**item, "_source_format": tag}` for each leading dictionary item. */
  function TagDicts(items: seq<Value>, tag: string): (r: seq<Node>)
    ensures |r| == DictPrefix(items)
    ensures forall k :: 0 <= k < |r| ==> r[k] == items[k].fields["_source_format" := Str(tag)]
  {
    if |items| == 0 || !items[0].Dict? then []
    else [items[0].fields["_source_format" := Str(tag)]] + TagDicts(items[1..], tag)
  }

  /** The nodes of a Clash document. A document that is not a mapping (an empty
      text loads as `None`) has no `get`; a `proxies` value that is not a list
      raises on its first element or has none. */
  function ClashNodes(doc: Option<Value>): (r: seq<Node>)
    ensures r != [] ==> doc.Some? && doc.value.Dict? && "proxies" in doc.value.fields &&
                        doc.value.fields["proxies"].List?
    ensures forall k :: 0 <= k < |r| ==> Tagged(r[k], "clash_dict")
    ensures doc.Some? && doc.value.Dict? && Get(doc.value.fields, "proxies", List([])).List? ==>
              r == TagDicts(Get(doc.value.fields, "proxies", List([])).items, "clash_dict")
    ensures !(doc.Some? && doc.value.Dict? && Get(doc.value.fields, "proxies", List([])).List?) ==> r == []
  {
    match doc
    case Some(Dict(fields)) =>
      (match Get(fields, "proxies", List([]))
       case List(items) => TagDicts(items, "clash_dict")
       case _ => [])
    case _ => []
  }

  /** The node records the format it came from. */
  predicate Tagged(n: Node, tag: string) {
    "_source_format" in n && n["_source_format"] == Str(tag)
  }

  /** The outbound types a sing-box document contributes. */
  const SingboxTypes: set<string> := {"vmess", "trojan", "shadowsocks", "vless", "hysteria2"}

  predicate KeptOutbound(fields: map<string, Value>) {
    var t := Get(fields, "type", Null);
    t.Str? && t.s in SingboxTypes
  }

  /** The outbounds of the kept types, tagged, up to the first item that is not
      a dictionary. */
  function KeepOutbounds(items: seq<Value>): (r: seq<Node>)
    ensures |r| <= DictPrefix(items)
    ensures forall n :: n in r ==> KeptOutbound(n) && Tagged(n, "singbox_dict")
    ensures forall k :: 0 <= k < DictPrefix(items) && KeptOutbound(items[k].fields) ==>
              items[k].fields["_source_format" := Str("singbox_dict")] in r
  {
    if |items| == 0 || !items[0].Dict? then []
    else
      var rest := KeepOutbounds(items[1..]);
      assert forall k :: 1 <= k < DictPrefix(items) ==> items[k] == items[1..][k - 1];
      if KeptOutbound(items[0].fields) then [items[0].fields["_source_format" := Str("singbox_dict")]] + rest
      else rest
  }

  /** Dictionaries before the rest are handled one by one: the kept outbounds of
      `a + b` are those of `a`, in order, followed by those of `b`. */
  lemma {:induction false} KeepOutboundsAppend(a: seq<Value>, b: seq<Value>)
    requires forall k :: 0 <= k < |a| ==> a[k].Dict?
    ensures KeepOutbounds(a + b) == KeepOutbounds(a) + KeepOutbounds(b)
  {
    if |a| > 0 {
      assert (a + b)[1..] == a[1..] + b;
      KeepOutboundsAppend(a[1..], b);
    } else {
      assert a + b == b;
    }
  }

  /** A single item is kept, tagged, exactly when it is a dictionary of a kept type. */
  lemma KeepOutboundsOne(item: Value)
    ensures KeepOutbounds([item]) ==
              if item.Dict? && KeptOutbound(item.fields) then [item.fields["_source_format" := Str("singbox_dict")]] else []
  {
    if item.Dict? {
      assert [item][1..] == [];
    }
  }

  function SingboxNodes(doc: Option<Value>): (r: seq<Node>)
    ensures r != [] ==> doc.Some? && doc.value.Dict?
    ensures forall n :: n in r ==> KeptOutbound(n) && Tagged(n, "singbox_dict")
    ensures doc.Some? && doc.value.Dict? && Get(doc.value.fields, "outbounds", List([])).List? ==>
              r == KeepOutbounds(Get(doc.value.fields, "outbounds", List([])).items)
    ensures !(doc.Some? && doc.value.Dict? && Get(doc.value.fields, "outbounds", List([])).List?) ==> r == []
  {
    match doc
    case Some(Dict(fields)) =>
      (match Get(fields, "outbounds", List([]))
       case List(items) => KeepOutbounds(items)
       case _ => [])
    case _ => []
  }

  /** One line of a link list: stripped, then handed to the parser its scheme names;
      any other line is dropped. */
  function ParseLine(line: string, rt: Runtime): (r: Option<Node>)
    ensures r.Some? ==> "_original_link" in r.value && r.value["_original_link"] == Str(PyStr.Strip(line))
    ensures r.Some? ==> PyStr.StartsWith(PyStr.Strip(line), Links.VmessPrefix) ||
                        PyStr.StartsWith(PyStr.Strip(line), Links.TrojanPrefix)
  {
    var link := PyStr.Strip(line);
    if PyStr.StartsWith(link, Links.VmessPrefix) then Links.ParseVmess(link, rt)
    else if PyStr.StartsWith(link, Links.TrojanPrefix) then Links.ParseTrojan(link, rt)
    else None
  }

  /** The nodes that are present, in order. */
  function Collect(results: seq<Option<Node>>): (r: seq<Node>)
    ensures |r| <= |results|
    ensures forall n :: n in r ==> Some(n) in results
  {
    if |results| == 0 then []
    else if results[0].Some? then [results[0].value] + Collect(results[1..])
    else Collect(results[1..])
  }

  /** Collecting is done result by result. */
  lemma {:induction false} CollectAppend(a: seq<Option<Node>>, b: seq<Option<Node>>)
    ensures Collect(a + b) == Collect(a) + Collect(b)
  {
    if |a| > 0 {
      assert (a + b)[1..] == a[1..] + b;
      CollectAppend(a[1..], b);
    } else {
      assert a + b == b;
    }
  }

  /** When every result is present, all of them are kept, in order. */
  lemma {:induction false} CollectKeepsAll(results: seq<Option<Node>>)
    requires forall k :: 0 <= k < |results| ==> results[k].Some?
    ensures |Collect(results)| == |results|
    ensures forall k :: 0 <= k < |results| ==> Collect(results)[k] == results[k].value
  {
    if |results| > 0 {
      CollectKeepsAll(results[1..]);
    }
  }

  /** What each line of a link list parses to. */
  function ParsedLines(lines: seq<string>, rt: Runtime): (r: seq<Option<Node>>)
    ensures |r| == |lines|
    ensures forall k :: 0 <= k < |lines| ==> r[k] == ParseLine(lines[k], rt)
  {
    seq(|lines|, k requires 0 <= k < |lines| => ParseLine(lines[k], rt))
  }

  /** The nodes of the lines that parse, in line order. */
  function ParseLines(lines: seq<string>, rt: Runtime): (r: seq<Node>)
    ensures |r| <= |lines|
    ensures forall n: Node :: n in r ==> "_original_link" in n && n["_original_link"].Str?
  {
    var parsed := ParsedLines(lines, rt);
    assert forall o :: o in parsed && o.Some? ==> "_original_link" in o.value && o.value["_original_link"].Str? by {
      forall o | o in parsed && o.Some? ensures "_original_link" in o.value && o.value["_original_link"].Str? {
        var k :| 0 <= k < |parsed| && parsed[k] == o;
      }
    }
    Collect(parsed)
  }

  /** The lines are read one after another: the nodes of `x + y` are those of `x`
      followed by those of `y`. */
  lemma ParseLinesAppend(x: seq<string>, y: seq<string>, rt: Runtime)
    ensures ParseLines(x + y, rt) == ParseLines(x, rt) + ParseLines(y, rt)
  {
    ParsedLinesAppend(x, y, rt);
    CollectAppend(ParsedLines(x, rt), ParsedLines(y, rt));
  }

  lemma ParsedLinesAppend(x: seq<string>, y: seq<string>, rt: Runtime)
    ensures ParsedLines(x + y, rt) == ParsedLines(x, rt) + ParsedLines(y, rt)
  {
    var whole, left, right := ParsedLines(x + y, rt), ParsedLines(x, rt), ParsedLines(y, rt);
    forall k | 0 <= k < |x| + |y| ensures whole[k] == (left + right)[k] {
      if k < |x| {
        assert (x + y)[k] == x[k];
      } else {
        assert (x + y)[k] == y[k - |x|];
      }
    }
  }

  /** One line gives its node when it parses and nothing otherwise. */
  lemma ParseLinesOne(line: string, rt: Runtime)
    ensures ParseLines([line], rt) == if ParseLine(line, rt).Some? then [ParseLine(line, rt).value] else []
  {
    assert ParsedLines([line], rt) == [ParseLine(line, rt)];
    assert ParsedLines([line], rt)[1..] == [];
  }

  /** When every line parses, every line contributes its node. */
  lemma ParseLinesKeepsAll(lines: seq<string>, rt: Runtime)
    requires forall k :: 0 <= k < |lines| ==> ParseLine(lines[k], rt).Some?
    ensures |ParseLines(lines, rt)| == |lines|
    ensures forall k :: 0 <= k < |lines| ==> ParseLines(lines, rt)[k] == ParseLine(lines[k], rt).value
  {
    CollectKeepsAll(ParsedLines(lines, rt));
  }

  /** A link list: base64 of UTF-8 text, one link per line; when decoding fails the
      body itself is read line by line. */
  function LinkListNodes(content: string, rt: Runtime): (r: seq<Node>)
    ensures Base64.Decode(content).Some? && Utf8.Decode(Base64.Decode(content).value).Some? ==>
              r == ParseLines(PyStr.SplitLines(Utf8.Decode(Base64.Decode(content).value).value), rt)
    ensures Base64.Decode(content).None? || Utf8.Decode(Base64.Decode(content).value).None? ==>
              r == ParseLines(PyStr.SplitLines(content), rt)
    ensures forall n: Node :: n in r ==> "_original_link" in n && n["_original_link"].Str?
  {
    match Base64.Decode(content)
    case Some(bytes) =>
      (match Utf8.Decode(bytes)
       case Some(text) => ParseLines(PyStr.SplitLines(text), rt)
       case None => ParseLines(PyStr.SplitLines(content), rt))
    case None => ParseLines(PyStr.SplitLines(content), rt)
  }

  /** `fetch_and_parse_subscription`: the nodes of one subscription. It never raises. */
  function FetchNodes(fetch: Fetch, rt: Runtime): (r: seq<Node>)
    ensures fetch.FetchFailed? ==> r == []
    ensures fetch.Fetched? && Classify(fetch.body) == ClashYaml ==>
              forall n :: n in r ==> Tagged(n, "clash_dict")
    ensures fetch.Fetched? && Classify(fetch.body) == SingboxJson ==>
              forall n :: n in r ==> KeptOutbound(n) && Tagged(n, "singbox_dict")
    ensures fetch.Fetched? && Classify(fetch.body) == LinkList ==>
              forall n: Node :: n in r ==> "_original_link" in n && n["_original_link"].Str?
    ensures fetch.Fetched? && Classify(fetch.body) == ClashYaml ==> r == ClashNodes(rt.yamlLoad(fetch.body))
    ensures fetch.Fetched? && Classify(fetch.body) == SingboxJson ==> r == SingboxNodes(rt.jsonLoads(fetch.body))
    ensures fetch.Fetched? && Classify(fetch.body) == LinkList ==> r == LinkListNodes(fetch.body, rt)
  {
    match fetch
    case FetchFailed => []
    case Fetched(content) =>
      match Classify(content)
      case ClashYaml => ClashNodes(rt.yamlLoad(content))
      case SingboxJson => SingboxNodes(rt.jsonLoads(content))
      case LinkList => LinkListNodes(content, rt)
  }

  // ---------------------------------------------------------------------------
  // The base64 attempt on a plain list of links

  /** A body that is itself a list of vmess or trojan links (and does not pass the
      Clash test) is never mistaken for base64: the first two characters would
      decode to a byte `0xBE` or `0xB6`, which cannot start UTF-8 text, so the body is
      read line by line as it stands. */
  lemma PlainLinksFallBack(content: string, rt: Runtime)
    requires PyStr.StartsWith(content, Links.VmessPrefix) || PyStr.StartsWith(content, Links.TrojanPrefix)
    requires !LooksLikeClash(content)
    ensures FetchNodes(Fetched(content), rt) == ParseLines(PyStr.SplitLines(content), rt)
  {
    assert content[0] == Links.VmessPrefix[0] || content[0] == Links.TrojanPrefix[0];
    assert !LooksLikeSingbox(content);
    assert content[1] == 'm' || content[1] == 'r';
    Base64.DecodeFirstByte(content);
    match Base64.Decode(content)
    case None =>
    case Some(bytes) =>
      assert bytes[0] == 190 || bytes[0] == 182;
      Utf8.LeadingContinuationFails(bytes);
  }

  // ---------------------------------------------------------------------------
  // The v2rayN link list as a subscription body

  /** The body of a v2rayN subscription: the links joined by newlines, UTF-8 encoded,
      base64 encoded. */
  function EncodeLinkList(links: seq<string>): (r: string)
    ensures Base64Text(r)
  {
    Base64.Encode(Utf8.Encode(PyStr.Join("\n", links)))
  }

  predicate Base64Text(s: string) {
    forall k :: 0 <= k < |s| ==> Base64.InAlphabet(s[k]) || s[k] == '='
  }

  lemma NoProxiesAt(s: string, i: nat)
    requires Base64Text(s)
    ensures !PyStr.OccursAt(s, "proxies:", i)
  {
    if i + 8 <= |s| {
      assert s[i..i + 8][7] == s[i + 7];
    }
  }

  /** Text made of base64 characters passes neither the Clash nor the sing-box test. */
  lemma EncodedIsLinkList(s: string)
    requires Base64Text(s)
    ensures Classify(s) == LinkList
  {
    forall i: nat
      ensures !PyStr.OccursAt(s, "proxies:", i)
    {
      NoProxiesAt(s, i);
    }
    assert !PyStr.Contains(s, "proxies:");
    if |s| > 0 {
      assert s[..1][0] == s[0];
    }
    assert !PyStr.StartsWith(s, "{");
  }

  /** A link that survives the line handling unchanged: not empty and no line
      break inside. */
  predicate CleanLine(link: string) {
    |link| > 0 && PyStr.NoLineBreak(link)
  }

  /** Reading back a v2rayN body: the links come out of the base64 and line
      handling unchanged, and are parsed as if they had been given as plain lines. */
  lemma LinkListRoundTrip(links: seq<string>, rt: Runtime)
    requires forall k :: 0 <= k < |links| ==> CleanLine(links[k])
    ensures FetchNodes(Fetched(EncodeLinkList(links)), rt) == ParseLines(links, rt)
  {
    var text := PyStr.Join("\n", links);
    var bytes := Utf8.Encode(text);
    var body := EncodeLinkList(links);
    EncodedIsLinkList(body);
    Base64.DecodeEncode(bytes);
    assert Base64.Decode(body) == Some(bytes);
    Utf8.DecodeEncode(text);
    assert Utf8.Decode(bytes) == Some(text);
    PyStr.SplitLinesOfJoin(links);
    assert LinkListNodes(body, rt) == ParseLines(links, rt);
  }
}

=== FILE: urls.dfy ===
/** `urllib.parse.urlsplit` and the `username`, `hostname` and `port` attributes of
    its result, as the trojan link parser uses them. */
module Url {
  import opened Wrappers
  import PyStr
  import Numerals

  /** The checks `urlsplit` delegates to other library code: the validation of a
      bracketed host through `ipaddress`, and the NFKC test of a non-ASCII netloc. */
  datatype Checks = Checks(bracketedHostOk: string -> bool, netlocNormalizesOk: string -> bool)

  datatype SplitResult = SplitResult(scheme: string, netloc: string, path: string, query: string, fragment: string)

  /** The port attribute: no port, a port number, or the `ValueError` it raises. */
  datatype Port = NoPort | PortNumber(n: nat) | BadPort

  /** Drop leading control characters and spaces (U+0000 to U+0020), as `urlsplit`
      does before anything else. */
  function LStripControl(s: string): (r: string)
    ensures |r| <= |s| && r == s[|s| - |r|..]
    ensures |r| > 0 ==> r[0] as int > 32
  {
    if |s| > 0 && s[0] as int <= 32 then LStripControl(s[1..]) else s
  }

  /** The text `urlsplit` works on: leading controls stripped, tab and newlines removed. */
  function Clean(url: string): (r: string)
    ensures forall c :: c in r ==> c !in Unsafe
  {
    PyStr.RemoveChars(LStripControl(url), Unsafe)
  }

  /** Removed from anywhere in the URL. */
  const Unsafe: set<char> := {'\t', '\r', '\n'}

  predicate SchemeChar(c: char) {
    PyStr.IsAsciiLetter(c) || PyStr.IsAsciiDigit(c) || c == '+' || c == '-' || c == '.'
  }

  /** Index of the first character of `s` that belongs to `cs`, or `|s|`. */
  function FirstOf(s: string, cs: set<char>): (k: nat)
    ensures k <= |s|
    ensures forall m :: 0 <= m < k ==> s[m] !in cs
    ensures k < |s| ==> s[k] in cs
  {
    if |s| == 0 || s[0] in cs then 0 else 1 + FirstOf(s[1..], cs)
  }

  /** The scheme and the remainder: a scheme is recognised before the first `:` when it
      starts with an ASCII letter and is made of scheme characters only. */
  function SplitScheme(url: string): (r: (string, string))
  {
    match PyStr.IndexOf(url, ':')
    case Some(i) =>
      if i > 0 && PyStr.IsAsciiLetter(url[0]) && (forall k :: 0 <= k < i ==> SchemeChar(url[k]))
      then (PyStr.Lower(url[..i]), url[i + 1..])
      else ("", url)
    case None => ("", url)
  }

  /** Brackets in the netloc must pair up, and a bracketed host must pass the checks. */
  predicate BracketsOk(netloc: string, checks: Checks) {
    var open := '[' in netloc;
    var close := ']' in netloc;
    (open <==> close) &&
    (open ==> checks.bracketedHostOk(PyStr.Partition(PyStr.Partition(netloc, '[').2, ']').0))
  }

  /** After the scheme: a netloc runs from `//` to the first `/`, `?` or `#`. */
  function SplitNetloc(rest: string): (r: (string, string))
    ensures '/' !in r.0 && '?' !in r.0 && '#' !in r.0
  {
    if PyStr.StartsWith(rest, "//") then
      var after := rest[2..];
      var n := FirstOf(after, {'/', '?', '#'});
      assert forall c :: c in after[..n] ==> c !in {'/', '?', '#'};
      (after[..n], after[n..])
    else ("", rest)
  }

  /** The path, query and fragment: the fragment follows the first `#`, and the query
      the first `?` before it. */
  function SplitTail(tail: string): (r: (string, string, string))
    ensures '#' !in r.0 && '?' !in r.0 && '#' !in r.1
  {
    var (beforeHash, _, fragment) := PyStr.Partition(tail, '#');
    var (path, _, query) := PyStr.Partition(beforeHash, '?');
    (path, query, fragment)
  }

  /** `urlsplit(url)`; `None` stands for the `ValueError` it raises. */
  function UrlSplit(url: string, checks: Checks): (r: Option<SplitResult>)
    ensures r.Some? ==> '/' !in r.value.netloc && '?' !in r.value.netloc && '#' !in r.value.netloc
    ensures r.Some? ==> '#' !in r.value.path && '?' !in r.value.path && '#' !in r.value.query
  {
    var (scheme, rest) := SplitScheme(Clean(url));
    var (netloc, tail) := SplitNetloc(rest);
    if PyStr.StartsWith(rest, "//") && !BracketsOk(netloc, checks) then None
    else if netloc != "" && !PyStr.IsAscii(netloc) && !checks.netlocNormalizesOk(netloc) then None
    else
      var (path, query, fragment) := SplitTail(tail);
      Some(SplitResult(scheme, netloc, path, query, fragment))
  }

  /** `username`: the text before the first `:` of everything before the last `@`. */
  function Username(netloc: string): (r: Option<string>)
    ensures r.Some? <==> '@' in netloc
    ensures r.Some? ==> ':' !in r.value
  {
    var (userinfo, hasAt, _) := PyStr.RPartition(netloc, '@');
    if hasAt then Some(PyStr.Partition(userinfo, ':').0) else None
  }

  /** The host and port text after the last `@`; brackets delimit an IPv6 host. */
  function HostInfo(netloc: string): (r: (string, string))
  {
    var hostinfo := PyStr.RPartition(netloc, '@').2;
    var (_, bracketed, inner) := PyStr.Partition(hostinfo, '[');
    if bracketed then
      var (host, _, afterBracket) := PyStr.Partition(inner, ']');
      (host, PyStr.Partition(afterBracket, ':').2)
    else
      var (host, _, port) := PyStr.Partition(hostinfo, ':');
      (host, port)
  }

  /** `hostname`: absent when empty; lower-cased up to a `%` zone, which is kept as is. */
  function Hostname(netloc: string): (r: Option<string>)
    ensures r.Some? <==> HostInfo(netloc).0 != ""
  {
    var host := HostInfo(netloc).0;
    if host == "" then None
    else
      var (name, hasZone, zone) := PyStr.Partition(host, '%');
      Some(PyStr.Lower(name) + (if hasZone then "%" else "") + zone)
  }

  /** `port`: absent when empty; ASCII digits in the range 0..65535 give the number;
      anything else raises `ValueError`. */
  function PortOf(netloc: string): (r: Port)
    ensures r.PortNumber? ==> r.n <= 65535
    ensures HostInfo(netloc).1 == "" <==> r.NoPort?
  {
    var text := HostInfo(netloc).1;
    if text == "" then NoPort
    else if Numerals.AllDigits(text) then
      var n := Numerals.DigitsValue(text);
      if n <= 65535 then PortNumber(n) else BadPort
    else BadPort
  }

  // ---------------------------------------------------------------------------
  // Reading back an assembled URL

  predicate NoneOf(s: string, cs: set<char>) {
    forall k :: 0 <= k < |s| ==> s[k] !in cs
  }

  lemma NoneOfConcat(a: string, b: string, cs: set<char>)
    ensures NoneOf(a + b, cs) <==> NoneOf(a, cs) && NoneOf(b, cs)
  {
    if NoneOf(a, cs) && NoneOf(b, cs) {
      forall k | 0 <= k < |a + b| ensures (a + b)[k] !in cs {
        if k >= |a| {
          assert (a + b)[k] == b[k - |a|];
        }
      }
    }
    if NoneOf(a + b, cs) {
      forall k | 0 <= k < |a| ensures a[k] !in cs {
        assert (a + b)[k] == a[k];
      }
      forall k | 0 <= k < |b| ensures b[k] !in cs {
        assert (a + b)[|a| + k] == b[k];
      }
    }
  }

  lemma NoneOfMember(s: string, cs: set<char>)
    requires NoneOf(s, cs)
    ensures forall c :: c in s ==> c !in cs
  {
    forall c | c in s ensures c !in cs {
      var k :| 0 <= k < |s| && s[k] == c;
    }
  }

  lemma CleanKeeps(url: string)
    requires |url| > 0 && url[0] as int > 32 && NoneOf(url, Unsafe)
    ensures Clean(url) == url
  {
    NoneOfMember(url, Unsafe);
  }

  /** A lower-case ASCII scheme name. */
  predicate SchemeName(scheme: string) {
    |scheme| > 0 && forall k :: 0 <= k < |scheme| ==> 'a' <= scheme[k] <= 'z'
  }

  /** The characters a netloc written between `//` and a query or fragment must avoid. */
  const NetlocStops: set<char> := {'/', '?', '#', '[', ']', '\t', '\r', '\n'}

  lemma AssembledClean(scheme: string, netloc: string, tail: string)
    requires SchemeName(scheme) && NoneOf(netloc, NetlocStops) && NoneOf(tail, Unsafe)
    ensures Clean(scheme + "://" + netloc + tail) == scheme + "://" + netloc + tail
  {
    var url := scheme + "://" + netloc + tail;
    assert NoneOf(scheme, Unsafe);
    assert NoneOf("://", Unsafe);
    assert NoneOf(netloc, Unsafe);
    NoneOfConcat(scheme, "://", Unsafe);
    NoneOfConcat(scheme + "://", netloc, Unsafe);
    NoneOfConcat(scheme + "://" + netloc, tail, Unsafe);
    assert url[0] == scheme[0];
    CleanKeeps(url);
  }

  /** The netloc of `//netloc` followed by a `?` or `#` tail ends where the tail starts. */
  lemma NetlocOfAssembled(netloc: string, tail: string)
    requires NoneOf(netloc, NetlocStops)
    requires |tail| > 0 && (tail[0] == '?' || tail[0] == '#')
    ensures
      var after := netloc + tail;
      var n := FirstOf(after, {'/', '?', '#'});
      after[..n] == netloc && after[n..] == tail
  {
    NoneOfMember(netloc, NetlocStops);
    FirstOfPrefix(netloc, tail, {'/', '?', '#'});
    assert (netloc + tail)[..|netloc|] == netloc;
    assert (netloc + tail)[|netloc|..] == tail;
  }

  /** `scheme://netloc` followed by a `?` or `#` tail splits into the scheme, the netloc,
      and the path, query and fragment the tail holds. */
  lemma SplitOfAssembled(scheme: string, netloc: string, tail: string, checks: Checks)
    requires SchemeName(scheme)
    requires netloc != "" && PyStr.IsAscii(netloc) && NoneOf(netloc, NetlocStops)
    requires |tail| > 0 && (tail[0] == '?' || tail[0] == '#') && NoneOf(tail, Unsafe)
    ensures
      var (path, query, fragment) := SplitTail(tail);
      UrlSplit(scheme + "://" + netloc + tail, checks) == Some(SplitResult(scheme, netloc, path, query, fragment))
  {
    AssembledPrefix(scheme, netloc, tail, checks);
  }

  lemma AssembledPrefix(scheme: string, netloc: string, tail: string, checks: Checks)
    requires SchemeName(scheme)
    requires NoneOf(netloc, NetlocStops)
    requires |tail| > 0 && (tail[0] == '?' || tail[0] == '#') && NoneOf(tail, Unsafe)
    ensures SplitScheme(Clean(scheme + "://" + netloc + tail)) == (scheme, "//" + netloc + tail)
    ensures SplitNetloc("//" + netloc + tail) == (netloc, tail)
    ensures PyStr.StartsWith("//" + netloc + tail, "//") && BracketsOk(netloc, checks)
  {
    AssembledScheme(scheme, netloc, tail);
    AssembledNetloc(netloc, tail);
    NoneOfMember(netloc, NetlocStops);
  }

  lemma AssembledScheme(scheme: string, netloc: string, tail: string)
    requires SchemeName(scheme) && NoneOf(netloc, NetlocStops) && NoneOf(tail, Unsafe)
    ensures SplitScheme(Clean(scheme + "://" + netloc + tail)) == (scheme, "//" + netloc + tail)
  {
    var url := scheme + "://" + netloc + tail;
    AssembledClean(scheme, netloc, tail);
    assert url == scheme + ":" + ("//" + netloc + tail);
    SchemeOfAssembled(scheme, "//" + netloc + tail);
  }

  lemma AssembledNetloc(netloc: string, tail: string)
    requires NoneOf(netloc, NetlocStops)
    requires |tail| > 0 && (tail[0] == '?' || tail[0] == '#')
    ensures PyStr.StartsWith("//" + netloc + tail, "//")
    ensures SplitNetloc("//" + netloc + tail) == (netloc, tail)
  {
    var rest := "//" + netloc + tail;
    assert rest[..2] == "//" && rest[2..] == netloc + tail;
    NetlocOfAssembled(netloc, tail);
  }

  lemma SchemeOfAssembled(scheme: string, rest: string)
    requires SchemeName(scheme)
    ensures SplitScheme(scheme + ":" + rest) == (scheme, rest)
  {
    var url := scheme + ":" + rest;
    assert ':' !in scheme by {
      forall k | 0 <= k < |scheme| ensures scheme[k] != ':' { }
    }
    PyStr.PartitionAtFirst(scheme, ':', rest);
    assert url[..|scheme|] == scheme;
    assert url[0] == scheme[0];
    assert PyStr.Lower(scheme) == scheme;
  }

  lemma {:induction false} FirstOfPrefix(p: string, tail: string, cs: set<char>)
    requires forall c :: c in p ==> c !in cs
    requires |tail| > 0 && tail[0] in cs
    ensures FirstOf(p + tail, cs) == |p|
  {
    if |p| > 0 {
      assert p[0] in p;
      assert (p + tail)[1..] == p[1..] + tail;
      assert forall c :: c in p[1..] ==> c in p;
      FirstOfPrefix(p[1..], tail, cs);
    } else {
      assert p + tail == tail;
    }
  }

  /** The tail `?query#fragment` (or `#fragment` when the query is empty) holds an empty
      path, that query and that fragment. */
  lemma TailParts(query: string, fragment: string)
    requires '#' !in query
    ensures SplitTail((if query == "" then "" else "?" + query) + "#" + fragment) == ("", query, fragment)
  {
    var head := if query == "" then "" else "?" + query;
    assert '#' !in head;
    PyStr.PartitionAtFirst(head, '#', fragment);
    if query != "" {
      PyStr.PartitionAtFirst("", '?', query);
      assert "" + ['?'] + query == head;
    }
  }

  lemma DigitsAscii(port: nat)
    ensures NoneOf(Numerals.ShowNat(port), NetlocStops + {':', '@', '%'})
    ensures PyStr.IsAscii(Numerals.ShowNat(port))
  {
  }

  /** The host and port text of `user@host:port`. */
  lemma HostInfoOf(user: string, host: string, digits: string)
    requires '@' !in host && '@' !in digits && '[' !in host && '[' !in digits && ':' !in host
    ensures HostInfo(user + "@" + host + ":" + digits) == (host, digits)
  {
    var hostinfo := host + ":" + digits;
    var netloc := user + "@" + host + ":" + digits;
    assert netloc == user + ['@'] + hostinfo;
    assert '@' !in hostinfo;
    RPartitionAtLast(user, '@', hostinfo);
    assert '[' !in hostinfo;
    PyStr.PartitionAtFirst(host, ':', digits);
    assert host + [':'] + digits == hostinfo;
  }

  lemma UsernameOf(user: string, hostinfo: string)
    requires ':' !in user && '@' !in hostinfo
    ensures Username(user + "@" + hostinfo) == Some(user)
  {
    assert user + "@" + hostinfo == user + ['@'] + hostinfo;
    RPartitionAtLast(user, '@', hostinfo);
    assert PyStr.Partition(user, ':') == (user, false, "");
  }

  lemma HostnameOf(netloc: string, host: string)
    requires HostInfo(netloc).0 == host
    requires host != "" && '%' !in host && PyStr.Lower(host) == host
    ensures Hostname(netloc) == Some(host)
  {
    assert PyStr.Partition(host, '%') == (host, false, "");
    assert host + "" + "" == host;
  }

  lemma PortOfDigits(netloc: string, port: nat)
    requires HostInfo(netloc).1 == Numerals.ShowNat(port) && port <= 65535
    ensures PortOf(netloc) == PortNumber(port)
  {
    Numerals.DigitsOfShow(port);
  }

  /** The user, host and port of `user@host:port` read back as written when the host
      is lower-case and free of `%`. */
  lemma NetlocParts(user: string, host: string, port: nat)
    requires ':' !in user && '@' !in host && '[' !in host && ':' !in host
    requires host != "" && '%' !in host && PyStr.Lower(host) == host
    requires port <= 65535
    ensures
      var netloc := user + "@" + host + ":" + Numerals.ShowNat(port);
      Username(netloc) == Some(user) && Hostname(netloc) == Some(host) && PortOf(netloc) == PortNumber(port)
  {
    var digits := Numerals.ShowNat(port);
    var netloc := user + "@" + host + ":" + digits;
    DigitsAscii(port);
    NoneOfMember(digits, NetlocStops + {':', '@', '%'});
    HostInfoOf(user, host, digits);
    ConcatAssoc(user + "@", host, ":", digits);
    UsernameOf(user, host + ":" + digits);
    HostnameOf(netloc, host);
    PortOfDigits(netloc, port);
  }

  lemma ConcatAssoc(a: string, b: string, c: string, d: string)
    ensures a + b + c + d == a + (b + c + d)
  {
  }

  /** Reverse partitioning `a + [c] + b` where `b` has no `c` splits right before `b`. */
  lemma RPartitionAtLast(a: string, c: char, b: string)
    requires c !in b
    ensures PyStr.RPartition(a + [c] + b, c) == (a, true, b)
  {
    var s := a + [c] + b;
    assert s[|a|] == c;
    assert a == s[..|a|];
    assert b == s[|a| + 1..];
  }
}

=== FILE: utf8.dfy ===
/** UTF-8 as Python's `str.encode('utf-8')` and `bytes.decode('utf-8', errors)` use it.
    Decoding follows CPython: a maximal ill-formed subpart is one error, which the
    strict decoder turns into a failure and the `'replace'` decoder into U+FFFD. */
module Utf8 {
  import opened Wrappers

  type byte = b: int | 0 <= b < 256

  /** The bytes of one code point, shortest form. */
  function EncodeChar(c: char): (r: seq<byte>)
    ensures 1 <= |r| <= 4
    ensures (c as int < 128) <==> |r| == 1
    ensures |r| == 1 ==> r[0] == c as int
    ensures |r| > 1 ==> r[0] >= 0xC2
  {
    var v := c as int;
    if v < 0x80 then [v]
    else if v < 0x800 then [0xC0 + v / 64, 0x80 + v % 64]
    else if v < 0x10000 then [0xE0 + v / 4096, 0x80 + (v / 64) % 64, 0x80 + v % 64]
    else [0xF0 + v / 262144, 0x80 + (v / 4096) % 64, 0x80 + (v / 64) % 64, 0x80 + v % 64]
  }

  /** `s.encode('utf-8')`. */
  function Encode(s: string): seq<byte>
  {
    if |s| == 0 then [] else EncodeChar(s[0]) + Encode(s[1..])
  }

  predicate IsCont(b: byte) {
    0x80 <= b <= 0xBF
  }

  /** One decoding step at the start of `b`: how many bytes it consumes and the
      character it yields, or `None` when those bytes form an ill-formed subpart. */
  function Step(b: seq<byte>): (r: (nat, Option<char>))
    requires |b| > 0
    ensures 1 <= r.0 <= |b|
    ensures r.1.Some? && r.0 == 1 ==> b[0] < 0x80 && r.1.value as int == b[0]
    ensures b[0] < 0x80 ==> r == (1, Some(b[0] as char))
  {
    var x0: int := b[0];
    var x1: int := if |b| >= 2 then b[1] else 0;
    var x2: int := if |b| >= 3 then b[2] else 0;
    var x3: int := if |b| >= 4 then b[3] else 0;
    if x0 < 0x80 then (1, Some(x0 as char))
    else if 0xC2 <= x0 <= 0xDF then
      if |b| >= 2 && 0x80 <= x1 <= 0xBF then (2, Some(((x0 - 0xC0) * 64 + (x1 - 0x80)) as char))
      else (1, None)
    else if 0xE0 <= x0 <= 0xEF then
      var lo := if x0 == 0xE0 then 0xA0 else 0x80;
      var hi := if x0 == 0xED then 0x9F else 0xBF;
      if |b| >= 2 && lo <= x1 <= hi then
        if |b| >= 3 && 0x80 <= x2 <= 0xBF then
          (3, Some(((x0 - 0xE0) * 4096 + (x1 - 0x80) * 64 + (x2 - 0x80)) as char))
        else (2, None)
      else (1, None)
    else if 0xF0 <= x0 <= 0xF4 then
      var lo := if x0 == 0xF0 then 0x90 else 0x80;
      var hi := if x0 == 0xF4 then 0x8F else 0xBF;
      if |b| >= 2 && lo <= x1 <= hi then
        if |b| >= 3 && 0x80 <= x2 <= 0xBF then
          if |b| >= 4 && 0x80 <= x3 <= 0xBF then
            (4, Some(((x0 - 0xF0) * 262144 + (x1 - 0x80) * 4096 + (x2 - 0x80) * 64 + (x3 - 0x80)) as char))
          else (3, None)
        else (2, None)
      else (1, None)
    else (1, None)
  }

  /** `b.decode('utf-8')`: `None` stands for the `UnicodeDecodeError`. */
  function Decode(b: seq<byte>): Option<string>
    decreases |b|
  {
    if |b| == 0 then Some("")
    else
      var (n, c) := Step(b);
      if c.None? then None
      else
        match Decode(b[n..])
        case None => None
        case Some(rest) => Some([c.value] + rest)
  }

  /** `b.decode('utf-8', 'replace')`. */
  function DecodeReplace(b: seq<byte>): string
    decreases |b|
  {
    if |b| == 0 then ""
    else
      var (n, c) := Step(b);
      [c.GetOr('\U{FFFD}')] + DecodeReplace(b[n..])
  }

  /** The decoder reads back exactly the bytes the encoder wrote for one character. */
  lemma StepEncodeChar(c: char, rest: seq<byte>)
    ensures Step(EncodeChar(c) + rest) == (|EncodeChar(c)|, Some(c))
  {
    var v := c as int;
    if v < 0x80 {
    } else if v < 0x800 {
      StepTwo(c, rest);
    } else if v < 0x10000 {
      StepThree(c, rest);
    } else {
      StepFour(c, rest);
    }
  }

  lemma StepTwo(c: char, rest: seq<byte>)
    requires 0x80 <= c as int < 0x800
    ensures Step(EncodeChar(c) + rest) == (2, Some(c))
  {
    var v := c as int;
    var b := EncodeChar(c) + rest;
    assert b[0] == 0xC0 + v / 64 && b[1] == 0x80 + v % 64;
  }

  lemma StepThree(c: char, rest: seq<byte>)
    requires 0x800 <= c as int < 0x10000
    ensures Step(EncodeChar(c) + rest) == (3, Some(c))
  {
    var v := c as int;
    var b := EncodeChar(c) + rest;
    var q := v / 64;
    var h := v / 4096;
    assert v == q * 64 + v % 64;
    assert q == h * 64 + q % 64;
    assert b[0] == 0xE0 + h && b[1] == 0x80 + q % 64 && b[2] == 0x80 + v % 64;
    assert h * 4096 + (q % 64) * 64 + v % 64 == v;
  }

  lemma StepFour(c: char, rest: seq<byte>)
    requires 0x10000 <= c as int
    ensures Step(EncodeChar(c) + rest) == (4, Some(c))
  {
    var v := c as int;
    var b := EncodeChar(c) + rest;
    var q := v / 64;
    var p := v / 4096;
    var h := v / 262144;
    assert v == q * 64 + v % 64;
    assert q == p * 64 + q % 64;
    assert p == h * 64 + p % 64;
    assert b[0] == 0xF0 + h && b[1] == 0x80 + p % 64;
    assert b[2] == 0x80 + q % 64 && b[3] == 0x80 + v % 64;
    assert h * 262144 + (p % 64) * 4096 + (q % 64) * 64 + v % 64 == v;
  }

  lemma {:induction false} EncodeAppend(a: string, b: string)
    ensures Encode(a + b) == Encode(a) + Encode(b)
  {
    if |a| == 0 {
      assert a + b == b;
    } else {
      assert (a + b)[1..] == a[1..] + b;
      EncodeAppend(a[1..], b);
    }
  }

  /** Strict decoding inverts encoding. */
  lemma {:induction false} DecodeEncode(s: string)
    ensures Decode(Encode(s)) == Some(s)
  {
    if |s| > 0 {
      var e := EncodeChar(s[0]);
      assert Encode(s) == e + Encode(s[1..]);
      StepEncodeChar(s[0], Encode(s[1..]));
      assert (e + Encode(s[1..]))[|e|..] == Encode(s[1..]);
      DecodeEncode(s[1..]);
      assert Decode(Encode(s)) == Some([s[0]] + s[1..]);
      assert [s[0]] + s[1..] == s;
    }
  }

  /** Lenient decoding agrees with strict decoding on well-formed input. */
  lemma {:induction false} DecodeReplaceEncode(s: string)
    ensures DecodeReplace(Encode(s)) == s
  {
    if |s| > 0 {
      var e := EncodeChar(s[0]);
      assert Encode(s) == e + Encode(s[1..]);
      StepEncodeChar(s[0], Encode(s[1..]));
      assert (e + Encode(s[1..]))[|e|..] == Encode(s[1..]);
      DecodeReplaceEncode(s[1..]);
    }
  }

  /** An ASCII string encodes to its own code points, one byte each. */
  lemma {:induction false} EncodeAscii(s: string)
    requires forall k :: 0 <= k < |s| ==> s[k] as int < 128
    ensures |Encode(s)| == |s|
    ensures forall k :: 0 <= k < |s| ==> Encode(s)[k] == s[k] as int
  {
    if |s| > 0 {
      EncodeAscii(s[1..]);
    }
  }

  /** A sequence whose first byte is a continuation byte is not UTF-8. */
  lemma LeadingContinuationFails(b: seq<byte>)
    requires |b| > 0 && IsCont(b[0])
    ensures Decode(b) == None
  {
  }
}

=== FILE: values.dfy ===
/** The JSON-like values a proxy node is made of, the Python operations the converter
    applies to them (`dict.get`, `d[k]`, truthiness, `str()`, `int()`, `.lower()`), the
    exceptions those operations raise, and the library code the model treats as given. */
module Values {
  import opened Wrappers
  import Numerals
  import PyStr
  import Url

  /** A decoded JSON or YAML value. Mapping keys are strings; key order is not kept. */
  datatype Value =
    | Null
    | Bool(b: bool)
    | Int(i: int)
    | Str(s: string)
    | List(items: seq<Value>)
    | Dict(fields: map<string, Value>)

  /** A proxy node: the dictionary every parser produces and every stage passes on. */
  type Node = map<string, Value>

  /** The Python exceptions the modelled code can raise. */
  datatype PyError =
    | KeyError(key: string)
    | AttributeError
    | NameError(name: string)
    | TypeError
    | ValueError
    | FileNotFoundError(path: string)
    | OSError
    | ArchiveError  // `tarfile.ReadError`, `zipfile.BadZipFile`

  /** Library code outside the model, given as total functions: JSON and YAML text
      parsing (`None` for the decode error) and dumping, `repr` of a list or dict,
      and the host checks of `urlsplit`. */
  datatype Runtime = Runtime(
    jsonLoads: string -> Option<Value>,
    yamlLoad: string -> Option<Value>,
    jsonDumps: Value -> string,
    jsonDumpsIndented: Value -> string,
    yamlDump: Value -> string,
    reprContainer: Value -> string,
    urlChecks: Url.Checks)

  /** `node.get(key, default)`. */
  function Get(node: Node, key: string, default: Value): (r: Value)
    ensures key in node ==> r == node[key]
    ensures key !in node ==> r == default
  {
    if key in node then node[key] else default
  }

  /** `node[key]`, which raises `KeyError` for a missing key. */
  function Index(node: Node, key: string): (r: Result<Value, PyError>)
    ensures r.Ok? <==> key in node
    ensures r.Ok? ==> r.value == node[key]
    ensures r.Err? ==> r.error == KeyError(key)
  {
    if key in node then Ok(node[key]) else Err(KeyError(key))
  }

  /** `v.get(key, default)` on an arbitrary value: only a dictionary has `get`. */
  function GetAttr(v: Value, key: string, default: Value): (r: Result<Value, PyError>)
    ensures r.Ok? <==> v.Dict?
    ensures v.Dict? ==> r.value == Get(v.fields, key, default)
  {
    if v.Dict? then Ok(Get(v.fields, key, default)) else Err(AttributeError)
  }

  /** Python's `bool(v)`: exactly `None`, `False`, `0` and the empty string, list
      and dictionary are false. */
  predicate Truthy(v: Value): (b: bool)
    ensures !b <==> v == Null || v == Bool(false) || v == Int(0) || v == Str("") || v == List([]) || v == Dict(map[])
  {
    match v
    case Null => false
    case Bool(b) => b
    case Int(i) => i != 0
    case Str(s) => |s| > 0
    case List(items) => |items| > 0
    case Dict(fields) => |fields| > 0
  }

  /** `str(v)`, which is also what an f-string substitutes. */
  function Display(v: Value, rt: Runtime): (r: string)
    ensures v.Str? ==> r == v.s
    ensures v.Int? ==> Numerals.ParseInt(r) == Some(v.i)
    ensures v == Null ==> r == "None"
    ensures v.Bool? ==> r == if v.b then "True" else "False"
  {
    match v
    case Null => "None"
    case Bool(b) => if b then "True" else "False"
    case Int(i) => Numerals.ParseShow(i); Numerals.ShowInt(i)
    case Str(s) => s
    case List(_) => rt.reprContainer(v)
    case Dict(_) => rt.reprContainer(v)
  }

  /** `int(v)`: integers as they are, booleans as 0 and 1, decimal text parsed;
      `None`, lists and dictionaries raise `TypeError`. */
  function PyInt(v: Value): (r: Result<int, PyError>)
    ensures v.Int? ==> r == Ok(v.i)
    ensures v.Null? || v.List? || v.Dict? ==> r == Err(TypeError)
  {
    match v
    case Int(i) => Ok(i)
    case Bool(b) => Ok(if b then 1 else 0)
    case Str(s) =>
      (match Numerals.ParseInt(s)
       case Some(i) => Ok(i)
       case None => Err(ValueError))
    case _ => Err(TypeError)
  }

  /** `v.lower()`: only a string has it. */
  function LowerOf(v: Value): (r: Result<string, PyError>)
    ensures r.Ok? <==> v.Str?
    ensures r.Ok? ==> |r.value| == |v.s|
  {
    if v.Str? then Ok(PyStr.Lower(v.s)) else Err(AttributeError)
  }

  /** Keys the converter uses for its own bookkeeping start with `_`. */
  predicate Internal(key: string) {
    |key| > 0 && key[0] == '_'
  }

  /** `{k: v for k, v in node.items() if not k.startswith('_')}`. */
  function StripInternal(node: Node): (r: Node)
    ensures forall k :: k in r <==> k in node && !Internal(k)
    ensures forall k :: k in r ==> r[k] == node[k]
  {
    map k | k in node && !Internal(k) :: node[k]
  }

  /** A copy of the node without the two keys the parsers add
      (`pop("_original_link")`, `pop("_source_format")`). */
  function WithoutHelperKeys(node: Node): (r: Node)
    ensures forall k :: k in r <==> k in node && k != "_original_link" && k != "_source_format"
    ensures forall k :: k in r ==> r[k] == node[k]
  {
    node - {"_original_link", "_source_format"}
  }
}

=== FILE: wrappers.dfy ===
/** Failure-carrying datatypes shared by every module of the model. */
module Wrappers {

  /** A value that may be absent; Python's `None` versus a present value. */
  datatype Option<+T> = None | Some(value: T) {

    predicate IsFailure() {
      None?
    }

    function PropagateFailure<U>(): Option<U>
      requires None?
    {
      None
    }

    function Extract(): T
      requires Some?
    {
      value
    }

    /** The present value, or `default` when absent. */
    function GetOr(default: T): T {
      match this
      case Some(v) => v
      case None => default
    }
  }

  /** A computation that either returns a value or raises an exception `E`. */
  datatype Result<+T, +E> = Ok(value: T) | Err(error: E) {

    predicate IsFailure() {
      Err?
    }

    function PropagateFailure<U>(): Result<U, E>
      requires Err?
    {
      Err(error)
    }

    function Extract(): T
      requires Ok?
    {
      value
    }
  }
}
